=== FILE: README.md ===
# JomiMed core, modelled in Dafny

JomiMed is a multi-tenant clinic management system. Every row belongs to a clinic, and every service call is made on behalf
of the caller's clinic. This project models the core of its server and two pieces of its form UI as pure Dafny
functions over in-memory tables, and proves what each operation promises. The covered parts are:

- **Request gate** (`Middleware`). Public paths pass. Other paths need a bearer token or a `token` cookie. The token
  is verified, role-based redirects are applied, and the identity headers are attached.
- **Route wrapper** (`ApiHandler`). It runs a handler on a schema-validated body or directly, and maps every thrown
  message to a JSON error with status 400, 401, 403, 404, 409 or 500.
- **Plans and quotas**:
  - the `PLANS` table (`Plans`);
  - the self-healing quota gate `checkLimit`, feature flags and usage summary (`SubscriptionService`);
  - the permission catalogue and check (`PermissionService`).
- **Services**:
  - login (`LoginUseCase`);
  - patients, with quota, duplicate check, tenant-guarded reads and updates, and the paginated search listing
    (`PatientService`);
  - appointments, with the doctor-availability check (`AppointmentService`, over the range queries of
    `AppointmentRepository`);
  - invoices and payments (`FinanceService`);
  - medical records (`MedicalRecordService`).
- **Super-admin clinics endpoint** (`AdminClinicsRoute`). POST creates a clinic, its subscription, a system ADMIN
  role and an admin user, including the slug derived from the name. GET returns the display rows.
- **Form UI**:
  - the patient form's split of answers into standard fields and `customData` (`CreatePatientModal`);
  - the builder's comma-separated options editor (`PropertiesPanel`).
- **Route handlers** (`ApiRoutes`). POST /api/patients, POST /api/appointments, GET /api/patients/[id],
  GET /api/appointments/[id] and PUT /api/finance/invoices/[id] are modelled with their clinic-header checks and their
  own catch blocks. The two POST routes answer every thrown error with 400, and the invoice PUT answers with 500.
- **Cross-module facts** (`ErrorStatuses`). These give the HTTP status each service refusal reaches the client with.
  Only the login route and the appointment lookup by id throw into `apiHandler`. For the other refusals the lemmas
  also state the status `apiHandler` would map the message to. A last lemma shows that a token issued at login passes
  the request gate.

The database, the clock, password hashing and token signing are outside the model. They appear as parameters:
tables are `seq`s or `map`s, `now` is an integer instant, and `passwordMatches`, `hash`, `sign` and `verify` are
functions. Amounts are exact integers, and instants are milliseconds.

Shared helpers:

- `Results`: `Option` and `Result`.
- `Text`: JavaScript's `startsWith`, `includes`, `split`, `join`, `trim` and `toLowerCase` on ASCII text, plus
  decimal rendering.
- `Sequences`: filtering and a stable sort by an integer key. `SortedFilter` is the meaning of a `findMany` with
  `where` and `orderBy`.

## Model

| member | source | states |
|---|---|---|
| Plans.PlanFor | src/core/application/services/SubscriptionService.ts:32 | The twelve names a plain object inherits from `Object.prototype` give an inherited member with no ceilings; PRO and ENTERPRISE are chosen exactly by their names; every other name falls back to FREE |
| Plans.LookupExamples | src/core/application/services/SubscriptionService.ts:32 | FREE, a lower-case pro and the empty name give FREE; constructor and __proto__ give the inherited member |
| Plans.TierValues | src/core/config/plans.ts:1-20 | The three tiers' user, patient and byte ceilings |
| Plans.TiersStrictlyIncrease | src/core/config/plans.ts:1-20 | Every ceiling grows strictly from FREE to PRO to ENTERPRISE |
| Plans.FeatureSetsNotNested | src/core/config/plans.ts:1-20 | BASIC_EMR is on FREE but not on PRO; only ENTERPRISE lists ALL |
| PermissionService.AllPermissions | src/core/application/services/PermissionService.ts:28-30 | The permission strings in catalogue order |
| PermissionService.CatalogueDistinct | src/core/application/services/PermissionService.ts:1-23 | Fourteen permissions, pairwise different, none the wildcard |
| PermissionService.ValidateMeaning | src/core/application/services/PermissionService.ts:32-37 | The wildcard passes every check; without it a check passes iff the required set is within the granted set; an empty requirement passes |
| PermissionService.MonotoneInGrants | src/core/application/services/PermissionService.ts:32-37 | Granting more never revokes access |
| PermissionService.AntitoneInRequirements | src/core/application/services/PermissionService.ts:32-37 | Requiring less never revokes access |
| SubscriptionService.Healed | src/core/application/services/SubscriptionService.ts:16-26 | A missing row is inserted as an ACTIVE FREE subscription; an existing row is left alone |
| SubscriptionService.UpgradeMessage | src/core/application/services/SubscriptionService.ts:53-55 | The refusal starts with "Upgrade required" |
| SubscriptionService.CheckLimit | src/core/application/services/SubscriptionService.ts:12-58 | The table after self-healing; a non-ACTIVE row is refused as suspended; the check passes iff the row is ACTIVE and usage is below the plan's ceiling, where an inherited plan has none; any other refusal is the upgrade message naming the resource, the amount used and the plan's ceiling, which then exists |
| SubscriptionService.MissingSubscriptionActsAsFree | src/core/application/services/SubscriptionService.ts:16-51 | A clinic without a row is gated exactly as an active FREE clinic with nothing stored |
| SubscriptionService.PassingCheckLeavesRoom | src/core/application/services/SubscriptionService.ts:37-55 | A passing user or patient check leaves room for one more under the effective plan's ceiling, if it has one |
| SubscriptionService.StorageCountsTheRequest | src/core/application/services/SubscriptionService.ts:47-55 | Storage passes only when stored bytes plus the request stay strictly below the ceiling, if there is one |
| SubscriptionService.InheritedPlanHasNoCeiling | src/core/application/services/SubscriptionService.ts:32-55 | An active subscription whose plan name is inherited from `Object.prototype` passes every check, whatever the usage |
| SubscriptionService.ConstructorPlanAdmitsAnyCount | src/core/application/services/SubscriptionService.ts:32-55 | A clinic on a plan named constructor passes the patient check at a million patients |
| SubscriptionService.GateMonotoneInUsage | src/core/application/services/SubscriptionService.ts:37-55 | Less usage never turns a pass into a refusal |
| SubscriptionService.GatedCountWithinPlan | src/core/application/services/SubscriptionService.ts:12-58 | Any run of creations each preceded by a passing check keeps the count within the plan ceiling whenever the plan has one |
| SubscriptionService.InheritedPlanCountsEveryAttempt | src/core/application/services/SubscriptionService.ts:12-58 | On an active inherited plan every gated creation goes through: the count grows by the number of attempts |
| SubscriptionService.HasFeature | src/core/application/services/SubscriptionService.ts:60-68 | False without a row; a TypeError iff the plan name is inherited from `Object.prototype`; otherwise true on a plan listing ALL, else membership in the plan's features |
| SubscriptionService.SelfHealingGrantsFreeFeatures | src/core/application/services/SubscriptionService.ts:60-68 | A clinic without a row has no features, and gains FREE's after a quota check inserts its row |
| SubscriptionService.PlanFeatureExamples | src/core/application/services/SubscriptionService.ts:64-67 | ENTERPRISE enables every code; FREE has no FINANCE; a plan named toString throws |
| SubscriptionService.GetUsageStats | src/core/application/services/SubscriptionService.ts:70-94 | Null iff the clinic has no row; otherwise the plan, status, live counts against the ceilings (absent iff the plan is inherited), and a null storage reading shown as 0 |
| SubscriptionService.StatsAgreeWithGate | src/core/application/services/SubscriptionService.ts:70-94 | For an active clinic each resource passes the gate iff its meter is below its maximum, or has none |
| AppointmentRepository.FindByDateRange | src/infrastructure/persistence/appointments/PrismaAppointmentRepository.ts:28-40 | Sorted by start; the multiset of the clinic's rows whose start is in the inclusive window: each such row, and only such rows |
| AppointmentRepository.FindByDoctorAndDateRange | src/infrastructure/persistence/appointments/PrismaAppointmentRepository.ts:42-55 | Sorted by start; the multiset of the clinic's and doctor's rows whose start is in the inclusive window |
| AppointmentRepository.DoctorQueryWithinRangeQuery | src/infrastructure/persistence/appointments/PrismaAppointmentRepository.ts:28-55 | The doctor query's rows are a sub-multiset of the clinic query's rows |
| AppointmentRepository.WindowExcludesEarlierAndForeign | src/infrastructure/persistence/appointments/PrismaAppointmentRepository.ts:28-55 | A row starting before the window, or of another clinic, is never returned |
| AppointmentRepository.IndexOfId | src/infrastructure/persistence/appointments/PrismaAppointmentRepository.ts:21-26 | The first position holding the id, or none when no row has it |
| AppointmentRepository.FindById | src/infrastructure/persistence/appointments/PrismaAppointmentRepository.ts:21-26 | Some row with the id iff one exists |
| AppointmentService.CheckedDuration | src/core/application/services/AppointmentService.ts:9 | A missing or zero duration becomes 30 minutes; any other value is kept |
| AppointmentService.OverlapSymmetricAndHalfOpen | src/core/application/services/AppointmentService.ts:24 | The overlap test is symmetric and slots that only touch do not overlap |
| AppointmentService.OverlapMeansSharedInstant | src/core/application/services/AppointmentService.ts:24 | For non-empty slots the test holds iff some instant lies in both |
| AppointmentService.CreateAppointment | src/core/application/services/AppointmentService.ts:7-36 | Refused as unavailable iff a doctor is given and a fetched row (same clinic and doctor, starting within the slot) overlaps; otherwise exactly one row is appended, with the caller's clinic, the body's patient, doctor, start, status, reason and notes, and the given duration or 30 minutes |
| AppointmentService.NoDoctorNoCheck | src/core/application/services/AppointmentService.ts:13 | Without a doctor the booking always succeeds |
| AppointmentService.LaterStartInSlotBlocks | src/core/application/services/AppointmentService.ts:13-29 | A row of the same doctor starting inside the new slot blocks it |
| AppointmentService.EarlierOverlapAccepted | src/core/application/services/AppointmentService.ts:14-25 | As written, a booking that overlaps an earlier-starting row is accepted and the store then holds a double booking |
| AppointmentService.CreateAppointmentStrict | src/core/application/services/AppointmentService.ts:7-36 | The corrected rule: refused iff a doctor is given and some stored row of that clinic and doctor overlaps the slot, wherever it starts; otherwise exactly the new row is appended; freedom from double bookings is preserved |
| AppointmentService.StrictOverlapIsBlocking | src/core/application/services/AppointmentService.ts:21-25 | Some row of the doctor's filtered rows overlaps the slot iff some stored row of that clinic and doctor does |
| AppointmentService.StrictAppendKeepsNoDoubleBooking | src/core/application/services/AppointmentService.ts:21-29 | Appending a slot that overlaps none of its doctor's rows keeps the store free of double bookings |
| AppointmentService.GetAppointments | src/core/application/services/AppointmentService.ts:38-42 | Sorted by start; the multiset of the clinic's rows starting within the inclusive window: every such stored row is listed, and nothing else |
| AppointmentService.BookingIsListed | src/core/application/services/AppointmentService.ts:7-42 | An accepted booking is listed for its clinic in every window containing its start, and never in another clinic's listing |
| AppointmentService.FoundByUniqueId | src/infrastructure/persistence/appointments/PrismaAppointmentRepository.ts:21-26 | A row whose id no other row carries is found by that id |
| AppointmentService.CreatedIsFound | src/core/application/services/AppointmentService.ts:32-35 | A booking created under a fresh id is then found by it |
| AppointmentService.UpdateAppointment | src/core/application/services/AppointmentService.ts:44-50 | Refused as not found iff the row is missing or foreign; otherwise only that row is replaced by its patched version, where the patch may replace the clinic, patient, doctor, start, duration, status, reason and notes |
| AppointmentService.RescheduleIsUnchecked | src/core/application/services/AppointmentService.ts:44-50 | An update can move a booking onto another booking of the same doctor |
| AppointmentService.DeleteAppointment | src/core/application/services/AppointmentService.ts:52-58 | Refused iff missing or foreign; otherwise exactly that row is removed and the rest keep their order |
| AppointmentService.DeletedIsGone | src/core/application/services/AppointmentService.ts:52-58 | With unique ids, a deleted row is no longer found and every other id finds what it found before |
| FinanceService.ReduceIsLineTotal | src/core/application/services/FinanceService.ts:8 | The left fold of quantity times unit price equals the line total added to the start value |
| FinanceService.LineTotalAppend | src/core/application/services/FinanceService.ts:8 | The total of concatenated lines is the sum of the totals |
| FinanceService.ValidTotalCoversLines | src/core/application/services/FinanceService.ts:8 | For valid lines the total is non-negative and covers each line |
| FinanceService.CreateInvoice | src/core/application/services/FinanceService.ts:7-18 | The caller's clinic, the line total, nothing paid, PENDING |
| FinanceService.NextStatus | src/core/application/services/FinanceService.ts:40-45 | PAID when the balance is not positive, PARTIAL when something is paid, otherwise unchanged |
| FinanceService.RecordPayment | src/core/application/services/FinanceService.ts:24-53 | Refused iff the invoice is missing or foreign; otherwise one payment is appended (method defaulting to CASH) and only that invoice's paid amount and status change |
| FinanceService.CreatedInvoiceReconciled | src/core/application/services/FinanceService.ts:7-18 | A new invoice's status agrees with its paid amount |
| FinanceService.PaymentKeepsReconciled | src/core/application/services/FinanceService.ts:24-53 | A non-negative payment keeps every invoice reconciled, and a PAID invoice stays PAID |
| FinanceService.PayingBalanceSettles | src/core/application/services/FinanceService.ts:36-45 | Paying at least the balance makes the invoice PAID |
| LoginUseCase.FindByEmail | src/core/application/use-cases/LoginUseCase.ts:10 | A user with that email, or none when no user has it |
| LoginUseCase.Execute | src/core/application/use-cases/LoginUseCase.ts:9-58 | Unknown email, inactive account, suspended clinic and wrong password are refused in that order; success iff all pass; the token signs the user's claims and the view carries the user's id, email, names, role and clinic with its name, logo and colour |
| LoginUseCase.UnknownEmailLooksLikeWrongPassword | src/core/application/use-cases/LoginUseCase.ts:12-27 | An unknown email and a wrong password get the same answer |
| LoginUseCase.NoTokenOnFailure | src/core/application/use-cases/LoginUseCase.ts:12-36 | No refusal depends on the signer |
| LoginUseCase.ViewHidesHash | src/core/application/use-cases/LoginUseCase.ts:41-57 | The returned user view does not depend on the password hash |
| LoginUseCase.ChecksAreOrdered | src/core/application/use-cases/LoginUseCase.ts:16-27 | The account is checked before the clinic, and the clinic before the password |
| PatientService.FindByDocument | src/infrastructure/persistence/patients/PrismaPatientRepository.ts:23-32 | A row of that clinic with that document, or none iff none exists |
| PatientService.CreatePatient | src/core/application/services/PatientService.ts:14-37 | The quota first, then the per-clinic duplicate check, then one appended row with the caller's clinic and the body's fields, `gender` included; success iff both pass; on failure the table is unchanged |
| PatientService.DuplicateCheckIsPerClinic | src/core/application/services/PatientService.ts:19-22 | A document number used only in other clinics does not block |
| PatientService.CreateKeepsQuota | src/core/application/services/PatientService.ts:14-37 | One creation never takes a clinic's patient count past its plan ceiling, if it has one, and leaves the ceiling unchanged |
| PatientService.PatientsStayWithinPlan | src/core/application/services/PatientService.ts:14-37 | Any run of creation requests from any clinics keeps every clinic within its plan's patient ceiling, where there is one |
| PatientService.IndexOfId | src/core/application/services/PatientService.ts:58 | The position of the row with the id, or none |
| PatientService.GetPatient | src/core/application/services/PatientService.ts:57-63 | Null iff the row is missing or foreign; otherwise the caller's own row |
| PatientService.CreatedPatientIsTenantScoped | src/core/application/services/PatientService.ts:14-63 | A patient created under a fresh id is read back by its own clinic and by no other |
| PatientService.UpdatePatient | src/core/application/services/PatientService.ts:39-46 | Refused iff missing or foreign; otherwise only that row changes |
| PatientService.UpdateStaysInTenant | src/core/application/services/PatientService.ts:39-46 | A successful update leaves every other clinic's rows untouched |
| PatientService.Listing | src/infrastructure/persistence/patients/PrismaPatientRepository.ts:34-57 | Most recently updated first; exactly the clinic's rows matching the search |
| PatientService.Window | src/infrastructure/persistence/patients/PrismaPatientRepository.ts:50-55 | Exactly take rows when that many remain after skip, otherwise the rest; the rows from position skip on, in order |
| PatientService.BackWindowIsTail | src/infrastructure/persistence/patients/PrismaPatientRepository.ts:50-55 | Paging backwards by take after skip yields the slice of the listing that ends skip rows before its end, at most take rows, in forward order |
| PatientService.GetPatients | src/core/application/services/PatientService.ts:48-55 | Refused iff skip = (page - 1) * limit is negative; otherwise the full count, the forward page for a non-negative limit, the backward page for a negative one, all from the caller's clinic |
| PatientService.NegativeLimitShowsLastRows | src/core/application/services/PatientService.ts:48-55 | Page 1 with limit -5 returns the last five rows of the listing and the full count |
| PatientService.PagesTile | src/core/application/services/PatientService.ts:48-55 | Pages one to n laid end to end are the first n times limit rows: no row skipped or repeated |
| MedicalRecordService.CreateRecord | src/core/application/services/MedicalRecordService.ts:7-17 | The caller's clinic, author and clock are written; patient, template and content come from the body |
| MedicalRecordService.CreateIgnoresSuppliedOwnership | src/core/application/services/MedicalRecordService.ts:11-16 | The body's own clinic, author and date have no effect |
| MedicalRecordService.GetPatientHistory | src/infrastructure/persistence/medical-records/PrismaMedicalRecordRepository.ts:28-34 | Newest first; exactly the patient's records in that clinic |
| MedicalRecordService.GetRecord | src/core/application/services/MedicalRecordService.ts:23-29 | Null iff the record is missing or foreign |
| MedicalRecordService.CreatedRecordIsTenantScoped | src/core/application/services/MedicalRecordService.ts:7-29 | A new record is readable by its clinic only and appears in the patient's history there |
| Middleware.Decide | src/middleware.ts:17-91 | Public paths pass; with no token: 401 Unauthorized on /api, redirect to /login elsewhere; a rejected token: 401 Invalid Token or the redirect; a verified token gets the first matching role redirect, else passes with its user id, clinic id and role id |
| Middleware.PrefixMatchIsLoose | src/middleware.ts:21 | Public matching is by bare prefix: /loginX is public |
| Middleware.HeaderTokenIgnoresScheme | src/middleware.ts:28 | The word after the first space is the token whatever the scheme, and the cookie is then ignored |
| Middleware.HeaderWithoutSpaceFallsBackToCookie | src/middleware.ts:28-36 | A header without a space yields no token, so the cookie is used |
| Middleware.RoleAreasAreEnforced | src/middleware.ts:58-72 | A PATIENT never reaches /dashboard or /doctor; a DOCTOR never reaches /dashboard or /portal |
| Middleware.FirstRuleWins | src/middleware.ts:58-72 | The redirect targets of the four rules for the overlapping cases |
| Middleware.TargetsNotPublic | src/middleware.ts:8-15 | No redirect target is public |
| Middleware.TargetRules | src/middleware.ts:58-72 | Which rule, if any, fires on each redirect target for each role; every redirect goes to one of the three targets |
| Middleware.RedirectsSettle | src/middleware.ts:58-72 | A redirected request with a valid token settles within two hops on a page that passes |
| Middleware.DocPrefixExposesDoctorApi | src/middleware.ts:13 | As written, /api/doctors and /api/doctor/consultation pass without a token |
| Middleware.DecideStrict | src/middleware.ts:17-91 | The gate with public entries matched at a segment boundary; without a token an /api path gets 401 |
| Middleware.StrictNarrowsPublic | src/middleware.ts:8-15 | The corrected match only narrows the public set and keeps every listed entry public |
| Middleware.StrictProtectsDoctorApi | src/middleware.ts:13 | Under the corrected match no /api/doctor path is public, so without a token it gets 401 |
| ApiHandler.ErrorResponse | src/lib/api-handler.ts:31-59 | 400 iff a validation error; then 401 iff an exact login message; 403 iff an upgrade or suspended-clinic message; 404 iff "not found"; 409 iff "already exists"; otherwise 500 with the message as details |
| ApiHandler.Run | src/lib/api-handler.ts:11-61 | A direct handler's response is returned unchanged; a schema without handler and an invalid first argument give 500 with the wrapper's message; in schema mode the body and parse errors are mapped, and a parsed body reaches the handler |
| ApiHandler.AuthMatchIsExact | src/lib/api-handler.ts:40-42 | A message that only resembles a login message is not 401 |
| ApiHandler.EarlierRulesWin | src/lib/api-handler.ts:44-54 | A quota message mentioning "not found" is 403; a "not found" message also saying "already exists" is 404 |
| ApiHandler.UnmappedMessage | src/lib/api-handler.ts:18-30 | The wrapper's own usage errors are answered with 500 |
| CreatePatientModal.Partition | src/components/patients/CreatePatientModal.tsx:37-46 | Every answer lands with its value in exactly one place: the six standard keys at the top level, every other key in customData |
| CreatePatientModal.AllFields | src/components/patients/CreatePatientModal.tsx:72-80 | The six standard fields in order, the first four required, followed by the custom fields |
| CreatePatientModal.RenderedStandardFields | src/components/patients/CreatePatientModal.tsx:37-80 | The leading rendered field ids are exactly the standard names, each once |
| PropertiesPanel.Display | src/components/forms/builder/PropertiesPanel.tsx:69 | Missing or empty options display as empty text; a single option displays as itself |
| PropertiesPanel.Parse | src/components/forms/builder/PropertiesPanel.tsx:70 | One option per comma plus one, none holding a comma or edge whitespace |
| PropertiesPanel.OptionsEditor | src/components/forms/builder/PropertiesPanel.tsx:65-69 | The editor is shown iff the field is a select or checkbox, holding the displayed options |
| PropertiesPanel.EditOptions | src/components/forms/builder/PropertiesPanel.tsx:70 | Editing replaces the options with the parsed list and changes nothing else |
| PropertiesPanel.DisplayParseRoundTrip | src/components/forms/builder/PropertiesPanel.tsx:69-70 | Options without commas or edge whitespace survive display and re-parse unchanged |
| PropertiesPanel.ParseIsStable | src/components/forms/builder/PropertiesPanel.tsx:69-70 | Parsing the display of a parsed list gives the same list |
| PropertiesPanel.EmptyTextGivesOneEmptyOption | src/components/forms/builder/PropertiesPanel.tsx:69-70 | An empty option list displays as empty text, and empty text parses to one empty option |
| AdminClinicsRoute.ReplaceSpaceRuns | src/app/api/admin/clinics/route.ts:17 | The result has no whitespace and is no longer than the input |
| AdminClinicsRoute.Slug | src/app/api/admin/clinics/route.ts:17 | A given subdomain is used as is; otherwise the slug has no whitespace and no upper-case letter |
| AdminClinicsRoute.NoSpaceUnchanged | src/app/api/admin/clinics/route.ts:17 | Text without whitespace is left as it is |
| AdminClinicsRoute.DerivedSlugIsStable | src/app/api/admin/clinics/route.ts:17 | Deriving a slug from a derived slug changes nothing |
| AdminClinicsRoute.RunBecomesOneDash | src/app/api/admin/clinics/route.ts:17 | A whitespace run between two pieces becomes exactly one '-' |
| AdminClinicsRoute.SpaceRunDropped | src/app/api/admin/clinics/route.ts:17 | A leading whitespace run becomes exactly one '-' |
| AdminClinicsRoute.PlanOrFree | src/app/api/admin/clinics/route.ts:22 | A given plan name is kept; otherwise FREE |
| AdminClinicsRoute.CreateClinic | src/app/api/admin/clinics/route.ts:7-57 | An ACTIVE clinic with its slug, an ACTIVE subscription, a system ADMIN role holding the wildcard, and an admin user with the hashed password, all tied to the new clinic |
| AdminClinicsRoute.AdminRoleGrantsEverything | src/app/api/admin/clinics/route.ts:30-38 | The created role passes every permission check |
| AdminClinicsRoute.FreeClinicIsFullOfUsers | src/app/api/admin/clinics/route.ts:20-25 | On FREE the admin fills the only user seat: a users quota check would refuse the next user, while patients are accepted |
| AdminClinicsRoute.FormatRow | src/app/api/admin/clinics/route.ts:76-84 | Id, name and status copied; plan defaults to FREE and users to 0; fixed revenue and audit placeholders |
| AdminClinicsRoute.ListClinics | src/app/api/admin/clinics/route.ts:60-87 | The rows of the clinics in newest-first order: one per clinic and only those |
| ErrorStatuses.LoginRefusalStatus | src/lib/api-handler.ts:40-46 | Every login refusal is 401, except the suspended clinic, which is 403 |
| ErrorStatuses.QuotaRefusalStatus | src/app/api/patients/route.ts:36-49 | A quota refusal of an active subscription reaches the client as 400 from POST /api/patients, although `apiHandler` would map it to 403 |
| ErrorStatuses.NotFoundStatus | src/lib/api-handler.ts:48-50 | `apiHandler` maps the appointment, invoice and patient "not found" messages to 404 |
| ErrorStatuses.UnknownAppointmentIs404 | src/lib/api-handler.ts:48-50 | In src/app/api/appointments/[id]/route.ts:25-27 an unknown id throws "Appointment not found" into `apiHandler`, and GET /api/appointments/[id] answers 404 with that message |
| ErrorStatuses.UnknownInvoiceIs500 | src/core/application/services/FinanceService.ts:24-26 | The "Invoice not found" that `recordPayment` throws for an unknown or foreign invoice reaches the client of PUT /api/finance/invoices/[id] (its route.ts:49-51) as 500 "Failed to update", although `apiHandler` would map the message to 404 |
| ErrorStatuses.DuplicatePatientStatus | src/app/api/patients/route.ts:36-49 | A duplicate document reaches the client as 400 with the duplicate message, whatever the document; no patient row is written, but the quota check may have inserted the clinic's FREE subscription |
| ErrorStatuses.DuplicateMessageStatus | src/lib/api-handler.ts:52-54 | `apiHandler` maps the duplicate message to 409 when the document has none of the letters the earlier rules match on |
| ErrorStatuses.DocumentTextSteersStatus | src/lib/api-handler.ts:48-54 | Under `apiHandler` the document number would steer the status: a document reading "not found" would turn the duplicate message into 404 |
| ErrorStatuses.UnmatchedRefusalsAre500 | src/lib/api-handler.ts:58 | `apiHandler` would answer a suspended subscription and a busy doctor with 500 |
| ErrorStatuses.ServiceRefusalsAre400 | src/app/api/patients/route.ts:36-49 | A suspended subscription refused by POST /api/patients, and a busy doctor refused by POST /api/appointments, both reach the client as 400 with the service's message |
| ErrorStatuses.LoginTokenPassesGate | src/middleware.ts:74-83 | A token issued at login, sent as a bearer header to a protected path without a redirect, passes with the user's id, clinic and role id |
| ApiRoutes.PostPatients | src/app/api/patients/route.ts:36-49 | 403 without a clinic header; every body or service error is 400 with its message and writes no patient row, though the quota check may still insert the clinic's FREE subscription; otherwise the created patient and the service's tables |
| ApiRoutes.PostAppointments | src/app/api/appointments/route.ts:51-64 | 403 without a clinic header; every body or service error, the busy doctor included, is 400 with its message and writes nothing; otherwise the booking and the new store |
| ApiRoutes.GetPatientById | src/core/application/services/PatientService.ts:57-63 | GET /api/patients/[id] (its route.ts:10-20): 403 without a clinic header; the caller's own row iff `getPatient` finds it; otherwise 404 "Patient not found" |
| ApiRoutes.GetAppointmentById | src/lib/api-handler.ts:25-27 | GET /api/appointments/[id] (its route.ts:5-30) runs in `apiHandler`'s direct mode: the row by id alone, with no clinic check; an unknown id is `apiHandler`'s response to "Appointment not found" |
| ApiRoutes.FindInvoice | src/infrastructure/persistence/finance/PrismaFinanceRepository.ts:21-26 | The lookup by id alone that PUT /api/finance/invoices/[id] makes (its route.ts:33): the invoice with the id whatever its clinic, or none iff no invoice has it |
| ApiRoutes.PayFromRoute | src/core/application/services/FinanceService.ts:24-53 | `recordPayment` called from PUT /api/finance/invoices/[id] (its route.ts:37-51): a refused payment becomes 500 "Failed to update" with nothing written; a recorded one returns the new tables |
| ApiRoutes.PutInvoice | src/core/application/services/FinanceService.ts:24-53 | PUT /api/finance/invoices/[id] (its route.ts:22-53) around `recordPayment`: 403 without a clinic header; a truthy amount records that payment; PAID without one settles an existing invoice's positive balance or answers success without writing; 400 "Invalid action" iff neither applies; every thrown error is 500; no refusal writes |
| ApiRoutes.PaidWithoutAmountSettles | src/core/application/services/FinanceService.ts:36-45 | PUT /api/finance/invoices/[id] with PAID and no amount (its route.ts:31-40): on the caller's invoice with a balance it records one payment and leaves the invoice PAID with its total paid |
| ApiRoutes.PaidConfirmationSeesForeignInvoices | src/core/application/services/FinanceService.ts:24-26 | PUT /api/finance/invoices/[id] with PAID and no amount (its route.ts:31-40) on another clinic's invoice answers success when it is fully paid and 500 otherwise (the refusal in `recordPayment`), writing nothing either way |
| Text.Split | src/components/forms/builder/PropertiesPanel.tsx:70 | At least one piece, none containing the separator |
| Text.SplitJoin | src/components/forms/builder/PropertiesPanel.tsx:69-70 | Splitting a join of separator-free pieces gives the pieces back |
| Text.JoinSplit | src/components/forms/builder/PropertiesPanel.tsx:69-70 | Joining the pieces with the separator restores the text |
| Text.Trim | src/components/forms/builder/PropertiesPanel.tsx:70 | No edge whitespace and no longer than the input |
| Text.TrimIsInnerSlice | src/components/forms/builder/PropertiesPanel.tsx:70 | What `trim` keeps is one contiguous slice of the input, and every character cut before or after it is whitespace |

## Left out

- Database, ORM transactions and concurrency: the tables are values, and two requests never interleave. The
  duplicate and overlap checks are read-then-write in the source and race under concurrency.
- Password hashing, JWT signing and verification, and token expiry are the function parameters `passwordMatches`,
  `hash`, `sign` and `verify`. `VerifiesSigned` states only that verification returns the claims that were signed.
- Dates: `new Date(...)` parsing and `setFullYear` are left out. Instants are integers. The self-healed
  subscription's start and end dates are not modelled, and so SubscriptionService.GetUsageStats leaves out the
  `periodStart` and `periodEnd` it returns (src/core/application/services/SubscriptionService.ts:86-87).
- Case folding and `contains` are ASCII only. Prisma's `mode: 'insensitive'` folds Unicode.
- Whitespace is ASCII only. JavaScript's `\s` and `trim` also treat U+00A0, U+FEFF, U+2028 and the other Unicode
  spaces as whitespace. This affects AdminClinicsRoute.Slug and PropertiesPanel.Parse, which keep such characters
  as ordinary text.
- React rendering, state and `fetch`, `alert` and logging. The UI modules keep only the data transformations.
- PatientService.CreatePatient: the custom-data validation block is empty in the source and is not modelled. The
  `dateOfBirth` conversion is identity on integer instants. The schema accepts any JSON value in `customData`
  (`z.record(z.string(), z.any())`), but the model narrows the values to strings. The service copies the map
  unchanged, so no contract depends on the value type.
- SubscriptionService.CheckLimit: the user and patient counts are the `Usage` parameter, not queries.
- PatientService.GetPatients: the source's default skip and take of 0 and 10 are unreachable from this caller,
  because it always passes both. NaN from a non-numeric page or limit is not modelled. The ORM rejects a negative
  skip with an error of its own; the model refuses it with its own message. A negative take is modelled as the ORM's
  backward paging.
- PatientService.Listing, MedicalRecordService.GetPatientHistory, AppointmentRepository.FindByDateRange: the order
  of rows with equal sort keys is unspecified in the ORM. The model fixes one stable order, and the contracts promise
  only sortedness and the multiset of rows.
- AdminClinicsRoute.ListClinics: the row contents are stated per clinic, and the newest-first order is stated
  through the sorted sequence of clinics the rows are formatted from.
- FinanceService: `getInvoices` is a plain pass-through query and is not modelled. Decimal arithmetic is exact integer
  arithmetic.
- FinanceService.CreateInvoice: the source sums `quantity * unitPrice` as JavaScript floating-point numbers
  (src/core/application/services/FinanceService.ts:8), and only then wraps the sum in a `Decimal`. So 3 items at 0.1
  give 0.30000000000000004. The model sums exact integer amounts.
- ApiHandler.ErrorResponse: the 500 body also carries `stack: err.stack` (src/lib/api-handler.ts:58), which sends the
  server's stack trace to the client. A stack trace is not a value in the model, so `ErrorJson` keeps only the error
  and its details.
- TokenService's `sign` and `verify` bodies are cryptography. Only the payload's shape is modelled.
- The middleware's `config.matcher` exclusion of static files is not modelled: every path reaches the gate.
- Plans.PlanFor: a plan name inherited from `Object.prototype` is modelled as one `Inherited` lookup with no ceilings
  and no feature list. What the prototype member does beyond that is not modelled.
- ApiRoutes: the JSON reading and the zod schemas are the `body` parameter. It holds the validated data or the thrown
  message, so the schemas' own rules (a minimum duration of 5, an e-mail format) are not modelled. `Number(amount)`
  is taken to be an integer amount. GetAppointmentById's response body stands for the row's JSON and is its id. The
  routes' GET listings, the invoice GET and the other route files are not modelled.
- ApiRoutes.GetAppointmentById and ApiRoutes.PutInvoice look rows up by id alone, as the source does. The missing
  clinic check is stated, in GetAppointmentById's contract and in PaidConfirmationSeesForeignInvoices, but no
  corrected route is modelled.

## Findings

| source | as written | input that shows it | evidently intended | confidence | as-written member | corrected member |
|---|---|---|---|---|---|---|
| src/middleware.ts:13 | The swagger entry '/api/doc' is matched as a bare prefix, so the doctors API and the consultation API are public and reach their handlers with whatever identity headers the client sent | GET /api/doctors with no token gets `Next` | Only the documentation path and its sub-paths are public | high, not executed | Middleware.DocPrefixExposesDoctorApi | Middleware.StrictProtectsDoctorApi |
| src/core/application/services/AppointmentService.ts:14-25 | Only rows that start within [start, end] are fetched, so an earlier booking that runs into the new slot is never compared | A 60-minute booking at 0 and a new 30-minute booking at minute 30 for the same doctor: the second is accepted | Every booking of the doctor that overlaps the slot blocks it | high, not executed | AppointmentService.EarlierOverlapAccepted | AppointmentService.CreateAppointmentStrict |

=== FILE: admin_clinics_route.dfy ===
/** The super-admin clinics endpoint: POST creates a clinic with its subscription, a system ADMIN role and an
    admin user; GET lists the clinics as display rows. Password hashing is the oracle `hash`. */
module AdminClinicsRoute {
  import opened Results
  import opened Text
  import opened Sequences
  import PermissionService
  import SubscriptionService
  import Plans

  /** `s.replace(/\s+/g, '-')`: every maximal run of whitespace becomes one '-', written at the run's last
      character. */
  function ReplaceSpaceRuns(s: string): (r: string)
    ensures !HasSpace(r)
    ensures |r| <= |s|
    decreases |s|
  {
    if |s| == 0 then ""
    else RunHead(s) + ReplaceSpaceRuns(s[1..])
  }

  /** What the first character contributes: itself when it is not whitespace, '-' when it ends a whitespace run,
      nothing when the run goes on. */
  function RunHead(s: string): (h: string)
    requires |s| > 0
    ensures |h| <= 1 && !HasSpace(h)
  {
    if !IsSpace(s[0]) then [s[0]]
    else if |s| > 1 && IsSpace(s[1]) then ""
    else "-"
  }

  /** The slug of a new clinic: the subdomain when one is given, else the lower-cased name with whitespace runs
      turned into '-'. */
  function Slug(name: string, subdomain: Option<string>): (r: string)
    ensures subdomain.Some? && subdomain.value != "" ==> r == subdomain.value
    ensures (subdomain.None? || subdomain.value == "") ==> !HasSpace(r) && forall i :: 0 <= i < |r| ==> !IsUpper(r[i])
  {
    if subdomain.Some? && subdomain.value != "" then subdomain.value
    else
      var lower := ToLower(name);
      LowerKeepsUpperFree(lower);
      ReplaceSpaceRuns(lower)
  }

  /** Replacing whitespace runs introduces no upper-case letter. */
  lemma {:induction false} LowerKeepsUpperFree(s: string)
    requires forall i :: 0 <= i < |s| ==> !IsUpper(s[i])
    ensures forall i :: 0 <= i < |ReplaceSpaceRuns(s)| ==> !IsUpper(ReplaceSpaceRuns(s)[i])
    decreases |s|
  {
    if |s| > 0 {
      LowerKeepsUpperFree(s[1..]);
    }
  }

  /** Text without whitespace is left as it is. */
  lemma {:induction false} NoSpaceUnchanged(s: string)
    requires !HasSpace(s)
    ensures ReplaceSpaceRuns(s) == s
    decreases |s|
  {
    if |s| > 0 {
      assert !IsSpace(s[0]);
      assert forall i :: 0 <= i < |s[1..]| ==> s[1..][i] == s[i + 1];
      NoSpaceUnchanged(s[1..]);
      assert s == [s[0]] + s[1..];
    }
  }

  /** A derived slug is a fixed point: deriving a slug from it again changes nothing. */
  lemma DerivedSlugIsStable(name: string)
    ensures Slug(Slug(name, None), None) == Slug(name, None)
  {
    var r := Slug(name, None);
    assert forall i :: 0 <= i < |r| ==> LowerChar(r[i]) == r[i];
    assert ToLower(r) == r;
    NoSpaceUnchanged(r);
  }

  predicate AllSpace(w: string) {
    forall i :: 0 <= i < |w| ==> IsSpace(w[i])
  }

  /** Two pieces separated by a run of whitespace become the two pieces' slugs joined by one '-'. */
  lemma {:induction false} RunBecomesOneDash(a: string, w: string, b: string)
    requires |w| > 0 && AllSpace(w)
    requires |a| > 0 ==> !IsSpace(a[|a| - 1])
    requires |b| > 0 ==> !IsSpace(b[0])
    ensures ReplaceSpaceRuns(a + w + b) == ReplaceSpaceRuns(a) + "-" + ReplaceSpaceRuns(b)
    decreases |a|
  {
    if |a| == 0 {
      assert a + w + b == w + b;
      SpaceRunDropped(w, b);
    } else {
      var rest, c := a[1..], w + b;
      if |rest| > 0 {
        assert rest[|rest| - 1] == a[|a| - 1];
      }
      RunBecomesOneDash(rest, w, b);
      HeadJoin(a, w, b);
    }
  }

  /** One step of `RunBecomesOneDash`: the first character's contribution goes in front of the rest's result. */
  lemma HeadJoin(a: string, w: string, b: string)
    requires |a| > 0 && !IsSpace(a[|a| - 1])
    requires ReplaceSpaceRuns(a[1..] + w + b) == ReplaceSpaceRuns(a[1..]) + "-" + ReplaceSpaceRuns(b)
    ensures ReplaceSpaceRuns(a + w + b) == ReplaceSpaceRuns(a) + "-" + ReplaceSpaceRuns(b)
  {
    var rest, c := a[1..], w + b;
    HeadStep(a, c);
    AppendAssoc(rest, w, b);
    AppendAssoc(a, w, b);
    var h, x, y := RunHead(a), ReplaceSpaceRuns(rest), ReplaceSpaceRuns(b);
    assert ReplaceSpaceRuns(a) == h + x;
    AppendAssoc(h, x + "-", y);
    AppendAssoc(h, x, "-");
  }

  /** The first character of a string that does not end in whitespace contributes the same whatever follows. */
  lemma HeadStep(a: string, c: string)
    requires |a| > 0 && !IsSpace(a[|a| - 1])
    ensures ReplaceSpaceRuns(a + c) == RunHead(a) + ReplaceSpaceRuns(a[1..] + c)
  {
    assert (a + c)[0] == a[0];
    assert (a + c)[1..] == a[1..] + c;
    if |a| > 1 {
      assert (a + c)[1] == a[1];
    }
  }

  /** A whitespace run at the front, followed by a non-space, is replaced by exactly one '-'. */
  lemma {:induction false} SpaceRunDropped(w: string, b: string)
    requires |w| > 0 && AllSpace(w)
    requires |b| > 0 ==> !IsSpace(b[0])
    ensures ReplaceSpaceRuns(w + b) == "-" + ReplaceSpaceRuns(b)
    decreases |w|
  {
    assert (w + b)[0] == w[0];
    assert (w + b)[1..] == w[1..] + b;
    if |w| == 1 {
      assert w[1..] + b == b;
    } else {
      assert (w + b)[1] == w[1];
      SpaceRunDropped(w[1..], b);
    }
  }

  datatype ClinicBody = ClinicBody(name: string, email: string, password: string, plan: Option<string>, subdomain: Option<string>)

  datatype ClinicRow = ClinicRow(id: string, name: string, slug: string, status: string)

  datatype RoleRow = RoleRow(id: string, name: string, description: string, isSystem: bool, permissions: seq<string>, clinicId: string)

  datatype UserRow = UserRow(id: string, email: string, passwordHash: string, firstName: string, lastName: string,
                             clinicId: string, roleId: string)

  /** The four rows written by the POST transaction. */
  datatype Created = Created(clinic: ClinicRow, subscription: SubscriptionService.Subscription, role: RoleRow, user: UserRow)

  /** `plan || 'FREE'` */
  function PlanOrFree(plan: Option<string>): (p: string)
    ensures p != ""
    ensures plan.Some? && plan.value != "" ==> p == plan.value
  {
    if plan.Some? && plan.value != "" then plan.value else "FREE"
  }

  /** POST: the clinic and its subscription both ACTIVE, a system ADMIN role holding the wildcard, and an admin
      user with the hashed password, all tied to the new clinic. */
  function CreateClinic(body: ClinicBody, clinicId: string, roleId: string, userId: string, hash: string -> string): (r: Created)
    ensures r.clinic == ClinicRow(clinicId, body.name, Slug(body.name, body.subdomain), "ACTIVE")
    ensures r.subscription.clinicId == clinicId && r.subscription.status == "ACTIVE"
    ensures r.subscription.plan == PlanOrFree(body.plan)
    ensures r.role.name == "ADMIN" && r.role.isSystem && r.role.permissions == [PermissionService.Wildcard]
    ensures r.role.clinicId == clinicId && r.role.id == roleId
    ensures r.user.clinicId == clinicId && r.user.roleId == roleId && r.user.email == body.email
    ensures r.user.passwordHash == hash(body.password) && r.user.firstName == "Admin" && r.user.lastName == "User"
  {
    Created(
      ClinicRow(clinicId, body.name, Slug(body.name, body.subdomain), "ACTIVE"),
      SubscriptionService.Subscription(clinicId, PlanOrFree(body.plan), "ACTIVE", None),
      RoleRow(roleId, "ADMIN", "Clinic Administrator", true, ["*"], clinicId),
      UserRow(userId, body.email, hash(body.password), "Admin", "User", clinicId, roleId))
  }

  /** The created ADMIN role passes every permission check. */
  lemma AdminRoleGrantsEverything(body: ClinicBody, clinicId: string, roleId: string, userId: string,
                                  hash: string -> string, required: seq<string>)
    ensures PermissionService.ValidatePermissions(CreateClinic(body, clinicId, roleId, userId, hash).role.permissions, required)
  {
    PermissionService.ValidateMeaning(CreateClinic(body, clinicId, roleId, userId, hash).role.permissions, required);
  }

  /** A clinic created on the FREE plan already uses its single user seat: with the admin counted, a users quota
      check would refuse the next user, while the patients check still passes. (User creation itself runs no quota
      check.) */
  lemma FreeClinicIsFullOfUsers(body: ClinicBody, clinicId: string, roleId: string, userId: string,
                                hash: string -> string, subs: SubscriptionService.Subscriptions)
    requires PlanOrFree(body.plan) == "FREE"
    ensures var subs' := subs[clinicId := CreateClinic(body, clinicId, roleId, userId, hash).subscription];
            && SubscriptionService.CheckLimit(subs', clinicId, SubscriptionService.Users, 0, SubscriptionService.Usage(1, 0)).outcome.Failure?
            && SubscriptionService.CheckLimit(subs', clinicId, SubscriptionService.Patients, 0, SubscriptionService.Usage(1, 0)).outcome.Success?
  {
    Plans.TierValues();
  }

  /** A clinic as the GET query returns it, with its optional subscription plan and user count. */
  datatype ListedClinic = ListedClinic(id: string, name: string, status: string, createdAt: int,
                                       subscriptionPlan: Option<string>, userCount: Option<int>)

  datatype DisplayRow = DisplayRow(id: string, name: string, plan: string, users: int, revenue: string,
                                   status: string, lastAudit: string)

  /** The UI row of one clinic. */
  function FormatRow(c: ListedClinic): (r: DisplayRow)
    ensures r.id == c.id && r.name == c.name && r.status == c.status
    ensures r.plan == PlanOrFree(c.subscriptionPlan)
    ensures c.userCount.None? ==> r.users == 0
    ensures c.userCount.Some? ==> r.users == c.userCount.value
    ensures r.revenue == "$0" && r.lastAudit == "N/A"
  {
    DisplayRow(c.id, c.name, PlanOrFree(c.subscriptionPlan),
               if c.userCount.Some? && c.userCount.value != 0 then c.userCount.value else 0,
               "$0", c.status, "N/A")
  }

  function NewestFirst(c: ListedClinic): int {
    -c.createdAt
  }

  /** One display row per element, in order. */
  function FormatAll(cs: seq<ListedClinic>): (rows: seq<DisplayRow>)
    ensures |rows| == |cs|
    ensures forall i :: 0 <= i < |cs| ==> rows[i] == FormatRow(cs[i])
  {
    seq(|cs|, i requires 0 <= i < |cs| => FormatRow(cs[i]))
  }

  /** GET: one row per clinic, newest clinic first. */
  function ListClinics(clinics: seq<ListedClinic>): (rows: seq<DisplayRow>)
    ensures exists sorted :: SortedBy(sorted, NewestFirst) && multiset(sorted) == multiset(clinics) && rows == FormatAll(sorted)
    ensures |rows| == |clinics|
    ensures forall i :: 0 <= i < |rows| ==> exists j :: 0 <= j < |clinics| && rows[i] == FormatRow(clinics[j])
    ensures forall j :: 0 <= j < |clinics| ==> exists i :: 0 <= i < |rows| && rows[i] == FormatRow(clinics[j])
  {
    var sorted := SortBy(clinics, NewestFirst);
    RowsOfPermutation(sorted, clinics);
    FormatAll(sorted)
  }

  /** Formatting a permutation of the clinics yields a row for each clinic and only those. */
  lemma RowsOfPermutation(sorted: seq<ListedClinic>, clinics: seq<ListedClinic>)
    requires multiset(sorted) == multiset(clinics)
    ensures |FormatAll(sorted)| == |clinics|
    ensures forall i :: 0 <= i < |sorted| ==> exists j :: 0 <= j < |clinics| && FormatAll(sorted)[i] == FormatRow(clinics[j])
    ensures forall j :: 0 <= j < |clinics| ==> exists i :: 0 <= i < |sorted| && FormatAll(sorted)[i] == FormatRow(clinics[j])
  {
    assert |sorted| == |multiset(sorted)| == |multiset(clinics)| == |clinics|;
    var rows := FormatAll(sorted);
    forall i | 0 <= i < |sorted|
      ensures exists j :: 0 <= j < |clinics| && rows[i] == FormatRow(clinics[j])
    {
      var j := PositionOf(sorted[i], clinics);
      assert rows[i] == FormatRow(clinics[j]);
    }
    forall j | 0 <= j < |clinics|
      ensures exists i :: 0 <= i < |sorted| && rows[i] == FormatRow(clinics[j])
    {
      var i := PositionOf(clinics[j], sorted);
      assert rows[i] == FormatRow(clinics[j]);
    }
  }

  /** A position holding `x`, for an `x` the multiset of `s` counts. */
  lemma PositionOf(x: ListedClinic, s: seq<ListedClinic>) returns (k: nat)
    requires x in multiset(s)
    ensures k < |s| && s[k] == x
  {
    assert x in s;
    k :| 0 <= k < |s| && s[k] == x;
  }
}

=== FILE: api_handler.dfy ===
/** The route wrapper: it runs a handler, either on a schema-validated body or directly, and turns every thrown
    error into a JSON response whose status is chosen from the error's message. */
module ApiHandler {
  import opened Results
  import opened Text

  /** What a handler or the wrapper can throw: a schema validation error, or an `Error` with its message
      (a missing message reads as ""). */
  datatype Thrown = ValidationError(issues: string) | Error(message: string)

  datatype HttpResponse =
    | ErrorJson(status: int, error: string, details: string)   // `{ error, details }` built by the wrapper
    | HandlerResponse(status: int, body: string)               // whatever the handler returned

  /** How a handler run ended. */
  datatype Outcome = Returned(response: HttpResponse) | Threw(thrown: Thrown)

  /** The two ways the wrapper is called, and any other first argument. */
  datatype Usage =
    | WithSchema(parse: string -> Result<string, Thrown>, handlerWithBody: Option<string -> Outcome>)
    | Direct(handler: Outcome)
    | Neither

  // The two messages are written in pieces so that facts about them can be proved piece by piece.
  const MissingHandler := "Handler function " + "is required when " + "using ZodSchema"
  const InvalidUsage := "Invalid apiHandler " + "usage: First " + "argument must be a " + "Schema or Function"

  /** Messages answered with 401: exactly these two. */
  predicate IsAuthMessage(msg: string) {
    msg == "Invalid credentials" || msg == "User account is inactive"
  }

  /** Messages answered with 403. */
  predicate IsForbiddenMessage(msg: string) {
    Contains(msg, "Upgrade required") || Contains(msg, "Clinic is suspended")
  }

  /** The catch block: the response for a thrown error. */
  function ErrorResponse(e: Thrown): (r: HttpResponse)
    ensures r.ErrorJson?
    ensures r.status in {400, 401, 403, 404, 409, 500}
    ensures r.status == 400 <==> e.ValidationError?
    ensures r.status == 400 ==> r.error == "Validation Failed" && r.details == e.issues
    ensures e.Error? ==>
      && (r.status == 401 <==> IsAuthMessage(e.message))
      && (r.status == 403 <==> !IsAuthMessage(e.message) && IsForbiddenMessage(e.message))
      && (r.status == 404 <==> !IsAuthMessage(e.message) && !IsForbiddenMessage(e.message) && Contains(e.message, "not found"))
      && (r.status == 409 <==>
            !IsAuthMessage(e.message) && !IsForbiddenMessage(e.message) && !Contains(e.message, "not found") &&
            Contains(e.message, "already exists"))
      && (r.status != 500 ==> r.error == e.message)
      && (r.status == 500 ==> r.error == "Internal Server Error" && r.details == e.message)
  {
    match e
    case ValidationError(issues) => ErrorJson(400, "Validation Failed", issues)
    case Error(msg) =>
      if IsAuthMessage(msg) then ErrorJson(401, msg, "")
      else if IsForbiddenMessage(msg) then ErrorJson(403, msg, "")
      else if Contains(msg, "not found") then ErrorJson(404, msg, "")
      else if Contains(msg, "already exists") then ErrorJson(409, msg, "")
      else ErrorJson(500, "Internal Server Error", msg)
  }

  /** The response for a finished handler run. */
  function Settle(o: Outcome): HttpResponse {
    match o
    case Returned(resp) => resp
    case Threw(e) => ErrorResponse(e)
  }

  /** `apiHandler(schemaOrHandler, handlerWithBody)(req)`, given the result of reading the JSON body. */
  function Run(usage: Usage, body: Result<string, Thrown>): (r: HttpResponse)
    ensures usage.Direct? && usage.handler.Returned? ==> r == usage.handler.response
    ensures usage.Direct? && usage.handler.Threw? ==> r == ErrorResponse(usage.handler.thrown)
    ensures usage.WithSchema? && usage.handlerWithBody.None? ==> r == ErrorJson(500, "Internal Server Error", MissingHandler)
    ensures usage.Neither? ==> r == ErrorJson(500, "Internal Server Error", InvalidUsage)
    ensures usage.WithSchema? && usage.handlerWithBody.Some? ==>
      (match body
       case Failure(e) => r == ErrorResponse(e)
       case Success(json) =>
         match usage.parse(json)
         case Failure(e) => r == ErrorResponse(e)
         case Success(parsed) => r == Settle(usage.handlerWithBody.value(parsed)))
  {
    UnmappedMessage(InvalidUsage);
    UnmappedMessage(MissingHandler);
    match usage
    case Neither => ErrorResponse(Error(InvalidUsage))
    case Direct(o) => Settle(o)
    case WithSchema(parse, handler) =>
      if handler.None? then ErrorResponse(Error(MissingHandler))
      else
        match body
        case Failure(e) => ErrorResponse(e)
        case Success(json) =>
          match parse(json)
          case Failure(e) => ErrorResponse(e)
          case Success(parsed) => Settle(handler.value(parsed))
  }

  /** A message that merely resembles an authentication message is not answered with 401. */
  lemma AuthMatchIsExact()
    ensures ErrorResponse(Error("Invalid credentials.")).status != 401
    ensures ErrorResponse(Error("invalid credentials")).status != 401
  {
  }

  /** Earlier rules win: a quota message that also says "not found" is 403, and a message with both "not found" and
      "already exists" is 404. */
  lemma EarlierRulesWin(a: string, b: string)
    ensures ErrorResponse(Error("Upgrade required" + a + "not found" + b)).status == 403
    ensures !IsAuthMessage(a + "not found" + b + "already exists") && !IsForbiddenMessage(a + "not found" + b + "already exists") ==>
              ErrorResponse(Error(a + "not found" + b + "already exists")).status == 404
  {
    StartsWithIsContains("Upgrade required" + a + "not found" + b, "Upgrade required");
    ContainsInside(a, "not found", b + "already exists");
    assert a + "not found" + b + "already exists" == a + "not found" + (b + "already exists");
  }

  /** The wrapper's own two messages fall through to 500. */
  lemma UnmappedMessage(msg: string)
    requires msg == InvalidUsage || msg == MissingHandler
    ensures ErrorResponse(Error(msg)).status == 500
  {
    if msg == InvalidUsage {
      InvalidUsageUnmapped();
    } else {
      MissingHandlerUnmapped();
    }
  }

  lemma InvalidUsageUnmapped()
    ensures !IsForbiddenMessage(InvalidUsage)
    ensures !Contains(InvalidUsage, "not found") && !Contains(InvalidUsage, "already exists")
  {
    InvalidUsageLacks('U');
    InvalidUsageLacks('C');
    InvalidUsageLacks('x');
    InvalidUsageLacks('f');
    MissingCharNotContained(InvalidUsage, "not found", 4);
    MissingCharNotContained(InvalidUsage, "Upgrade required", 0);
    MissingCharNotContained(InvalidUsage, "Clinic is suspended", 0);
    MissingCharNotContained(InvalidUsage, "already exists", 9);
  }

  lemma MissingHandlerUnmapped()
    ensures !IsForbiddenMessage(MissingHandler)
    ensures !Contains(MissingHandler, "not found") && !Contains(MissingHandler, "already exists")
  {
    MissingHandlerLacks('U');
    MissingHandlerLacks('C');
    MissingHandlerLacks('x');
    MissingPairNotContained(MissingHandler, "not found", 4);
    MissingCharNotContained(MissingHandler, "Upgrade required", 0);
    MissingCharNotContained(MissingHandler, "Clinic is suspended", 0);
    MissingCharNotContained(MissingHandler, "already exists", 9);
  }

  lemma InvalidUsageLacks(c: char)
    requires c == 'U' || c == 'C' || c == 'x' || c == 'f'
    ensures Lacks(InvalidUsage, c)
  {
    var p1, p2, p3, p4 := "Invalid apiHandler ", "usage: First ", "argument must be a ", "Schema or Function";
    assert Lacks(p1, c) && Lacks(p2, c) && Lacks(p3, c) && Lacks(p4, c);
    LacksAppend(p1, p2, c);
    LacksAppend(p1 + p2, p3, c);
    LacksAppend(p1 + p2 + p3, p4, c);
  }

  lemma MissingHandlerLacks(c: char)
    requires c == 'U' || c == 'C' || c == 'x'
    ensures Lacks(MissingHandler, c)
    ensures LacksPair(MissingHandler, 'f', 'o')
  {
    var p1, p2, p3 := "Handler function ", "is required when ", "using ZodSchema";
    assert Lacks(p1, c) && Lacks(p2, c) && Lacks(p3, c);
    LacksAppend(p1, p2, c);
    LacksAppend(p1 + p2, p3, c);
    assert LacksPair(p1, 'f', 'o') && LacksPair(p2, 'f', 'o') && LacksPair(p3, 'f', 'o');
    LacksPairAppend(p1, p2, 'f', 'o');
    LacksPairAppend(p1 + p2, p3, 'f', 'o');
  }
}

=== FILE: api_routes.dfy ===
/** The route handlers that call the services without the `apiHandler` wrapper: each reads the `x-clinic-id` header
    the gate set, runs one service call and turns a thrown error into a JSON reply of its own. Reading and validating
    the body is the `body` parameter: the validated data, or the message of the error the JSON reader or the schema
    threw. */
module ApiRoutes {
  import opened Results
  import opened Sequences
  import opened AppointmentRepository
  import SubscriptionService
  import PatientService
  import AppointmentService
  import FinanceService
  import ApiHandler

  /** A route's JSON reply: the service's value with status 200, or `{ error }` with a status. */
  datatype Reply<T> = Ok(value: T) | Refused(status: int, error: string)

  const ClinicIdMismatch := "Clinic ID mismatch"
  const Unauthorized := "Unauthorized"
  const FailedToUpdate := "Failed to update"
  const InvalidAction := "Invalid action"

  /** `if (!clinicId)` fails: the header is present and not empty. */
  predicate HasClinic(header: Option<string>) {
    header.Some? && header.value != ""
  }

  /** The tables after POST /api/patients, and its reply. */
  datatype PatientsPost = PatientsPost(subscriptions: SubscriptionService.Subscriptions, patients: seq<PatientService.Patient>,
                                       reply: Reply<PatientService.Patient>)

  /** POST /api/patients: 403 without a clinic; otherwise every thrown error, whether from the body or from
      `createPatient`, is answered with 400 and its message. */
  function PostPatients(subs: SubscriptionService.Subscriptions, patients: seq<PatientService.Patient>, header: Option<string>,
                        body: Result<PatientService.CreatePatientDto, string>, newId: string, now: int): (r: PatientsPost)
    ensures !HasClinic(header) ==> r == PatientsPost(subs, patients, Refused(403, ClinicIdMismatch))
    ensures HasClinic(header) && body.Failure? ==> r == PatientsPost(subs, patients, Refused(400, body.error))
    ensures HasClinic(header) && body.Success? ==>
      var c := PatientService.CreatePatient(subs, patients, header.value, body.value, newId, now);
      && r.subscriptions == c.subscriptions && r.patients == c.patients
      && (r.reply.Ok? <==> c.result.Success?)
      && (c.result.Success? ==> r.reply.value == c.result.value)
      && (c.result.Failure? ==> r.reply == Refused(400, c.result.error))
    ensures r.reply.Refused? ==> r.patients == patients && r.reply.status == (if HasClinic(header) then 400 else 403)
    ensures r.reply.Refused? ==>
              r.subscriptions == (if HasClinic(header) && body.Success? then SubscriptionService.Healed(subs, header.value) else subs)
  {
    if !HasClinic(header) then PatientsPost(subs, patients, Refused(403, ClinicIdMismatch))
    else
      match body
      case Failure(message) => PatientsPost(subs, patients, Refused(400, message))
      case Success(data) =>
        var c := PatientService.CreatePatient(subs, patients, header.value, data, newId, now);
        match c.result
        case Success(p) => PatientsPost(c.subscriptions, c.patients, Ok(p))
        case Failure(message) => PatientsPost(c.subscriptions, c.patients, Refused(400, message))
  }

  /** The table after POST /api/appointments, and its reply. */
  datatype AppointmentsPost = AppointmentsPost(store: seq<Appointment>, reply: Reply<Appointment>)

  /** POST /api/appointments: 403 without a clinic; otherwise every thrown error, including the busy doctor, is
      answered with 400 and its message. */
  function PostAppointments(store: seq<Appointment>, header: Option<string>, body: Result<AppointmentService.AppointmentData, string>,
                            newId: string): (r: AppointmentsPost)
    ensures !HasClinic(header) ==> r == AppointmentsPost(store, Refused(403, ClinicIdMismatch))
    ensures HasClinic(header) && body.Failure? ==> r == AppointmentsPost(store, Refused(400, body.error))
    ensures HasClinic(header) && body.Success? ==>
      var c := AppointmentService.CreateAppointment(store, header.value, body.value, newId);
      && (r.reply.Ok? <==> c.Success?)
      && (c.Success? ==> r == AppointmentsPost(c.value.1, Ok(c.value.0)))
      && (c.Failure? ==> r == AppointmentsPost(store, Refused(400, c.error)))
    ensures r.reply.Refused? ==> r.store == store && r.reply.status == (if HasClinic(header) then 400 else 403)
  {
    if !HasClinic(header) then AppointmentsPost(store, Refused(403, ClinicIdMismatch))
    else
      match body
      case Failure(message) => AppointmentsPost(store, Refused(400, message))
      case Success(data) =>
        match AppointmentService.CreateAppointment(store, header.value, data, newId)
        case Success((a, store')) => AppointmentsPost(store', Ok(a))
        case Failure(message) => AppointmentsPost(store, Refused(400, message))
  }

  /** GET /api/patients/[id]: 403 without a clinic, 404 "Patient not found" when `getPatient` returns null. */
  function GetPatientById(patients: seq<PatientService.Patient>, header: Option<string>, id: string): (r: Reply<PatientService.Patient>)
    ensures !HasClinic(header) ==> r == Refused(403, ClinicIdMismatch)
    ensures HasClinic(header) ==>
      (r.Ok? <==> PatientService.GetPatient(patients, id, header.value).Some?)
    ensures HasClinic(header) && r.Ok? ==> r.value.id == id && r.value.clinicId == header.value
    ensures HasClinic(header) && r.Refused? ==> r == Refused(404, PatientService.PatientNotFound)
  {
    if !HasClinic(header) then Refused(403, ClinicIdMismatch)
    else
      match PatientService.GetPatient(patients, id, header.value)
      case None => Refused(404, PatientService.PatientNotFound)
      case Some(p) => Ok(p)
  }

  /** GET /api/appointments/[id], run through `apiHandler`: the row by id alone, with no clinic check; a missing row
      throws "Appointment not found". The response body stands for the row's JSON and is its id. */
  function GetAppointmentById(store: seq<Appointment>, id: string): (r: ApiHandler.HttpResponse)
    ensures FindById(store, id).None? ==> r == ApiHandler.ErrorResponse(ApiHandler.Error(AppointmentService.AppointmentNotFound))
    ensures FindById(store, id).Some? ==> r == ApiHandler.HandlerResponse(200, id)
  {
    var outcome := (match FindById(store, id)
                    case None => ApiHandler.Threw(ApiHandler.Error(AppointmentService.AppointmentNotFound))
                    case Some(a) => ApiHandler.Returned(ApiHandler.HandlerResponse(200, a.id)));
    ApiHandler.Run(ApiHandler.Direct(outcome), Success(""))
  }

  /** The fields of the PUT body the route reads; an absent `method` is "". */
  datatype InvoiceUpdate = InvoiceUpdate(status: Option<string>, amount: Option<int>, paymentMethod: string)

  /** `!amount` fails: the amount is present and not zero. */
  predicate Truthy(amount: Option<int>) {
    amount.Some? && amount.value != 0
  }

  /** A successful PUT answers `{ success: true }` or the payment row. */
  datatype InvoiceAnswer = SuccessFlag | PaymentRow(payment: FinanceService.Payment)

  /** The tables after PUT /api/finance/invoices/[id], and its reply. */
  datatype InvoicePut = InvoicePut(invoices: seq<FinanceService.Invoice>, payments: seq<FinanceService.Payment>,
                                   reply: Reply<InvoiceAnswer>)

  /** `prisma.invoice.findUnique({ where: { id } })`: the invoice by id alone, whatever its clinic. */
  function FindInvoice(invoices: seq<FinanceService.Invoice>, id: string): (r: Option<FinanceService.Invoice>)
    ensures r.Some? ==> r.value in invoices && r.value.id == id
    ensures r.None? <==> forall k :: 0 <= k < |invoices| ==> invoices[k].id != id
  {
    match FirstIndex(invoices, (inv: FinanceService.Invoice) => inv.id == id)
    case None => None
    case Some(k) => Some(invoices[k])
  }

  /** Runs `recordPayment` for the route: a thrown error becomes 500 "Failed to update" with nothing written. */
  function PayFromRoute(invoices: seq<FinanceService.Invoice>, payments: seq<FinanceService.Payment>, clinicId: string,
                        id: string, amount: int, paymentMethod: string, now: int, newId: string,
                        answer: FinanceService.Payment -> InvoiceAnswer): (r: InvoicePut)
    ensures var o := FinanceService.RecordPayment(invoices, payments, clinicId, id, amount, paymentMethod, now, newId);
            && (o.Failure? ==> r == InvoicePut(invoices, payments, Refused(500, FailedToUpdate)))
            && (o.Success? ==> r == InvoicePut(o.value.invoices, o.value.payments, Ok(answer(o.value.payment))))
  {
    match FinanceService.RecordPayment(invoices, payments, clinicId, id, amount, paymentMethod, now, newId)
    case Failure(_) => InvoicePut(invoices, payments, Refused(500, FailedToUpdate))
    case Success(o) => InvoicePut(o.invoices, o.payments, Ok(answer(o.payment)))
  }

  /** PUT /api/finance/invoices/[id]: 403 without a clinic. "PAID" without an amount settles the balance of an
      existing invoice, and answers success without writing when nothing is owed; an amount records that payment.
      Anything else is 400 "Invalid action", and every thrown error, an unknown or foreign invoice included, is
      500 "Failed to update". */
  function PutInvoice(invoices: seq<FinanceService.Invoice>, payments: seq<FinanceService.Payment>, header: Option<string>,
                      id: string, body: Result<InvoiceUpdate, string>, now: int, newId: string): (r: InvoicePut)
    ensures !HasClinic(header) ==> r == InvoicePut(invoices, payments, Refused(403, Unauthorized))
    ensures HasClinic(header) && body.Failure? ==> r == InvoicePut(invoices, payments, Refused(500, FailedToUpdate))
    ensures r.reply.Refused? ==> r.invoices == invoices && r.payments == payments
    ensures r.reply.Refused? ==>
              r.reply == Refused(403, Unauthorized) || r.reply == Refused(400, InvalidAction) ||
              r.reply == Refused(500, FailedToUpdate)
    ensures HasClinic(header) && body.Success? && Truthy(body.value.amount) ==>
      var b := body.value;
      var o := FinanceService.RecordPayment(invoices, payments, header.value, id, b.amount.value,
                                            FinanceService.MethodOrCash(b.paymentMethod), now, newId);
      && (o.Failure? ==> r.reply == Refused(500, FailedToUpdate))
      && (o.Success? ==> r == InvoicePut(o.value.invoices, o.value.payments, Ok(PaymentRow(o.value.payment))))
    ensures HasClinic(header) && body.Success? && !Truthy(body.value.amount) ==>
      (r.reply == Refused(400, InvalidAction) <==> body.value.status != Some("PAID") || FindInvoice(invoices, id).None?)
    ensures HasClinic(header) && body.Success? && !Truthy(body.value.amount) && body.value.status == Some("PAID") &&
            FindInvoice(invoices, id).Some? ==>
      var inv := FindInvoice(invoices, id).value;
      var balance := inv.totalAmount - inv.paidAmount;
      && (balance <= 0 ==> r == InvoicePut(invoices, payments, Ok(SuccessFlag)))
      && (balance > 0 ==>
            var o := FinanceService.RecordPayment(invoices, payments, header.value, id, balance,
                                                  FinanceService.MethodOrCash(body.value.paymentMethod), now, newId);
            (o.Failure? ==> r.reply == Refused(500, FailedToUpdate)) &&
            (o.Success? ==> r == InvoicePut(o.value.invoices, o.value.payments, Ok(SuccessFlag))))
  {
    if !HasClinic(header) then InvoicePut(invoices, payments, Refused(403, Unauthorized))
    else
      match body
      case Failure(_) => InvoicePut(invoices, payments, Refused(500, FailedToUpdate))
      case Success(b) =>
        var clinicId := header.value;
        var how := FinanceService.MethodOrCash(b.paymentMethod);
        if b.status == Some("PAID") && !Truthy(b.amount) && FindInvoice(invoices, id).Some? then
          (var inv := FindInvoice(invoices, id).value;
           var balance := inv.totalAmount - inv.paidAmount;
           if balance > 0 then PayFromRoute(invoices, payments, clinicId, id, balance, how, now, newId, _ => SuccessFlag)
           else InvoicePut(invoices, payments, Ok(SuccessFlag)))
        else if Truthy(b.amount) then
          PayFromRoute(invoices, payments, clinicId, id, b.amount.value, how, now, newId, p => PaymentRow(p))
        else InvoicePut(invoices, payments, Refused(400, InvalidAction))
  }

  /** Confirming "PAID" on an invoice with a balance settles it: the balance is recorded as one payment and the
      invoice is then PAID. */
  lemma PaidWithoutAmountSettles(invoices: seq<FinanceService.Invoice>, payments: seq<FinanceService.Payment>,
                                 clinicId: string, id: string, paymentMethod: string, now: int, newId: string)
    requires clinicId != ""
    requires FindInvoice(invoices, id).Some? && FindInvoice(invoices, id).value.clinicId == clinicId
    requires FindInvoice(invoices, id).value.totalAmount > FindInvoice(invoices, id).value.paidAmount
    ensures var r := PutInvoice(invoices, payments, Some(clinicId), id,
                                Success(InvoiceUpdate(Some("PAID"), None, paymentMethod)), now, newId);
            var k := FirstIndex(invoices, (inv: FinanceService.Invoice) => inv.id == id).value;
            && r.reply == Ok(SuccessFlag)
            && r.invoices[k].paidAmount == r.invoices[k].totalAmount
            && r.invoices[k].status == FinanceService.Paid
            && |r.payments| == |payments| + 1
  {
  }

  /** The "PAID" confirmation looks invoices up by id alone: on another clinic's invoice that is fully paid it answers
      success, and on one with a balance it fails with 500; neither writes anything. */
  lemma PaidConfirmationSeesForeignInvoices(invoices: seq<FinanceService.Invoice>, payments: seq<FinanceService.Payment>,
                                            clinicId: string, id: string, now: int, newId: string)
    requires clinicId != ""
    requires FindInvoice(invoices, id).Some? && FindInvoice(invoices, id).value.clinicId != clinicId
    ensures var inv := FindInvoice(invoices, id).value;
            var r := PutInvoice(invoices, payments, Some(clinicId), id, Success(InvoiceUpdate(Some("PAID"), None, "")), now, newId);
            && r.invoices == invoices && r.payments == payments
            && (inv.totalAmount <= inv.paidAmount ==> r.reply == Ok(SuccessFlag))
            && (inv.totalAmount > inv.paidAmount ==> r.reply == Refused(500, FailedToUpdate))
  {
  }
}

=== FILE: appointment_repository.dfy ===
/** The appointment table and the queries of the Prisma appointment repository, over an
    in-memory sequence of rows. Instants are milliseconds since the epoch; durations are minutes. */
module AppointmentRepository {
  import opened Results
  import opened Sequences

  datatype Appointment = Appointment(
    id: string,
    clinicId: string,
    patientId: string,
    doctorId: Option<string>,
    datetime: int,
    duration: int,
    status: string,
    reason: string,
    notes: Option<string>)

  /** The ordering key of both range queries (`orderBy: { datetime: 'asc' }`). */
  function Start(a: Appointment): int {
    a.datetime
  }

  /** The `where` clause of `findByDateRange`: same clinic, start in `[startDate, endDate]` (both ends inclusive). */
  predicate InWindow(a: Appointment, clinicId: string, startDate: int, endDate: int) {
    a.clinicId == clinicId && startDate <= a.datetime <= endDate
  }

  /** The `where` clause of `findByDoctorAndDateRange`: the window plus the doctor. */
  predicate InDoctorWindow(a: Appointment, clinicId: string, doctorId: string, startDate: int, endDate: int) {
    InWindow(a, clinicId, startDate, endDate) && a.doctorId == Some(doctorId)
  }

  /** `InWindow` as a filter over rows. */
  function WindowFilter(clinicId: string, startDate: int, endDate: int): Appointment -> bool {
    a => InWindow(a, clinicId, startDate, endDate)
  }

  /** `InDoctorWindow` as a filter over rows. */
  function DoctorWindowFilter(clinicId: string, doctorId: string, startDate: int, endDate: int): Appointment -> bool {
    a => InDoctorWindow(a, clinicId, doctorId, startDate, endDate)
  }

  /** `findByDateRange(clinicId, startDate, endDate)`: the matching rows, each as often as it is stored, by start. */
  function FindByDateRange(store: seq<Appointment>, clinicId: string, startDate: int, endDate: int): (r: seq<Appointment>)
    ensures SortedBy(r, Start)
    ensures multiset(r) == multiset(Filter(store, WindowFilter(clinicId, startDate, endDate)))
    ensures forall i :: 0 <= i < |r| ==> r[i] in store && InWindow(r[i], clinicId, startDate, endDate)
    ensures forall i :: 0 <= i < |store| && InWindow(store[i], clinicId, startDate, endDate) ==> store[i] in r
  {
    SortedFilter(store, WindowFilter(clinicId, startDate, endDate), Start)
  }

  /** `findByDoctorAndDateRange(clinicId, doctorId, startDate, endDate)`: the matching rows, each as often as it is
      stored, by start. */
  function FindByDoctorAndDateRange(store: seq<Appointment>, clinicId: string, doctorId: string, startDate: int, endDate: int): (r: seq<Appointment>)
    ensures SortedBy(r, Start)
    ensures multiset(r) == multiset(Filter(store, DoctorWindowFilter(clinicId, doctorId, startDate, endDate)))
    ensures forall i :: 0 <= i < |r| ==> r[i] in store && InDoctorWindow(r[i], clinicId, doctorId, startDate, endDate)
    ensures forall i :: 0 <= i < |store| && InDoctorWindow(store[i], clinicId, doctorId, startDate, endDate) ==> store[i] in r
  {
    SortedFilter(store, DoctorWindowFilter(clinicId, doctorId, startDate, endDate), Start)
  }

  /** The doctor query returns a sub-multiset of the clinic query over the same window. */
  lemma DoctorQueryWithinRangeQuery(store: seq<Appointment>, clinicId: string, doctorId: string, startDate: int, endDate: int)
    ensures multiset(FindByDoctorAndDateRange(store, clinicId, doctorId, startDate, endDate))
         <= multiset(FindByDateRange(store, clinicId, startDate, endDate))
  {
    FilterStronger(store, DoctorWindowFilter(clinicId, doctorId, startDate, endDate),
                          WindowFilter(clinicId, startDate, endDate));
  }

  /** A row that starts before the window is never returned, however long it lasts; nor is a row of another clinic. */
  lemma WindowExcludesEarlierAndForeign(store: seq<Appointment>, clinicId: string, doctorId: string, startDate: int, endDate: int, a: Appointment)
    requires a.datetime < startDate || a.clinicId != clinicId
    ensures a !in FindByDateRange(store, clinicId, startDate, endDate)
    ensures a !in FindByDoctorAndDateRange(store, clinicId, doctorId, startDate, endDate)
  {
  }

  /** Position of the first row with this id (`findUnique({ where: { id } })`). */
  function IndexOfId(store: seq<Appointment>, id: string): (r: Option<nat>)
    ensures r.Some? ==> r.value < |store| && store[r.value].id == id
    ensures r.Some? ==> forall k :: 0 <= k < r.value ==> store[k].id != id
    ensures r.None? ==> forall k :: 0 <= k < |store| ==> store[k].id != id
  {
    FirstIndex(store, (a: Appointment) => a.id == id)
  }

  /** `findById(id)` */
  function FindById(store: seq<Appointment>, id: string): (r: Option<Appointment>)
    ensures r.Some? <==> exists k :: 0 <= k < |store| && store[k].id == id
    ensures r.Some? ==> r.value in store && r.value.id == id
  {
    match IndexOfId(store, id)
    case None => None
    case Some(k) => Some(store[k])
  }
}

=== FILE: appointment_service.dfy ===
/** Booking, rescheduling and cancelling appointments, with the doctor-availability check
    performed when an appointment is created. */
module AppointmentService {
  import opened Results
  import opened Sequences
  import opened AppointmentRepository

  const DefaultDurationMinutes := 30
  const MillisPerMinute := 60000
  const NotAvailable := "Doctor is not " + "available at " + "this time."  // in pieces, for proofs about its letters
  const AppointmentNotFound := "Appointment " + "not found"  // in pieces, for proofs about its letters

  /** The request body of a booking; `clinicId` is whatever the body carried and is overridden. */
  datatype AppointmentData = AppointmentData(
    clinicId: Option<string>,
    patientId: string,
    doctorId: Option<string>,
    datetime: int,
    duration: Option<int>,
    status: string,
    reason: string,
    notes: Option<string>)

  /** The fields an update may replace; absent fields keep their stored value. */
  datatype AppointmentPatch = AppointmentPatch(
    clinicId: Option<string>,
    patientId: Option<string>,
    doctorId: Option<string>,
    datetime: Option<int>,
    duration: Option<int>,
    status: Option<string>,
    reason: Option<string>,
    notes: Option<string>)

  /** `data.duration || 30`: the length used by the availability check. */
  function CheckedDuration(d: Option<int>): (m: int)
    ensures d == None || d == Some(0) ==> m == DefaultDurationMinutes
    ensures d.Some? && d.value != 0 ==> m == d.value
    ensures m != 0
  {
    match d
    case None => DefaultDurationMinutes
    case Some(v) => if v == 0 then DefaultDurationMinutes else v
  }

  /** The length stored on the new row: the body's value, or the 30-minute default when absent. */
  function StoredDuration(d: Option<int>): int {
    d.GetOr(DefaultDurationMinutes)
  }

  /** The end instant of a slot of `minutes` starting at `start`. */
  function EndOf(start: int, minutes: int): int {
    start + minutes * MillisPerMinute
  }

  /** The source's overlap test between `[s1, e1)` and `[s2, e2)`. */
  predicate Overlaps(s1: int, e1: int, s2: int, e2: int) {
    s1 < e2 && e1 > s2
  }

  /** The end instant of a stored row. */
  function EndOfRow(a: Appointment): int {
    EndOf(a.datetime, a.duration)
  }

  /** `if (data.doctorId)`: a present, non-empty doctor id. */
  predicate Truthy(d: Option<string>) {
    d.Some? && d.value != ""
  }

  /** The overlap test is symmetric, and slots that only touch do not overlap. */
  lemma OverlapSymmetricAndHalfOpen(s1: int, e1: int, s2: int, e2: int)
    ensures Overlaps(s1, e1, s2, e2) <==> Overlaps(s2, e2, s1, e1)
    ensures e1 == s2 ==> !Overlaps(s1, e1, s2, e2)
    ensures e2 == s1 ==> !Overlaps(s1, e1, s2, e2)
  {
  }

  /** The instant `t` lies in both `[s1, e1)` and `[s2, e2)`. */
  predicate InBoth(t: int, s1: int, e1: int, s2: int, e2: int) {
    s1 <= t < e1 && s2 <= t < e2
  }

  /** For non-empty slots, the overlap test holds exactly when some instant lies in both half-open intervals. */
  lemma OverlapMeansSharedInstant(s1: int, e1: int, s2: int, e2: int)
    requires s1 < e1 && s2 < e2
    ensures Overlaps(s1, e1, s2, e2) <==> exists t :: InBoth(t, s1, e1, s2, e2)
  {
    if Overlaps(s1, e1, s2, e2) {
      var t := if s1 < s2 then s2 else s1;
      assert InBoth(t, s1, e1, s2, e2);
    }
  }

  /** Some fetched row overlaps `[start, end)`; the `.some(...)` of the source. */
  predicate AnyOverlap(fetched: seq<Appointment>, start: int, end: int) {
    exists i :: 0 <= i < |fetched| && Overlaps(start, end, fetched[i].datetime, EndOfRow(fetched[i]))
  }

  /** The row written by `create({ ...data, clinicId })`. */
  function NewAppointment(clinicId: string, data: AppointmentData, newId: string): Appointment {
    Appointment(newId, clinicId, data.patientId, data.doctorId, data.datetime,
                StoredDuration(data.duration), data.status, data.reason, data.notes)
  }

  /** The row of `store` at `i` would block a booking of `[start, end)` for this clinic and doctor under the source's query. */
  predicate BlocksAsFetched(a: Appointment, clinicId: string, doctorId: string, start: int, end: int) {
    InDoctorWindow(a, clinicId, doctorId, start, end) && Overlaps(start, end, a.datetime, EndOfRow(a))
  }

  /** `createAppointment(clinicId, data)`: the booking is refused exactly when the doctor id is set and some row of
      the same clinic and doctor that STARTS within `[start, end]` overlaps the new slot; otherwise one row is appended,
      carrying the caller's clinic. */
  function CreateAppointment(store: seq<Appointment>, clinicId: string, data: AppointmentData, newId: string)
    : (r: Result<(Appointment, seq<Appointment>), string>)
    ensures r.Failure? ==> r.error == NotAvailable
    ensures r.Failure? <==>
      var start := data.datetime;
      var end := EndOf(start, CheckedDuration(data.duration));
      Truthy(data.doctorId) &&
      exists i :: 0 <= i < |store| && BlocksAsFetched(store[i], clinicId, data.doctorId.value, start, end)
    ensures r.Success? ==> r.value.1 == store + [r.value.0]
    ensures r.Success? ==> r.value.0.clinicId == clinicId && r.value.0.id == newId
    ensures r.Success? ==> r.value.0.doctorId == data.doctorId && r.value.0.datetime == data.datetime
    ensures r.Success? ==> r.value.0.patientId == data.patientId
    ensures r.Success? ==> r.value.0.status == data.status && r.value.0.reason == data.reason && r.value.0.notes == data.notes
    ensures r.Success? ==> r.value.0.duration == (if data.duration.Some? then data.duration.value else DefaultDurationMinutes)
  {
    var start := data.datetime;
    var end := EndOf(start, CheckedDuration(data.duration));
    if Truthy(data.doctorId) then
      var fetched := FindByDoctorAndDateRange(store, clinicId, data.doctorId.value, start, end);
      if AnyOverlap(fetched, start, end) then
        Failure(NotAvailable)
      else
        var a := NewAppointment(clinicId, data, newId);
        Success((a, store + [a]))
    else
      var a := NewAppointment(clinicId, data, newId);
      Success((a, store + [a]))
  }

  /** Without a doctor id no availability check runs: the booking always succeeds. */
  lemma NoDoctorNoCheck(store: seq<Appointment>, clinicId: string, data: AppointmentData, newId: string)
    requires !Truthy(data.doctorId)
    ensures CreateAppointment(store, clinicId, data, newId).Success?
  {
  }

  /** A row of the same clinic and doctor, of positive length, that starts inside `[start, end)` blocks the booking. */
  lemma LaterStartInSlotBlocks(store: seq<Appointment>, clinicId: string, data: AppointmentData, newId: string, i: nat)
    requires Truthy(data.doctorId)
    requires CheckedDuration(data.duration) > 0
    requires i < |store| && store[i].clinicId == clinicId && store[i].doctorId == data.doctorId
    requires store[i].duration > 0
    requires data.datetime <= store[i].datetime < EndOf(data.datetime, CheckedDuration(data.duration))
    ensures CreateAppointment(store, clinicId, data, newId) == Failure(NotAvailable)
  {
    assert BlocksAsFetched(store[i], clinicId, data.doctorId.value, data.datetime,
                           EndOf(data.datetime, CheckedDuration(data.duration)));
  }

  /** Two rows are a double booking: same clinic and doctor, both of positive length, overlapping. */
  predicate Clash(a: Appointment, b: Appointment) {
    && a.clinicId == b.clinicId
    && Truthy(a.doctorId) && a.doctorId == b.doctorId
    && a.duration > 0 && b.duration > 0
    && Overlaps(a.datetime, EndOfRow(a), b.datetime, EndOfRow(b))
  }

  /** No doctor is booked twice at the same instant. */
  predicate NoDoubleBooking(store: seq<Appointment>) {
    forall i, j :: 0 <= i < j < |store| ==> !Clash(store[i], store[j])
  }

  /** As written, the query misses a row that starts before the new slot and runs into it, so a booking that
      overlaps it is accepted and the store then holds a double booking. */
  lemma EarlierOverlapAccepted(store: seq<Appointment>, data: AppointmentData)
    requires store == [Appointment("a1", "c1", "p1", Some("d1"), 0, 60, "SCHEDULED", "", None)]
    requires data == AppointmentData(None, "p2", Some("d1"), 30 * MillisPerMinute, Some(30), "SCHEDULED", "", None)
    ensures var r := CreateAppointment(store, "c1", data, "a2");
            NoDoubleBooking(store) && r.Success? && !NoDoubleBooking(r.value.1)
  {
    var a := NewAppointment("c1", data, "a2");
    EarlierRowNotFetched(store, data);
    assert |store| == 1;
    assert NoDoubleBooking(store);
    assert EndOfRow(store[0]) == 60 * MillisPerMinute && EndOfRow(a) == 60 * MillisPerMinute;
    assert Clash(store[0], a);
    var s' := store + [a];
    assert s'[0] == store[0] && s'[1] == a;
    assert !NoDoubleBooking(s');
  }

  /** The query for a slot starting at minute 30 leaves out the row that started at minute 0. */
  lemma EarlierRowNotFetched(store: seq<Appointment>, data: AppointmentData)
    requires store == [Appointment("a1", "c1", "p1", Some("d1"), 0, 60, "SCHEDULED", "", None)]
    requires data == AppointmentData(None, "p2", Some("d1"), 30 * MillisPerMinute, Some(30), "SCHEDULED", "", None)
    ensures CreateAppointment(store, "c1", data, "a2") == Success((NewAppointment("c1", data, "a2"), store + [NewAppointment("c1", data, "a2")]))
  {
    assert |store| == 1 && store[0].datetime < data.datetime;
  }

  /** The row belongs to this clinic and doctor and overlaps `[start, end)`, wherever it starts. */
  predicate BlocksStrictly(a: Appointment, clinicId: string, doctorId: Option<string>, start: int, end: int) {
    a.clinicId == clinicId && a.doctorId == doctorId && Overlaps(start, end, a.datetime, EndOfRow(a))
  }

  /** The corrected booking rule: every row of the same clinic and doctor is compared, whenever it starts. */
  function CreateAppointmentStrict(store: seq<Appointment>, clinicId: string, data: AppointmentData, newId: string)
    : (r: Result<(Appointment, seq<Appointment>), string>)
    ensures r.Failure? ==> r.error == NotAvailable
    ensures r.Failure? <==>
      Truthy(data.doctorId) &&
      exists i :: 0 <= i < |store| &&
        BlocksStrictly(store[i], clinicId, data.doctorId, data.datetime, EndOf(data.datetime, CheckedDuration(data.duration)))
    ensures r.Success? ==> r.value.1 == store + [r.value.0] && r.value.0 == NewAppointment(clinicId, data, newId)
    ensures NoDoubleBooking(store) && r.Success? ==> NoDoubleBooking(r.value.1)
  {
    var start := data.datetime;
    var end := EndOf(start, CheckedDuration(data.duration));
    var a := NewAppointment(clinicId, data, newId);
    if Truthy(data.doctorId) then
      var mine := Filter(store, (b: Appointment) => b.clinicId == clinicId && b.doctorId == data.doctorId);
      StrictOverlapIsBlocking(store, clinicId, data.doctorId, start, end, mine);
      if AnyOverlap(mine, start, end) then
        Failure(NotAvailable)
      else
        StrictAppendKeepsNoDoubleBooking(store, clinicId, data, newId, mine);
        Success((a, store + [a]))
    else
      assert forall i :: 0 <= i < |store| ==> !Clash(store[i], a);
      Success((a, store + [a]))
  }

  /** Some row of the doctor's filtered rows overlaps the slot exactly when some stored row blocks it strictly. */
  lemma StrictOverlapIsBlocking(store: seq<Appointment>, clinicId: string, doctorId: Option<string>, start: int, end: int,
                                mine: seq<Appointment>)
    requires mine == Filter(store, (b: Appointment) => b.clinicId == clinicId && b.doctorId == doctorId)
    ensures AnyOverlap(mine, start, end) <==>
            exists i :: 0 <= i < |store| && BlocksStrictly(store[i], clinicId, doctorId, start, end)
  {
    if AnyOverlap(mine, start, end) {
      FilteredOverlapBlocks(store, clinicId, doctorId, start, end, mine);
    }
    if exists i :: 0 <= i < |store| && BlocksStrictly(store[i], clinicId, doctorId, start, end) {
      BlockingRowIsFiltered(store, clinicId, doctorId, start, end, mine);
    }
  }

  /** An overlapping row among the doctor's filtered rows is a stored row that blocks the slot. */
  lemma FilteredOverlapBlocks(store: seq<Appointment>, clinicId: string, doctorId: Option<string>, start: int, end: int,
                              mine: seq<Appointment>)
    requires mine == Filter(store, (b: Appointment) => b.clinicId == clinicId && b.doctorId == doctorId)
    requires AnyOverlap(mine, start, end)
    ensures exists i :: 0 <= i < |store| && BlocksStrictly(store[i], clinicId, doctorId, start, end)
  {
    var k :| 0 <= k < |mine| && Overlaps(start, end, mine[k].datetime, EndOfRow(mine[k]));
    var i :| 0 <= i < |store| && store[i] == mine[k];
    assert BlocksStrictly(store[i], clinicId, doctorId, start, end);
  }

  /** A stored row that blocks the slot is among the doctor's filtered rows, where it overlaps. */
  lemma BlockingRowIsFiltered(store: seq<Appointment>, clinicId: string, doctorId: Option<string>, start: int, end: int,
                              mine: seq<Appointment>)
    requires mine == Filter(store, (b: Appointment) => b.clinicId == clinicId && b.doctorId == doctorId)
    requires exists i :: 0 <= i < |store| && BlocksStrictly(store[i], clinicId, doctorId, start, end)
    ensures AnyOverlap(mine, start, end)
  {
    var i :| 0 <= i < |store| && BlocksStrictly(store[i], clinicId, doctorId, start, end);
    assert store[i] in mine;
    var k :| 0 <= k < |mine| && mine[k] == store[i];
    assert Overlaps(start, end, mine[k].datetime, EndOfRow(mine[k]));
  }

  /** Appending a booking that overlaps none of its doctor's rows keeps the store free of double bookings. */
  lemma StrictAppendKeepsNoDoubleBooking(store: seq<Appointment>, clinicId: string, data: AppointmentData, newId: string,
                                         mine: seq<Appointment>)
    requires Truthy(data.doctorId)
    requires mine == Filter(store, (b: Appointment) => b.clinicId == clinicId && b.doctorId == data.doctorId)
    requires !AnyOverlap(mine, data.datetime, EndOf(data.datetime, CheckedDuration(data.duration)))
    ensures NoDoubleBooking(store) ==> NoDoubleBooking(store + [NewAppointment(clinicId, data, newId)])
  {
    var a := NewAppointment(clinicId, data, newId);
    var s' := store + [a];
    if NoDoubleBooking(store) {
      forall i, j | 0 <= i < j < |s'|
        ensures !Clash(s'[i], s'[j])
      {
        if j == |store| {
          var b := store[i];
          if b.clinicId == clinicId && b.doctorId == data.doctorId && a.duration > 0 {
            assert b in mine;
            var k :| 0 <= k < |mine| && mine[k] == b;
            assert a.duration == CheckedDuration(data.duration);
            assert !Overlaps(data.datetime, EndOf(data.datetime, CheckedDuration(data.duration)), b.datetime, EndOfRow(b));
          }
        } else {
          assert s'[i] == store[i] && s'[j] == store[j];
        }
      }
    }
  }

  /** `getAppointments(clinicId, start, end)`: the clinic's rows starting within the inclusive window, by start time. */
  function GetAppointments(store: seq<Appointment>, clinicId: string, start: int, end: int): (r: seq<Appointment>)
    ensures SortedBy(r, Start)
    ensures multiset(r) == multiset(Filter(store, WindowFilter(clinicId, start, end)))
    ensures forall i :: 0 <= i < |r| ==> r[i] in store && r[i].clinicId == clinicId && start <= r[i].datetime <= end
    ensures forall i :: 0 <= i < |store| && store[i].clinicId == clinicId && start <= store[i].datetime <= end ==>
              store[i] in r
  {
    FindByDateRange(store, clinicId, start, end)
  }

  /** An accepted booking is listed for its clinic in every window that contains its start, and in no other
      clinic's listing. */
  lemma BookingIsListed(store: seq<Appointment>, clinicId: string, data: AppointmentData, newId: string,
                        start: int, end: int, other: string)
    requires CreateAppointment(store, clinicId, data, newId).Success?
    requires other != clinicId
    ensures var r := CreateAppointment(store, clinicId, data, newId).value;
            start <= data.datetime <= end ==> r.0 in GetAppointments(r.1, clinicId, start, end)
    ensures var r := CreateAppointment(store, clinicId, data, newId).value;
            r.0 !in GetAppointments(r.1, other, start, end)
  {
    var r := CreateAppointment(store, clinicId, data, newId).value;
    assert r.1[|store|] == r.0;
  }

  /** A stored row is found by its id as long as no earlier row carries the same id. */
  lemma FoundByUniqueId(store: seq<Appointment>, k: nat)
    requires k < |store|
    requires forall m :: 0 <= m < |store| && m != k ==> store[m].id != store[k].id
    ensures FindById(store, store[k].id) == Some(store[k])
  {
    assert IndexOfId(store, store[k].id) == Some(k);
  }

  /** A booking created under a fresh id is then found by it. */
  lemma CreatedIsFound(store: seq<Appointment>, clinicId: string, data: AppointmentData, newId: string)
    requires CreateAppointment(store, clinicId, data, newId).Success?
    requires forall m :: 0 <= m < |store| ==> store[m].id != newId
    ensures var r := CreateAppointment(store, clinicId, data, newId).value;
            FindById(r.1, newId) == Some(r.0)
  {
    var r := CreateAppointment(store, clinicId, data, newId).value;
    FoundByUniqueId(r.1, |store|);
  }

  /** A row with the patch applied: present fields replace, absent fields keep. */
  function ApplyPatch(a: Appointment, p: AppointmentPatch): Appointment {
    Appointment(a.id, p.clinicId.GetOr(a.clinicId), p.patientId.GetOr(a.patientId),
                if p.doctorId.Some? then p.doctorId else a.doctorId,
                p.datetime.GetOr(a.datetime), p.duration.GetOr(a.duration),
                p.status.GetOr(a.status), p.reason.GetOr(a.reason),
                if p.notes.Some? then p.notes else a.notes)
  }

  /** The row is missing or belongs to another clinic. */
  predicate HiddenFrom(store: seq<Appointment>, id: string, clinicId: string) {
    var found := FindById(store, id);
    found.None? || found.value.clinicId != clinicId
  }

  /** `updateAppointment(id, clinicId, data)`: refused with "Appointment not found" for a missing or foreign row;
      otherwise exactly the first row with that id is replaced by its patched version. */
  function UpdateAppointment(store: seq<Appointment>, id: string, clinicId: string, patch: AppointmentPatch)
    : (r: Result<(Appointment, seq<Appointment>), string>)
    ensures r.Failure? <==> HiddenFrom(store, id, clinicId)
    ensures r.Failure? ==> r.error == AppointmentNotFound
    ensures r.Success? ==>
      var k := IndexOfId(store, id).value;
      && |r.value.1| == |store|
      && r.value.0 == ApplyPatch(store[k], patch) && r.value.1[k] == r.value.0
      && (forall m :: 0 <= m < |store| && m != k ==> r.value.1[m] == store[m])
  {
    match IndexOfId(store, id)
    case None => Failure(AppointmentNotFound)
    case Some(k) =>
      if store[k].clinicId != clinicId then Failure(AppointmentNotFound)
      else
        var updated := ApplyPatch(store[k], patch);
        Success((updated, store[k := updated]))
  }

  /** Rescheduling runs no availability check: an update can move a row onto another booking of its doctor. */
  lemma RescheduleIsUnchecked()
    ensures var store := [Appointment("a1", "c1", "p1", Some("d1"), 0, 30, "SCHEDULED", "", None),
                          Appointment("a2", "c1", "p2", Some("d1"), 60 * MillisPerMinute, 30, "SCHEDULED", "", None)];
            var patch := AppointmentPatch(None, None, None, Some(10 * MillisPerMinute), None, None, None, None);
            var r := UpdateAppointment(store, "a2", "c1", patch);
            NoDoubleBooking(store) && r.Success? && !NoDoubleBooking(r.value.1)
  {
    var store := [Appointment("a1", "c1", "p1", Some("d1"), 0, 30, "SCHEDULED", "", None),
                  Appointment("a2", "c1", "p2", Some("d1"), 60 * MillisPerMinute, 30, "SCHEDULED", "", None)];
    var patch := AppointmentPatch(None, None, None, Some(10 * MillisPerMinute), None, None, None, None);
    assert store[0].id != "a2" && store[1].id == "a2";
    assert IndexOfId(store, "a2") == Some(1);
    var r := UpdateAppointment(store, "a2", "c1", patch);
    assert Clash(r.value.1[0], r.value.1[1]);
  }

  /** `deleteAppointment(id, clinicId)`: refused with "Appointment not found" for a missing or foreign row;
      otherwise exactly that row is removed and every other row stays, in order. */
  function DeleteAppointment(store: seq<Appointment>, id: string, clinicId: string): (r: Result<seq<Appointment>, string>)
    ensures r.Failure? <==> HiddenFrom(store, id, clinicId)
    ensures r.Failure? ==> r.error == AppointmentNotFound
    ensures r.Success? ==>
      var k := IndexOfId(store, id).value;
      r.value == store[..k] + store[k + 1..] && multiset(r.value) + multiset{store[k]} == multiset(store)
  {
    match IndexOfId(store, id)
    case None => Failure(AppointmentNotFound)
    case Some(k) =>
      if store[k].clinicId != clinicId then Failure(AppointmentNotFound)
      else
        assert store == store[..k] + [store[k]] + store[k + 1..];
        Success(store[..k] + store[k + 1..])
  }

  /** When ids are unique, a deleted row is no longer found, and every other id finds what it found before. */
  lemma DeletedIsGone(store: seq<Appointment>, id: string, clinicId: string, other: string)
    requires forall i, j :: 0 <= i < j < |store| ==> store[i].id != store[j].id
    requires DeleteAppointment(store, id, clinicId).Success?
    requires other != id
    ensures FindById(DeleteAppointment(store, id, clinicId).value, id).None?
    ensures FindById(DeleteAppointment(store, id, clinicId).value, other) == FindById(store, other)
  {
    var k := IndexOfId(store, id).value;
    var rest := DeleteAppointment(store, id, clinicId).value;
    RemovedRowShifts(store, k);
    forall m | 0 <= m < |rest|
      ensures rest[m].id != id
    {
      var n := if m < k then m else m + 1;
      assert rest[m] == store[n] && n != k;
    }
    match IndexOfId(store, other)
    case None =>
      forall m | 0 <= m < |rest|
        ensures rest[m].id != other
      {
        var n := if m < k then m else m + 1;
        assert rest[m] == store[n];
      }
    case Some(j) =>
      assert j != k;
      var j' := if j < k then j else j - 1;
      assert rest[j'] == store[j];
      forall m | 0 <= m < |rest| && m != j'
        ensures rest[m].id != rest[j'].id
      {
        var n := if m < k then m else m + 1;
        assert rest[m] == store[n] && n != j;
      }
      FoundByUniqueId(rest, j');
  }

  /** Removing position `k` shifts every later row one place forward. */
  lemma RemovedRowShifts(store: seq<Appointment>, k: nat)
    requires k < |store|
    ensures var rest := store[..k] + store[k + 1..];
            && |rest| == |store| - 1
            && forall m :: 0 <= m < |rest| ==> rest[m] == store[if m < k then m else m + 1]
  {
  }
}

=== FILE: create_patient_modal.dfy ===
/** The patient creation form: the six standard fields are rendered first and the clinic's custom fields after
    them; on submit, answers to the standard fields go to the top level of the request body and every other answer
    goes into its `customData` object. */
module CreatePatientModal {
  const StandardFields: seq<string> := ["firstName", "lastName", "documentNumber", "dateOfBirth", "email", "phone"]

  /** The form's answers in `Object.entries` order; an object has each key once. */
  predicate DistinctKeys<V>(entries: seq<(string, V)>) {
    forall i, j :: 0 <= i < j < |entries| ==> entries[i].0 != entries[j].0
  }

  /** The request body: the standard answers at the top level, and `customData`, present even when empty. */
  datatype Payload<V> = Payload(fields: map<string, V>, customData: map<string, V>)

  /** The submit handler's split of the answers. */
  method Partition<V>(entries: seq<(string, V)>) returns (p: Payload<V>)
    requires DistinctKeys(entries)
    ensures forall k :: k in p.fields ==> k in StandardFields
    ensures forall k :: k in p.customData ==> k !in StandardFields
    ensures forall i :: 0 <= i < |entries| && entries[i].0 in StandardFields ==>
              entries[i].0 in p.fields && p.fields[entries[i].0] == entries[i].1
    ensures forall i :: 0 <= i < |entries| && entries[i].0 !in StandardFields ==>
              entries[i].0 in p.customData && p.customData[entries[i].0] == entries[i].1
    ensures forall k :: k in p.fields || k in p.customData ==> exists i :: 0 <= i < |entries| && entries[i].0 == k
  {
    var fields: map<string, V> := map[];
    var custom: map<string, V> := map[];
    var n := 0;
    while n < |entries|
      invariant 0 <= n <= |entries|
      invariant forall k :: k in fields ==> k in StandardFields
      invariant forall k :: k in custom ==> k !in StandardFields
      invariant forall i :: 0 <= i < n && entries[i].0 in StandardFields ==>
                  entries[i].0 in fields && fields[entries[i].0] == entries[i].1
      invariant forall i :: 0 <= i < n && entries[i].0 !in StandardFields ==>
                  entries[i].0 in custom && custom[entries[i].0] == entries[i].1
      invariant forall k :: k in fields || k in custom ==> exists i :: 0 <= i < n && entries[i].0 == k
    {
      var (key, value) := entries[n];
      if key in StandardFields {
        fields := fields[key := value];
      } else {
        custom := custom[key := value];
      }
      n := n + 1;
    }
    p := Payload(fields, custom);
  }

  /** A field of the form renderer; a missing `required` reads as false. */
  datatype FieldDef = FieldDef(id: string, labelText: string, fieldType: string, required: bool)

  /** The fields handed to the renderer: the standard six, then the clinic's custom fields in their order. */
  function AllFields(custom: seq<FieldDef>): (r: seq<FieldDef>)
    ensures |r| == |StandardFields| + |custom|
    ensures r[|StandardFields|..] == custom
    ensures forall i :: 0 <= i < |StandardFields| ==> r[i].id == StandardFields[i]
    ensures forall i :: 0 <= i < |StandardFields| ==> (r[i].required <==> i < 4)
  {
    [ FieldDef("firstName", "First Name", "text", true),
      FieldDef("lastName", "Last Name", "text", true),
      FieldDef("documentNumber", "DNI / Document", "text", true),
      FieldDef("dateOfBirth", "Date of Birth", "date", true),
      FieldDef("email", "Email", "text", false),
      FieldDef("phone", "Phone", "text", false) ] + custom
  }

  /** The form renders each standard field exactly once, ahead of the custom fields, so the names the submit
      handler keeps at the top level are exactly the ids of the leading rendered fields. */
  lemma RenderedStandardFields(custom: seq<FieldDef>)
    ensures forall k :: k in StandardFields <==> exists i :: 0 <= i < |StandardFields| && AllFields(custom)[i].id == k
    ensures forall i, j :: 0 <= i < j < |StandardFields| ==> AllFields(custom)[i].id != AllFields(custom)[j].id
  {
    var r := AllFields(custom);
    forall k | k in StandardFields
      ensures exists i :: 0 <= i < |StandardFields| && r[i].id == k
    {
      var i :| 0 <= i < |StandardFields| && StandardFields[i] == k;
      assert r[i].id == k;
    }
  }
}

=== FILE: error_statuses.dfy ===
/** The status each refusal reaches the client with. Only the login route and the appointment lookup by id throw into
    `apiHandler`, whose message matching then picks the status; POST /api/patients and POST /api/appointments answer
    every refusal with 400, and PUT /api/finance/invoices/[id] answers a failed payment with 500. Where a message
    reaches no `apiHandler`, the lemmas also state the status its matching would pick, to show what the routes'
    own catch blocks replace. Last, a token issued at login passes the request gate with the user's claims. */
module ErrorStatuses {
  import opened Results
  import opened Text
  import opened TokenService
  import opened Sequences
  import ApiHandler
  import ApiRoutes
  import AppointmentRepository
  import LoginUseCase
  import SubscriptionService
  import PatientService
  import AppointmentService
  import FinanceService
  import Middleware

  /** The status `apiHandler` answers with when its handler throws `msg`. */
  function StatusOf(msg: string): int {
    ApiHandler.ErrorResponse(ApiHandler.Error(msg)).status
  }

  /** Every login refusal is a client error: bad credentials and an inactive account are 401, a suspended clinic 403. */
  lemma LoginRefusalStatus(users: seq<LoginUseCase.AuthUser>, dto: LoginUseCase.LoginDto,
                           passwordMatches: (string, string) -> bool, sign: TokenPayload -> string)
    requires LoginUseCase.Execute(users, dto, passwordMatches, sign).Failure?
    ensures var e := LoginUseCase.Execute(users, dto, passwordMatches, sign).error;
            StatusOf(e) == (if e == LoginUseCase.ClinicSuspended then 403 else 401)
  {
    StartsWithIsContains(LoginUseCase.ClinicSuspended, "Clinic is suspended");
  }

  /** A patient quota refusal reaches the client as 400 with its "Upgrade required" message, through the patients
      route's catch; `apiHandler`, which that route does not use, would have answered 403. */
  lemma QuotaRefusalStatus(subs: SubscriptionService.Subscriptions, patients: seq<PatientService.Patient>, clinicId: string,
                           data: PatientService.CreatePatientDto, newId: string, now: int)
    requires clinicId != ""
    requires PatientService.PatientQuota(subs, patients, clinicId).outcome.Failure?
    requires SubscriptionService.Healed(subs, clinicId)[clinicId].status == "ACTIVE"
    ensures var m := PatientService.PatientQuota(subs, patients, clinicId).outcome.error;
            && StartsWith(m, "Upgrade required")
            && ApiRoutes.PostPatients(subs, patients, Some(clinicId), Success(data), newId, now).reply == ApiRoutes.Refused(400, m)
            && StatusOf(m) == 403
  {
    var m := PatientService.PatientQuota(subs, patients, clinicId).outcome.error;
    StartsWithIsContains(m, "Upgrade required");
    assert m[0] == 'U';
  }

  /** The status `apiHandler` maps the three "not found" messages to: 404. */
  lemma NotFoundStatus()
    ensures StatusOf(AppointmentService.AppointmentNotFound) == 404
    ensures StatusOf(FinanceService.InvoiceNotFound) == 404
    ensures StatusOf(PatientService.PatientNotFound) == 404
  {
    var a, i, p := "Appointment ", "Invoice ", "Patient ";
    assert Lacks(a, 'U') && Lacks(a, 'C');
    assert Lacks(i, 'U') && Lacks(i, 'C');
    assert Lacks(p, 'U') && Lacks(p, 'C');
    NotFoundIs404(a);
    NotFoundIs404(i);
    NotFoundIs404(p);
  }

  /** A message "<subject> not found" whose subject has no 'U' and no 'C' is 404. */
  lemma NotFoundIs404(subject: string)
    requires Lacks(subject, 'U') && Lacks(subject, 'C')
    ensures StatusOf(subject + "not found") == 404
  {
    var m := subject + "not found";
    assert Lacks("not found", 'U') && Lacks("not found", 'C');
    LacksAppend(subject, "not found", 'U');
    LacksAppend(subject, "not found", 'C');
    MissingCharNotContained(m, "Upgrade required", 0);
    MissingCharNotContained(m, "Clinic is suspended", 0);
    ContainsInside(subject, "not found", "");
    assert m + "" == m;
    assert m[|m| - 1] == 'd';
  }

  /** An unknown appointment id reaches the client as 404 "Appointment not found": GET /api/appointments/[id] throws it
      into `apiHandler`. */
  lemma UnknownAppointmentIs404(store: seq<AppointmentRepository.Appointment>, id: string)
    requires AppointmentRepository.FindById(store, id).None?
    ensures ApiRoutes.GetAppointmentById(store, id) == ApiHandler.ErrorJson(404, AppointmentService.AppointmentNotFound, "")
  {
    NotFoundStatus();
  }

  /** A payment on an unknown or foreign invoice reaches the client as 500 "Failed to update": the invoice route's
      catch replaces the "Invoice not found" message, which `apiHandler` would have answered with 404. */
  lemma UnknownInvoiceIs500(invoices: seq<FinanceService.Invoice>, payments: seq<FinanceService.Payment>, clinicId: string,
                            id: string, body: ApiRoutes.InvoiceUpdate, now: int, newId: string)
    requires clinicId != "" && ApiRoutes.Truthy(body.amount)
    requires var k := FirstIndex(invoices, (inv: FinanceService.Invoice) => inv.id == id);
             k.None? || invoices[k.value].clinicId != clinicId
    ensures ApiRoutes.PutInvoice(invoices, payments, Some(clinicId), id, Success(body), now, newId).reply ==
              ApiRoutes.Refused(500, ApiRoutes.FailedToUpdate)
    ensures StatusOf(FinanceService.InvoiceNotFound) == 404
  {
    NotFoundStatus();
  }

  /** A duplicate document reaches the client as 400 with the duplicate message, whatever the document number. No
      patient row is written, but the quota check that ran first may have inserted the clinic's FREE subscription. */
  lemma DuplicatePatientStatus(subs: SubscriptionService.Subscriptions, patients: seq<PatientService.Patient>, clinicId: string,
                               data: PatientService.CreatePatientDto, newId: string, now: int)
    requires clinicId != ""
    requires PatientService.PatientQuota(subs, patients, clinicId).outcome.Success?
    requires PatientService.FindByDocument(patients, clinicId, data.documentNumber).Some?
    ensures var r := ApiRoutes.PostPatients(subs, patients, Some(clinicId), Success(data), newId, now);
            && r.reply == ApiRoutes.Refused(400, PatientService.DuplicateMessage(data.documentNumber)) && r.patients == patients
            && r.subscriptions == SubscriptionService.Healed(subs, clinicId)
  {
  }

  /** The status `apiHandler` would map the duplicate message to: 409 when the document number has none of the letters
      'U', 'C' and 'f' (a plain number, say). */
  lemma DuplicateMessageStatus(doc: string)
    requires Lacks(doc, 'U') && Lacks(doc, 'C') && Lacks(doc, 'f')
    ensures StatusOf(PatientService.DuplicateMessage(doc)) == 409
  {
    var m := PatientService.DuplicateMessage(doc);
    DuplicateMessageLacks(doc, 'U');
    DuplicateMessageLacks(doc, 'C');
    DuplicateMessageLacks(doc, 'f');
    MissingCharNotContained(m, "Upgrade required", 0);
    MissingCharNotContained(m, "Clinic is suspended", 0);
    MissingCharNotContained(m, "not found", 4);
    DuplicateMessageMatches(doc);
  }

  /** The duplicate message lacks a letter that neither its fixed text nor the document holds. */
  lemma DuplicateMessageLacks(doc: string, c: char)
    requires c == 'U' || c == 'C' || c == 'f'
    requires Lacks(doc, c)
    ensures Lacks(PatientService.DuplicateMessage(doc), c)
  {
    var p1, p2, p3, p4, p5 := "Patient with ", "document ", " ", "already exists", ".";
    assert Lacks(p1, c) && Lacks(p2, c) && Lacks(p3, c) && Lacks(p4, c) && Lacks(p5, c);
    LacksAppend(p1, p2, c);
    LacksAppend(p1 + p2, doc, c);
    LacksAppend(p1 + p2 + doc, p3, c);
    LacksAppend(p1 + p2 + doc + p3, p4, c);
    LacksAppend(p1 + p2 + doc + p3 + p4, p5, c);
  }

  /** The duplicate message says "already exists" and is not a login message. */
  lemma DuplicateMessageMatches(doc: string)
    ensures Contains(PatientService.DuplicateMessage(doc), "already exists")
    ensures !ApiHandler.IsAuthMessage(PatientService.DuplicateMessage(doc))
  {
    var front := "Patient with " + "document " + doc + " ";
    ContainsInside(front, "already exists", ".");
    var m := PatientService.DuplicateMessage(doc);
    assert m[|m| - 1] == '.';
  }

  /** `apiHandler` matches on the whole message, text supplied by the client included: were the duplicate message
      thrown into it, a document number reading "not found" would turn its 409 into a 404. */
  lemma DocumentTextSteersStatus()
    ensures StatusOf(PatientService.DuplicateMessage("not found")) == 404
  {
    var doc := "not found";
    var m := PatientService.DuplicateMessage(doc);
    assert Lacks(doc, 'U') && Lacks(doc, 'C');
    DuplicateMessageLacks(doc, 'U');
    DuplicateMessageLacks(doc, 'C');
    MissingCharNotContained(m, "Upgrade required", 0);
    MissingCharNotContained(m, "Clinic is suspended", 0);
    DuplicateMessageMatches(doc);
    var front := "Patient with " + "document ";
    ContainsInside(front, doc, "");
    assert front + doc + "" == front + doc;
    ContainsExtend(front + doc, doc, " ");
    ContainsExtend(front + doc + " ", doc, "already exists");
    ContainsExtend(front + doc + " " + "already exists", doc, ".");
  }

  /** The messages of a suspended subscription and of a busy doctor match no rule of `apiHandler`, which would answer
      them with 500 Internal Server Error. */
  lemma UnmatchedRefusalsAre500()
    ensures StatusOf(SubscriptionService.Suspended) == 500
    ensures StatusOf(AppointmentService.NotAvailable) == 500
  {
    forall c | c == 'U' || c == 'C' || c == 'f' || c == 'x'
      ensures Lacks(SubscriptionService.Suspended, c) && Lacks(AppointmentService.NotAvailable, c)
    {
      var s1, s2 := "Subscription ", "is suspended.";
      assert Lacks(s1, c) && Lacks(s2, c);
      LacksAppend(s1, s2, c);
      var d1, d2, d3 := "Doctor is not ", "available at ", "this time.";
      assert Lacks(d1, c) && Lacks(d2, c) && Lacks(d3, c);
      LacksAppend(d1, d2, c);
      LacksAppend(d1 + d2, d3, c);
    }
    Unmatched(SubscriptionService.Suspended);
    Unmatched(AppointmentService.NotAvailable);
  }

  /** A suspended subscription and a busy doctor reach the client as 400 with their messages, through the catch
      blocks of the patients and appointments routes. */
  lemma ServiceRefusalsAre400(subs: SubscriptionService.Subscriptions, patients: seq<PatientService.Patient>,
                              data: PatientService.CreatePatientDto, store: seq<AppointmentRepository.Appointment>,
                              booking: AppointmentService.AppointmentData, clinicId: string, newId: string, now: int)
    requires clinicId != ""
    requires clinicId in subs && subs[clinicId].status != "ACTIVE"
    requires AppointmentService.CreateAppointment(store, clinicId, booking, newId).Failure?
    ensures ApiRoutes.PostPatients(subs, patients, Some(clinicId), Success(data), newId, now).reply ==
              ApiRoutes.Refused(400, SubscriptionService.Suspended)
    ensures ApiRoutes.PostAppointments(store, Some(clinicId), Success(booking), newId).reply ==
              ApiRoutes.Refused(400, AppointmentService.NotAvailable)
  {
  }

  /** A message without the letters 'U', 'C', 'f' and 'x' that is not a login message is 500. */
  lemma Unmatched(m: string)
    requires Lacks(m, 'U') && Lacks(m, 'C') && Lacks(m, 'f') && Lacks(m, 'x')
    requires m != "Invalid credentials" && m != "User account is inactive"
    ensures StatusOf(m) == 500
  {
    MissingCharNotContained(m, "Upgrade required", 0);
    MissingCharNotContained(m, "Clinic is suspended", 0);
    MissingCharNotContained(m, "not found", 4);
    MissingCharNotContained(m, "already exists", 9);
  }

  /** A token issued at login, sent as "Bearer <token>" to a protected path that needs no role redirect, passes the
      gate with the logged-in user's id, clinic and role id. */
  lemma LoginTokenPassesGate(users: seq<LoginUseCase.AuthUser>, dto: LoginUseCase.LoginDto,
                             passwordMatches: (string, string) -> bool, sign: TokenPayload -> string,
                             verify: string -> Option<TokenPayload>, path: string, cookie: Option<string>)
    requires VerifiesSigned(sign, verify)
    requires LoginUseCase.Execute(users, dto, passwordMatches, sign).Success?
    requires var t := LoginUseCase.Execute(users, dto, passwordMatches, sign).value.accessToken;
             ' ' !in t && t != ""
    requires !Middleware.IsPublic(path)
    requires Middleware.RoleRedirect(path, LoginUseCase.FindByEmail(users, dto.email).value.roleName).None?
    ensures var u := LoginUseCase.FindByEmail(users, dto.email).value;
            var t := LoginUseCase.Execute(users, dto, passwordMatches, sign).value.accessToken;
            Middleware.Decide(Middleware.Request(path, Some("Bearer " + t), cookie), verify) ==
              Middleware.NextWithIdentity(u.id, u.clinicId, u.roleId)
  {
    var u := LoginUseCase.FindByEmail(users, dto.email).value;
    var t := LoginUseCase.Execute(users, dto, passwordMatches, sign).value.accessToken;
    Middleware.HeaderTokenIgnoresScheme("Bearer", t, cookie, path);
    assert "Bearer" + " " + t == "Bearer " + t;
    assert verify(t) == Some(LoginUseCase.PayloadOf(u));
  }
}

=== FILE: finance_service.dfy ===
/** Invoices and payments. Amounts are exact integers (cents); the source's Decimal arithmetic is
    modelled as exact. */
module FinanceService {
  import opened Results
  import opened Sequences

  datatype LineItem = LineItem(description: string, quantity: int, unitPrice: int)

  /** The request body of an invoice; `clinicId` is whatever the body carried and is overridden. */
  datatype InvoiceData = InvoiceData(clinicId: Option<string>, patientId: string, dueDate: int, items: seq<LineItem>)

  datatype Invoice = Invoice(
    id: string,
    clinicId: string,
    patientId: string,
    dueDate: int,
    items: seq<LineItem>,
    totalAmount: int,
    paidAmount: int,
    status: string)

  datatype Payment = Payment(id: string, invoiceId: string, amount: int, paymentMethod: string, date: int)

  /** The tables after a payment, and the payment row returned to the caller. */
  datatype PaymentOutcome = PaymentOutcome(payment: Payment, invoices: seq<Invoice>, payments: seq<Payment>)

  const Pending := "PENDING"
  const Partial := "PARTIAL"
  const Paid := "PAID"
  const InvoiceNotFound := "Invoice " + "not found"  // in pieces, for proofs about its letters

  /** `items.reduce((sum, item) => sum + item.quantity * item.unitPrice, acc)`, left to right. */
  function Reduce(items: seq<LineItem>, acc: int): int
    decreases |items|
  {
    if |items| == 0 then acc else Reduce(items[1..], acc + items[0].quantity * items[0].unitPrice)
  }

  /** The reference total: the sum of quantity times unit price over the lines. */
  function LineTotal(items: seq<LineItem>): int
    decreases |items|
  {
    if |items| == 0 then 0 else items[0].quantity * items[0].unitPrice + LineTotal(items[1..])
  }

  /** The left fold started at `acc` adds the line total to `acc`. */
  lemma {:induction false} ReduceIsLineTotal(items: seq<LineItem>, acc: int)
    ensures Reduce(items, acc) == acc + LineTotal(items)
    decreases |items|
  {
    if |items| > 0 {
      ReduceIsLineTotal(items[1..], acc + items[0].quantity * items[0].unitPrice);
    }
  }

  /** The total of a concatenation is the sum of the totals. */
  lemma {:induction false} LineTotalAppend(a: seq<LineItem>, b: seq<LineItem>)
    ensures LineTotal(a + b) == LineTotal(a) + LineTotal(b)
    decreases |a|
  {
    if |a| == 0 {
      assert a + b == b;
    } else {
      LineTotalAppend(a[1..], b);
      assert (a + b)[1..] == a[1..] + b;
    }
  }

  /** Lines the invoice route accepts: quantity at least 1, unit price not negative. */
  predicate ValidLines(items: seq<LineItem>) {
    forall i :: 0 <= i < |items| ==> items[i].quantity >= 1 && items[i].unitPrice >= 0
  }

  /** For valid lines the total is never negative and covers every single line. */
  lemma {:induction false} ValidTotalCoversLines(items: seq<LineItem>)
    requires ValidLines(items)
    ensures LineTotal(items) >= 0
    ensures forall i :: 0 <= i < |items| ==> LineTotal(items) >= items[i].quantity * items[i].unitPrice
    decreases |items|
  {
    if |items| > 0 {
      ValidTotalCoversLines(items[1..]);
      assert forall i :: 1 <= i < |items| ==> items[i] == items[1..][i - 1];
    }
  }

  /** `createInvoice(clinicId, data)`: the caller's clinic, the line total, nothing paid, PENDING. */
  function CreateInvoice(clinicId: string, data: InvoiceData, newId: string): (inv: Invoice)
    ensures inv.totalAmount == LineTotal(data.items)
    ensures inv.paidAmount == 0 && inv.status == Pending
    ensures inv.clinicId == clinicId && inv.id == newId
    ensures inv.items == data.items && inv.patientId == data.patientId && inv.dueDate == data.dueDate
  {
    ReduceIsLineTotal(data.items, 0);
    Invoice(newId, clinicId, data.patientId, data.dueDate, data.items, Reduce(data.items, 0), 0, Pending)
  }

  /** The status after the paid amount becomes `newPaid`. */
  function NextStatus(total: int, newPaid: int, current: string): (s: string)
    ensures s == Paid <==> total - newPaid <= 0 || (newPaid <= 0 && current == Paid)
    ensures total - newPaid > 0 && newPaid > 0 ==> s == Partial
    ensures total - newPaid > 0 && newPaid <= 0 ==> s == current
  {
    if total - newPaid <= 0 then Paid
    else if newPaid > 0 then Partial
    else current
  }

  /** `method || "CASH"` */
  function MethodOrCash(m: string): string {
    if m == "" then "CASH" else m
  }

  /** `recordPayment(clinicId, invoiceId, amount, method)`: a missing or foreign invoice is refused with nothing
      written; otherwise one payment row is appended and the invoice's paid amount and status, and nothing else,
      are updated. */
  function RecordPayment(invoices: seq<Invoice>, payments: seq<Payment>, clinicId: string, invoiceId: string,
                         amount: int, paymentMethod: string, now: int, newId: string): (r: Result<PaymentOutcome, string>)
    ensures r.Failure? <==>
      var k := FirstIndex(invoices, (inv: Invoice) => inv.id == invoiceId);
      k.None? || invoices[k.value].clinicId != clinicId
    ensures r.Failure? ==> r.error == InvoiceNotFound
    ensures r.Success? ==>
      var k := FirstIndex(invoices, (inv: Invoice) => inv.id == invoiceId).value;
      var before := invoices[k];
      var newPaid := before.paidAmount + amount;
      && r.value.payment == Payment(newId, invoiceId, amount, MethodOrCash(paymentMethod), now)
      && r.value.payments == payments + [r.value.payment]
      && |r.value.invoices| == |invoices|
      && r.value.invoices[k] == before.(paidAmount := newPaid, status := NextStatus(before.totalAmount, newPaid, before.status))
      && (forall m :: 0 <= m < |invoices| && m != k ==> r.value.invoices[m] == invoices[m])
  {
    match FirstIndex(invoices, (inv: Invoice) => inv.id == invoiceId)
    case None => Failure(InvoiceNotFound)
    case Some(k) =>
      var before := invoices[k];
      if before.clinicId != clinicId then Failure(InvoiceNotFound)
      else
        var payment := Payment(newId, invoiceId, amount, MethodOrCash(paymentMethod), now);
        var newPaid := before.paidAmount + amount;
        var updated := before.(paidAmount := newPaid, status := NextStatus(before.totalAmount, newPaid, before.status));
        Success(PaymentOutcome(payment, invoices[k := updated], payments + [payment]))
  }

  /** The reconciliation invariant: the status agrees with how much of the total has been paid. */
  predicate Reconciled(inv: Invoice) {
    && inv.paidAmount >= 0
    && (inv.status == Pending || inv.status == Partial || inv.status == Paid)
    && (inv.status == Pending ==> inv.paidAmount == 0)
    && (inv.status == Partial ==> 0 < inv.paidAmount < inv.totalAmount)
    && (inv.status == Paid ==> inv.paidAmount >= inv.totalAmount)
  }

  /** A new invoice is reconciled. */
  lemma CreatedInvoiceReconciled(clinicId: string, data: InvoiceData, newId: string)
    ensures Reconciled(CreateInvoice(clinicId, data, newId))
  {
  }

  /** A payment of a non-negative amount keeps the paid invoice reconciled, and a PAID invoice stays PAID. */
  lemma PaymentKeepsReconciled(invoices: seq<Invoice>, payments: seq<Payment>, clinicId: string, invoiceId: string,
                               amount: int, paymentMethod: string, now: int, newId: string)
    requires amount >= 0
    requires forall i :: 0 <= i < |invoices| ==> Reconciled(invoices[i])
    requires RecordPayment(invoices, payments, clinicId, invoiceId, amount, paymentMethod, now, newId).Success?
    ensures var out := RecordPayment(invoices, payments, clinicId, invoiceId, amount, paymentMethod, now, newId).value;
            var k := FirstIndex(invoices, (inv: Invoice) => inv.id == invoiceId).value;
            && (forall i :: 0 <= i < |out.invoices| ==> Reconciled(out.invoices[i]))
            && (invoices[k].status == Paid ==> out.invoices[k].status == Paid)
            && out.invoices[k].paidAmount >= invoices[k].paidAmount
  {
  }

  /** Paying the outstanding balance (or more) settles the invoice. */
  lemma PayingBalanceSettles(invoices: seq<Invoice>, payments: seq<Payment>, clinicId: string, invoiceId: string,
                             amount: int, paymentMethod: string, now: int, newId: string)
    requires RecordPayment(invoices, payments, clinicId, invoiceId, amount, paymentMethod, now, newId).Success?
    requires var k := FirstIndex(invoices, (inv: Invoice) => inv.id == invoiceId).value;
             amount >= invoices[k].totalAmount - invoices[k].paidAmount
    ensures var out := RecordPayment(invoices, payments, clinicId, invoiceId, amount, paymentMethod, now, newId).value;
            var k := FirstIndex(invoices, (inv: Invoice) => inv.id == invoiceId).value;
            out.invoices[k].status == Paid
  {
  }
}

=== FILE: login_use_case.dfy ===
/** Password login: the user is looked up by email, then the account, the clinic and the password are checked in
    that order; on success a signed token and a public view of the user are returned. Password comparison and
    token signing are the cryptographic oracles `passwordMatches` and `sign`. */
module LoginUseCase {
  import opened Results
  import opened Sequences
  import opened TokenService

  datatype Clinic = Clinic(
    id: string,
    name: string,
    slug: string,
    logoUrl: Option<string>,
    primaryColor: Option<string>,
    status: string)

  /** A user row as the auth repository returns it, with its clinic and role name joined in. */
  datatype AuthUser = AuthUser(
    id: string,
    email: string,
    passwordHash: string,
    firstName: string,
    lastName: string,
    isActive: bool,
    clinicId: string,
    roleId: string,
    roleName: string,
    clinic: Clinic)

  datatype LoginDto = LoginDto(email: string, password: string)

  datatype ClinicSummary = ClinicSummary(id: string, name: string, slug: string, logoUrl: Option<string>, primaryColor: Option<string>)

  /** The user object returned to the client; it has no password hash field. */
  datatype UserView = UserView(id: string, email: string, firstName: string, lastName: string, clinic: ClinicSummary, role: string)

  datatype LoginResult = LoginResult(accessToken: string, user: UserView)

  const InvalidCredentials := "Invalid credentials"
  const AccountInactive := "User account is inactive"
  const ClinicSuspended := "Clinic is suspended"

  /** `findByEmail(email)`: the row with this email (the column is unique, so the first is the only one). */
  function FindByEmail(users: seq<AuthUser>, email: string): (r: Option<AuthUser>)
    ensures r.Some? ==> r.value in users && r.value.email == email
    ensures r.None? ==> forall i :: 0 <= i < |users| ==> users[i].email != email
  {
    match FirstIndex(users, (u: AuthUser) => u.email == email)
    case None => None
    case Some(k) => Some(users[k])
  }

  /** The claims signed into the token. */
  function PayloadOf(u: AuthUser): TokenPayload {
    TokenPayload(u.id, u.clinicId, u.roleId, u.roleName, u.email)
  }

  function ViewOf(u: AuthUser): UserView {
    UserView(u.id, u.email, u.firstName, u.lastName,
             ClinicSummary(u.clinic.id, u.clinic.name, u.clinic.slug, u.clinic.logoUrl, u.clinic.primaryColor),
             u.roleName)
  }

  /** `execute(dto)` */
  function Execute(users: seq<AuthUser>, dto: LoginDto, passwordMatches: (string, string) -> bool,
                   sign: TokenPayload -> string): (r: Result<LoginResult, string>)
    ensures FindByEmail(users, dto.email).None? ==> r == Failure(InvalidCredentials)
    ensures FindByEmail(users, dto.email).Some? ==>
      var u := FindByEmail(users, dto.email).value;
      && (!u.isActive ==> r == Failure(AccountInactive))
      && (u.isActive && u.clinic.status != "ACTIVE" ==> r == Failure(ClinicSuspended))
      && (u.isActive && u.clinic.status == "ACTIVE" && !passwordMatches(dto.password, u.passwordHash) ==>
            r == Failure(InvalidCredentials))
    ensures r.Success? <==>
      var found := FindByEmail(users, dto.email);
      found.Some? && found.value.isActive && found.value.clinic.status == "ACTIVE" &&
      passwordMatches(dto.password, found.value.passwordHash)
    ensures r.Success? ==>
      var u := FindByEmail(users, dto.email).value;
      && u in users && u.email == dto.email
      && r.value.accessToken == sign(TokenPayload(u.id, u.clinicId, u.roleId, u.roleName, u.email))
      && r.value.user.id == u.id && r.value.user.email == u.email && r.value.user.role == u.roleName
      && r.value.user.firstName == u.firstName && r.value.user.lastName == u.lastName
      && r.value.user.clinic.id == u.clinic.id && r.value.user.clinic.name == u.clinic.name
      && r.value.user.clinic.slug == u.clinic.slug && r.value.user.clinic.logoUrl == u.clinic.logoUrl
      && r.value.user.clinic.primaryColor == u.clinic.primaryColor
  {
    match FindByEmail(users, dto.email)
    case None => Failure(InvalidCredentials)
    case Some(u) =>
      if !u.isActive then Failure(AccountInactive)
      else if u.clinic.status != "ACTIVE" then Failure(ClinicSuspended)
      else if !passwordMatches(dto.password, u.passwordHash) then Failure(InvalidCredentials)
      else Success(LoginResult(sign(PayloadOf(u)), ViewOf(u)))
  }

  /** An unknown email and a wrong password for a usable account are refused with the same message. */
  lemma UnknownEmailLooksLikeWrongPassword(users: seq<AuthUser>, dto: LoginDto, passwordMatches: (string, string) -> bool,
                                           sign: TokenPayload -> string, u: AuthUser)
    requires u in users && u.email == dto.email && u.isActive && u.clinic.status == "ACTIVE"
    requires forall v :: v in users && v.email == dto.email ==> v == u
    requires !passwordMatches(dto.password, u.passwordHash)
    ensures Execute(users, dto, passwordMatches, sign) == Execute([], dto, passwordMatches, sign)
  {
  }

  /** On every failure the signer is never consulted: any other signer gives the same answer. */
  lemma NoTokenOnFailure(users: seq<AuthUser>, dto: LoginDto, passwordMatches: (string, string) -> bool,
                         sign: TokenPayload -> string, other: TokenPayload -> string)
    requires Execute(users, dto, passwordMatches, sign).Failure?
    ensures Execute(users, dto, passwordMatches, other) == Execute(users, dto, passwordMatches, sign)
  {
  }

  /** The returned user view does not depend on the stored password hash. */
  lemma ViewHidesHash(users: seq<AuthUser>, dto: LoginDto, passwordMatches: (string, string) -> bool,
                      sign: TokenPayload -> string)
    requires Execute(users, dto, passwordMatches, sign).Success?
    ensures var u := FindByEmail(users, dto.email).value;
            forall h :: Execute(users, dto, passwordMatches, sign).value.user == ViewOf(u.(passwordHash := h))
  {
  }

  /** The checks are ordered: an inactive account is reported even when its clinic is suspended and the password is
      wrong, and a suspended clinic is reported before the password is compared. */
  lemma ChecksAreOrdered(users: seq<AuthUser>, dto: LoginDto, sign: TokenPayload -> string)
    requires FindByEmail(users, dto.email).Some?
    ensures var u := FindByEmail(users, dto.email).value;
            !u.isActive ==> Execute(users, dto, (p, h) => false, sign) == Failure(AccountInactive)
    ensures var u := FindByEmail(users, dto.email).value;
            u.isActive && u.clinic.status != "ACTIVE" ==>
              Execute(users, dto, (p, h) => true, sign) == Failure(ClinicSuspended)
  {
  }
}

=== FILE: medical_record_service.dfy ===
/** Medical records over an in-memory table: creation with the caller's clinic, author and clock forced onto the
    row, a tenant-guarded read, and a patient's history newest first. */
module MedicalRecordService {
  import opened Results
  import opened Sequences

  datatype MedicalRecord = MedicalRecord(
    id: string,
    clinicId: string,
    patientId: string,
    doctorId: string,
    date: int,
    templateId: Option<string>,
    content: map<string, string>)

  /** The request body. Its own `clinicId`, `doctorId` and `date`, when present, are overridden. */
  datatype RecordData = RecordData(
    clinicId: Option<string>,
    doctorId: Option<string>,
    date: Option<int>,
    patientId: string,
    templateId: Option<string>,
    content: map<string, string>)

  /** `createRecord(clinicId, doctorId, data)`; `now` is the instant of `new Date()`. */
  function CreateRecord(clinicId: string, doctorId: string, data: RecordData, newId: string, now: int): (r: MedicalRecord)
    ensures r.clinicId == clinicId && r.doctorId == doctorId && r.date == now
    ensures r.id == newId && r.patientId == data.patientId && r.templateId == data.templateId && r.content == data.content
  {
    MedicalRecord(newId, clinicId, data.patientId, doctorId, now, data.templateId, data.content)
  }

  /** Whatever the body says about clinic, author or date, two bodies that agree on the rest give the same row. */
  lemma CreateIgnoresSuppliedOwnership(clinicId: string, doctorId: string, data: RecordData, newId: string, now: int,
                                       c: Option<string>, d: Option<string>, t: Option<int>)
    ensures CreateRecord(clinicId, doctorId, data.(clinicId := c, doctorId := d, date := t), newId, now)
         == CreateRecord(clinicId, doctorId, data, newId, now)
  {
  }

  /** `findByPatient`'s `where`. */
  predicate OfPatient(r: MedicalRecord, clinicId: string, patientId: string) {
    r.clinicId == clinicId && r.patientId == patientId
  }

  function OfPatientFilter(clinicId: string, patientId: string): MedicalRecord -> bool {
    m => OfPatient(m, clinicId, patientId)
  }

  /** `orderBy: { date: 'desc' }` as an ascending key. */
  function NewestFirst(r: MedicalRecord): int {
    -r.date
  }

  /** `getPatientHistory(clinicId, patientId)`: exactly the patient's records in that clinic, newest first. */
  function GetPatientHistory(records: seq<MedicalRecord>, clinicId: string, patientId: string): (r: seq<MedicalRecord>)
    ensures forall i, j :: 0 <= i < j < |r| ==> r[i].date >= r[j].date
    ensures multiset(r) == multiset(Filter(records, OfPatientFilter(clinicId, patientId)))
    ensures forall i :: 0 <= i < |r| ==> r[i] in records && OfPatient(r[i], clinicId, patientId)
    ensures forall i :: 0 <= i < |records| && OfPatient(records[i], clinicId, patientId) ==> records[i] in r
  {
    var r := SortedFilter(records, OfPatientFilter(clinicId, patientId), NewestFirst);
    assert forall i, j :: 0 <= i < j < |r| ==> NewestFirst(r[i]) <= NewestFirst(r[j]);
    r
  }

  /** `getRecord(id, clinicId)`: the record only when it belongs to the caller's clinic. */
  function GetRecord(records: seq<MedicalRecord>, id: string, clinicId: string): (r: Option<MedicalRecord>)
    ensures r.Some? ==> r.value in records && r.value.id == id && r.value.clinicId == clinicId
    ensures r.None? <==>
      var k := FirstIndex(records, (m: MedicalRecord) => m.id == id);
      k.None? || records[k.value].clinicId != clinicId
  {
    match FirstIndex(records, (m: MedicalRecord) => m.id == id)
    case None => None
    case Some(k) => if records[k].clinicId != clinicId then None else Some(records[k])
  }

  /** A record created by a clinic is readable by that clinic and by no other, and shows up in the patient's
      history there. */
  lemma CreatedRecordIsTenantScoped(records: seq<MedicalRecord>, clinicId: string, doctorId: string, data: RecordData,
                                    newId: string, now: int, other: string)
    requires forall i :: 0 <= i < |records| ==> records[i].id != newId
    requires other != clinicId
    ensures var rec := CreateRecord(clinicId, doctorId, data, newId, now);
            && GetRecord(records + [rec], newId, clinicId) == Some(rec)
            && GetRecord(records + [rec], newId, other).None?
            && rec in GetPatientHistory(records + [rec], clinicId, data.patientId)
  {
    var rec := CreateRecord(clinicId, doctorId, data, newId, now);
    var s := records + [rec];
    assert s[|records|] == rec;
    var k := FirstIndex(s, (m: MedicalRecord) => m.id == newId);
    assert k == Some(|records|);
  }
}

=== FILE: middleware.dfy ===
/** The request gate run before every page and API route: public paths pass, everything else needs a
    token, tokens are verified, and role-based redirects send patients, doctors and staff to their areas.
    Verification is the cryptographic oracle `verify`; `None` stands for a thrown verification error. */
module Middleware {
  import opened Results
  import opened Text
  import opened TokenService

  const PublicPaths: seq<string> := ["/login", "/register", "/api/auth/login", "/api/health", "/api/doc", "/docs"]

  /** The parts of a request the gate reads: the path, the Authorization header and the 'token' cookie. */
  datatype Request = Request(pathname: string, authorization: Option<string>, cookieToken: Option<string>)

  datatype Response =
    | Next                                                              // passes on with the request untouched
    | NextWithIdentity(userId: string, clinicId: string, userRole: string) // passes on with x-user-id, x-clinic-id, x-user-role set
    | JsonError(status: int, error: string)
    | Redirect(location: string)

  /** `publicPaths.some(path => pathname.startsWith(path))` */
  predicate IsPublic(path: string) {
    exists i :: 0 <= i < |PublicPaths| && StartsWith(path, PublicPaths[i])
  }

  /** `authorization?.split(' ')[1]`, where an empty piece counts as no token. */
  function HeaderToken(authorization: Option<string>): Option<string> {
    match authorization
    case None => None
    case Some(h) =>
      var pieces := Split(h, ' ');
      if |pieces| >= 2 && pieces[1] != "" then Some(pieces[1]) else None
  }

  /** The header token when there is one, otherwise a non-empty cookie. */
  function ExtractToken(req: Request): Option<string> {
    match HeaderToken(req.authorization)
    case Some(t) => Some(t)
    case None =>
      match req.cookieToken
      case Some(c) => if c != "" then Some(c) else None
      case None => None
  }

  /** The four path rules, in order; the first that applies names the redirect target. */
  function RoleRedirect(path: string, role: string): Option<string> {
    if StartsWith(path, "/dashboard") && role == "PATIENT" then Some("/portal")
    else if StartsWith(path, "/portal") && role != "PATIENT" then Some("/dashboard")
    else if StartsWith(path, "/dashboard") && role == "DOCTOR" then Some("/doctor")
    else if StartsWith(path, "/doctor") && role != "DOCTOR" then Some("/dashboard")
    else None
  }

  /** The refusal for a missing or rejected token: JSON 401 on '/api' paths, a redirect to the login page elsewhere. */
  function Refuse(path: string, error: string): Response {
    if StartsWith(path, "/api") then JsonError(401, error) else Redirect("/login")
  }

  /** The gate, given whether the path counts as public. */
  function DecideWith(public: bool, req: Request, verify: string -> Option<TokenPayload>): Response {
    if public then Next
    else
      match ExtractToken(req)
      case None => Refuse(req.pathname, "Unauthorized")
      case Some(token) =>
        match verify(token)
        case None => Refuse(req.pathname, "Invalid Token")
        case Some(p) =>
          match RoleRedirect(req.pathname, p.role)
          case Some(target) => Redirect(target)
          case None => NextWithIdentity(p.userId, p.clinicId, p.roleId)
  }

  /** `middleware(request)` */
  function Decide(req: Request, verify: string -> Option<TokenPayload>): (r: Response)
    ensures IsPublic(req.pathname) ==> r == Next
    ensures !IsPublic(req.pathname) && ExtractToken(req).None? ==>
              r == (if StartsWith(req.pathname, "/api") then JsonError(401, "Unauthorized") else Redirect("/login"))
    ensures !IsPublic(req.pathname) && ExtractToken(req).Some? && verify(ExtractToken(req).value).None? ==>
              r == (if StartsWith(req.pathname, "/api") then JsonError(401, "Invalid Token") else Redirect("/login"))
    ensures !IsPublic(req.pathname) && ExtractToken(req).Some? && verify(ExtractToken(req).value).Some? ==>
              var p := verify(ExtractToken(req).value).value;
              r == (if RoleRedirect(req.pathname, p.role).Some? then Redirect(RoleRedirect(req.pathname, p.role).value)
                    else NextWithIdentity(p.userId, p.clinicId, p.roleId))
    ensures r.NextWithIdentity? ==>
              var p := verify(ExtractToken(req).value).value;
              r == NextWithIdentity(p.userId, p.clinicId, p.roleId) && RoleRedirect(req.pathname, p.role).None?
  {
    DecideWith(IsPublic(req.pathname), req, verify)
  }

  /** Public matching is by bare prefix: '/loginX' is public too. */
  lemma PrefixMatchIsLoose()
    ensures IsPublic("/loginX")
    ensures IsPublic("/docs/anything")
  {
    assert StartsWith("/loginX", PublicPaths[0]);
    assert StartsWith("/docs/anything", PublicPaths[5]);
  }

  /** A header "<scheme> <token>" yields the token whatever the scheme word; the cookie is then ignored. */
  lemma HeaderTokenIgnoresScheme(scheme: string, token: string, cookie: Option<string>, path: string)
    requires ' ' !in scheme && ' ' !in token && token != ""
    ensures ExtractToken(Request(path, Some(scheme + " " + token), cookie)) == Some(token)
  {
    SplitWhole(token, ' ');
    SplitAfterPiece(scheme, ' ', token);
  }

  /** A header without a space carries no token, so the cookie is used. */
  lemma HeaderWithoutSpaceFallsBackToCookie(h: string, cookie: string, path: string)
    requires ' ' !in h && cookie != ""
    ensures ExtractToken(Request(path, Some(h), Some(cookie))) == Some(cookie)
  {
    SplitWhole(h, ' ');
  }

  /** Two strings that differ at a position both have are not prefixes of one another. */
  lemma DiffersAt(a: string, b: string, k: nat)
    requires k < |a| && k < |b| && a[k] != b[k]
    ensures !StartsWith(a, b) && !StartsWith(b, a)
  {
  }

  /** Two prefixes of one string are prefixes of one another. */
  lemma PrefixesNest(s: string, a: string, b: string)
    requires StartsWith(s, a) && StartsWith(s, b) && |a| <= |b|
    ensures StartsWith(b, a)
  {
    assert b[..|a|] == s[..|b|][..|a|] == s[..|a|];
  }

  /** A verified PATIENT never reaches the staff dashboard or the doctor area; a verified DOCTOR never reaches
      the staff dashboard or the patient portal. */
  lemma RoleAreasAreEnforced(req: Request, verify: string -> Option<TokenPayload>)
    requires ExtractToken(req).Some? && verify(ExtractToken(req).value).Some?
    requires !IsPublic(req.pathname)
    ensures var role := verify(ExtractToken(req).value).value.role;
            role == "PATIENT" && (StartsWith(req.pathname, "/dashboard") || StartsWith(req.pathname, "/doctor")) ==>
              Decide(req, verify).Redirect?
    ensures var role := verify(ExtractToken(req).value).value.role;
            role == "DOCTOR" && (StartsWith(req.pathname, "/dashboard") || StartsWith(req.pathname, "/portal")) ==>
              Decide(req, verify).Redirect?
  {
  }

  /** The first matching rule wins: a PATIENT on the dashboard goes to the portal, a DOCTOR on the dashboard to the
      doctor area, a DOCTOR on the portal to the dashboard. */
  lemma FirstRuleWins()
    ensures RoleRedirect("/dashboard", "PATIENT") == Some("/portal")
    ensures RoleRedirect("/dashboard", "DOCTOR") == Some("/doctor")
    ensures RoleRedirect("/portal", "DOCTOR") == Some("/dashboard")
    ensures RoleRedirect("/doctor", "PATIENT") == Some("/dashboard")
  {
    DiffersAt("/portal", "/dashboard", 1);
    DiffersAt("/doctor", "/dashboard", 2);
    DiffersAt("/doctor", "/portal", 1);
  }

  /** None of the redirect targets is public. */
  lemma TargetsNotPublic()
    ensures !IsPublic("/portal") && !IsPublic("/dashboard") && !IsPublic("/doctor")
  {
    forall i | 0 <= i < |PublicPaths|
      ensures !StartsWith("/portal", PublicPaths[i]) && !StartsWith("/dashboard", PublicPaths[i])
      ensures !StartsWith("/doctor", PublicPaths[i])
    {
      DiffersAt("/portal", PublicPaths[i], 1);
      DiffersAt("/dashboard", PublicPaths[i], 2);
      DiffersAt("/doctor", PublicPaths[i], if i == 5 then 4 else 1);
    }
  }

  /** Following the gate's redirects with the same token settles within two hops on a page that passes with the
      token's identity; a request without a token is sent to the login page, which passes. */
  lemma RedirectsSettle(req: Request, verify: string -> Option<TokenPayload>)
    ensures var r1 := Decide(req, verify);
            r1.Redirect? && ExtractToken(req).Some? && verify(ExtractToken(req).value).Some? ==>
              var r2 := Decide(req.(pathname := r1.location), verify);
              r2.NextWithIdentity? || (r2.Redirect? && Decide(req.(pathname := r2.location), verify).NextWithIdentity?)
    ensures Decide(req.(pathname := "/login"), verify) == Next
  {
    TargetsNotPublic();
    assert StartsWith("/login", PublicPaths[0]);
    var r1 := Decide(req, verify);
    if r1.Redirect? && ExtractToken(req).Some? && verify(ExtractToken(req).value).Some? {
      var p := verify(ExtractToken(req).value).value;
      TargetRules(p.role);
      assert r1 == Redirect(RoleRedirect(req.pathname, p.role).value);
    }
  }

  /** How the four rules treat the three redirect targets themselves. */
  lemma TargetRules(role: string)
    ensures RoleRedirect("/portal", role) == if role == "PATIENT" then None else Some("/dashboard")
    ensures RoleRedirect("/dashboard", role) ==
              if role == "PATIENT" then Some("/portal") else if role == "DOCTOR" then Some("/doctor") else None
    ensures RoleRedirect("/doctor", role) == if role == "DOCTOR" then None else Some("/dashboard")
    ensures forall path :: RoleRedirect(path, role).Some? ==>
              RoleRedirect(path, role).value in {"/portal", "/dashboard", "/doctor"}
  {
    DiffersAt("/portal", "/dashboard", 1);
    DiffersAt("/doctor", "/dashboard", 2);
    DiffersAt("/doctor", "/portal", 1);
  }

  /** As written, the swagger prefix '/api/doc' also matches the doctors API and the consultation API, so those pass
      without any token (and with whatever identity headers the client sent). */
  lemma DocPrefixExposesDoctorApi(verify: string -> Option<TokenPayload>)
    ensures Decide(Request("/api/doctors", None, None), verify) == Next
    ensures Decide(Request("/api/doctor/consultation", None, None), verify) == Next
  {
    assert StartsWith("/api/doctors", PublicPaths[4]);
    assert StartsWith("/api/doctor/consultation", PublicPaths[4]);
  }

  /** The corrected public check: a public entry matches itself and the paths below it, at a segment boundary. */
  predicate IsPublicStrict(path: string) {
    exists i :: 0 <= i < |PublicPaths| && (path == PublicPaths[i] || StartsWith(path, PublicPaths[i] + "/"))
  }

  /** The gate with the corrected public check. */
  function DecideStrict(req: Request, verify: string -> Option<TokenPayload>): (r: Response)
    ensures IsPublicStrict(req.pathname) ==> r == Next
    ensures !IsPublicStrict(req.pathname) ==> r == DecideWith(false, req, verify)
    ensures !IsPublicStrict(req.pathname) && ExtractToken(req).None? && StartsWith(req.pathname, "/api") ==>
              r == JsonError(401, "Unauthorized")
  {
    DecideWith(IsPublicStrict(req.pathname), req, verify)
  }

  /** The corrected check only narrows the public set, and keeps every listed entry and its sub-paths public. */
  lemma StrictNarrowsPublic(path: string)
    ensures IsPublicStrict(path) ==> IsPublic(path)
    ensures forall i :: 0 <= i < |PublicPaths| ==> IsPublicStrict(PublicPaths[i])
  {
    if IsPublicStrict(path) {
      var i :| 0 <= i < |PublicPaths| && (path == PublicPaths[i] || StartsWith(path, PublicPaths[i] + "/"));
      if path != PublicPaths[i] {
        assert (PublicPaths[i] + "/")[..|PublicPaths[i]|] == PublicPaths[i];
        assert path[..|PublicPaths[i]|] == path[..|PublicPaths[i] + "/"|][..|PublicPaths[i]|];
      }
      assert StartsWith(path, PublicPaths[i]);
    }
  }

  /** Under the corrected check no path of the doctor APIs is public: without a token they get 401. */
  lemma StrictProtectsDoctorApi(path: string, verify: string -> Option<TokenPayload>)
    requires StartsWith(path, "/api/doctor")
    ensures !IsPublicStrict(path)
    ensures DecideStrict(Request(path, None, None), verify) == JsonError(401, "Unauthorized")
  {
    forall i | 0 <= i < |PublicPaths|
      ensures path != PublicPaths[i] && !StartsWith(path, PublicPaths[i] + "/")
    {
      var p := PublicPaths[i];
      var k := if i == 2 || i == 3 then 5 else if i == 4 then 8 else 1;
      if i != 4 {
        DiffersAt(p, "/api/doctor", k);
      }
      DiffersAt(p + "/", "/api/doctor", k);
      if StartsWith(path, p + "/") {
        if |p + "/"| <= 11 {
          PrefixesNest(path, p + "/", "/api/doctor");
        } else {
          PrefixesNest(path, "/api/doctor", p + "/");
        }
      }
    }
    assert StartsWith(path, "/api") by {
      assert path[..4] == path[..11][..4];
    }
  }
}

=== FILE: patient_service.dfy ===
/** The patient service over an in-memory patient table: creation behind the plan quota and a per-clinic
    duplicate check, tenant-guarded reads and updates, and the paginated listing of the Prisma repository. */
module PatientService {
  import opened Results
  import opened Sequences
  import opened Text
  import SubscriptionService

  datatype Patient = Patient(
    id: string,
    clinicId: string,
    firstName: string,
    lastName: string,
    dateOfBirth: int,
    documentNumber: string,
    email: Option<string>,
    phone: Option<string>,
    gender: Option<string>,
    address: Option<string>,
    customData: Option<map<string, string>>,
    updatedAt: int)

  /** The request body; `clinicId` is whatever extra key the body carried and is overridden. */
  datatype CreatePatientDto = CreatePatientDto(
    clinicId: Option<string>,
    firstName: string,
    lastName: string,
    dateOfBirth: int,
    documentNumber: string,
    email: Option<string>,
    phone: Option<string>,
    gender: Option<string>,
    address: Option<string>,
    customData: Option<map<string, string>>)

  /** The tables after `createPatient` and its verdict. The quota check may have inserted a subscription row even
      when the creation fails afterwards. */
  datatype Creation = Creation(subscriptions: SubscriptionService.Subscriptions, patients: seq<Patient>, result: Result<Patient, string>)

  function DuplicateMessage(documentNumber: string): string {
    "Patient with " + "document " + documentNumber + " " + "already exists" + "."  // in pieces, for proofs about its letters
  }

  const PatientNotFound := "Patient " + "not found"  // in pieces, for proofs about its letters

  predicate InClinic(p: Patient, clinicId: string) {
    p.clinicId == clinicId
  }

  /** `patient.count({ where: { clinicId } })` */
  function PatientCount(patients: seq<Patient>, clinicId: string): nat {
    |Filter(patients, p => InClinic(p, clinicId))|
  }

  /** `findByDocument(clinicId, documentNumber)`, a lookup on the compound unique key. */
  function FindByDocument(patients: seq<Patient>, clinicId: string, documentNumber: string): (r: Option<Patient>)
    ensures r.Some? ==> r.value in patients && r.value.clinicId == clinicId && r.value.documentNumber == documentNumber
    ensures r.None? <==> forall i :: 0 <= i < |patients| ==>
                           !(patients[i].clinicId == clinicId && patients[i].documentNumber == documentNumber)
  {
    match FirstIndex(patients, (p: Patient) => p.clinicId == clinicId && p.documentNumber == documentNumber)
    case None => None
    case Some(k) => Some(patients[k])
  }

  /** The quota check run by `createPatient`; the users count is not consulted for the 'patients' resource. */
  function PatientQuota(subs: SubscriptionService.Subscriptions, patients: seq<Patient>, clinicId: string): SubscriptionService.LimitCheck {
    SubscriptionService.CheckLimit(subs, clinicId, SubscriptionService.Patients, 0,
                                   SubscriptionService.Usage(0, PatientCount(patients, clinicId)))
  }

  /** `createPatient(clinicId, data)`: the quota first, then the duplicate check within the clinic, then the row
      with the caller's clinic. */
  function CreatePatient(subs: SubscriptionService.Subscriptions, patients: seq<Patient>, clinicId: string,
                         data: CreatePatientDto, newId: string, now: int): (r: Creation)
    ensures r.subscriptions == SubscriptionService.Healed(subs, clinicId)
    ensures PatientQuota(subs, patients, clinicId).outcome.Failure? ==>
              r.result == Failure(PatientQuota(subs, patients, clinicId).outcome.error)
    ensures PatientQuota(subs, patients, clinicId).outcome.Success? && FindByDocument(patients, clinicId, data.documentNumber).Some? ==>
              r.result == Failure(DuplicateMessage(data.documentNumber))
    ensures r.result.Success? <==>
              PatientQuota(subs, patients, clinicId).outcome.Success? && FindByDocument(patients, clinicId, data.documentNumber).None?
    ensures r.result.Failure? ==> r.patients == patients
    ensures r.result.Success? ==>
      var p := r.result.value;
      && r.patients == patients + [p]
      && p.id == newId && p.clinicId == clinicId && p.updatedAt == now
      && p.documentNumber == data.documentNumber && p.firstName == data.firstName && p.lastName == data.lastName
      && p.dateOfBirth == data.dateOfBirth && p.email == data.email && p.phone == data.phone
      && p.gender == data.gender && p.address == data.address && p.customData == data.customData
  {
    var check := PatientQuota(subs, patients, clinicId);
    if check.outcome.Failure? then Creation(check.subscriptions, patients, Failure(check.outcome.error))
    else if FindByDocument(patients, clinicId, data.documentNumber).Some? then
      Creation(check.subscriptions, patients, Failure(DuplicateMessage(data.documentNumber)))
    else
      var p := Patient(newId, clinicId, data.firstName, data.lastName, data.dateOfBirth, data.documentNumber,
                       data.email, data.phone, data.gender, data.address, data.customData, now);
      Creation(check.subscriptions, patients + [p], Success(p))
  }

  /** The duplicate check is per clinic: the same document number registered in another clinic does not block. */
  lemma DuplicateCheckIsPerClinic(subs: SubscriptionService.Subscriptions, patients: seq<Patient>, clinicId: string,
                                  data: CreatePatientDto, newId: string, now: int)
    requires PatientQuota(subs, patients, clinicId).outcome.Success?
    requires forall i :: 0 <= i < |patients| ==> patients[i].clinicId != clinicId
    ensures CreatePatient(subs, patients, clinicId, data, newId, now).result.Success?
  {
  }

  /** A request to create a patient: the caller's clinic, the body, the new row's id and the clock. */
  datatype CreateRequest = CreateRequest(clinicId: string, data: CreatePatientDto, newId: string, now: int)

  /** The tables after serving a run of creation requests one at a time. */
  function CreateAll(subs: SubscriptionService.Subscriptions, patients: seq<Patient>, reqs: seq<CreateRequest>): (SubscriptionService.Subscriptions, seq<Patient>)
    decreases |reqs|
  {
    if |reqs| == 0 then (subs, patients)
    else
      var c := CreatePatient(subs, patients, reqs[0].clinicId, reqs[0].data, reqs[0].newId, reqs[0].now);
      CreateAll(c.subscriptions, c.patients, reqs[1..])
  }

  /** The clinic's patient ceiling, absent for an inherited plan name. */
  function PatientCeiling(subs: SubscriptionService.Subscriptions, clinicId: string): Option<int> {
    SubscriptionService.LimitOf(SubscriptionService.EffectivePlan(subs, clinicId), SubscriptionService.Patients)
  }

  /** One creation request raises a clinic's count by at most one and never past its plan's ceiling; it leaves the
      ceiling itself unchanged. */
  lemma CreateKeepsQuota(subs: SubscriptionService.Subscriptions, patients: seq<Patient>, req: CreateRequest, clinicId: string)
    requires SubscriptionService.WithinCeiling(PatientCount(patients, clinicId), PatientCeiling(subs, clinicId))
    ensures var c := CreatePatient(subs, patients, req.clinicId, req.data, req.newId, req.now);
            && SubscriptionService.EffectivePlan(c.subscriptions, clinicId) == SubscriptionService.EffectivePlan(subs, clinicId)
            && SubscriptionService.WithinCeiling(PatientCount(c.patients, clinicId), PatientCeiling(subs, clinicId))
  {
    var c := CreatePatient(subs, patients, req.clinicId, req.data, req.newId, req.now);
    if c.result.Success? {
      FilterAppend(patients, [c.result.value], p => InClinic(p, clinicId));
      if req.clinicId == clinicId {
        SubscriptionService.PassingCheckLeavesRoom(subs, clinicId, SubscriptionService.Patients, 0,
                                                  SubscriptionService.Usage(0, PatientCount(patients, clinicId)));
      }
    }
  }

  /** When the plan's ceiling held at the start, no run of creation requests, from any mix of clinics, takes a
      clinic's patient count past its plan's ceiling. */
  lemma {:induction false} PatientsStayWithinPlan(subs: SubscriptionService.Subscriptions, patients: seq<Patient>,
                                                  reqs: seq<CreateRequest>, clinicId: string)
    requires SubscriptionService.WithinCeiling(PatientCount(patients, clinicId), PatientCeiling(subs, clinicId))
    ensures var (subs', patients') := CreateAll(subs, patients, reqs);
            SubscriptionService.WithinCeiling(PatientCount(patients', clinicId), PatientCeiling(subs, clinicId))
    decreases |reqs|
  {
    if |reqs| > 0 {
      var c := CreatePatient(subs, patients, reqs[0].clinicId, reqs[0].data, reqs[0].newId, reqs[0].now);
      CreateKeepsQuota(subs, patients, reqs[0], clinicId);
      PatientsStayWithinPlan(c.subscriptions, c.patients, reqs[1..], clinicId);
    }
  }

  /** Position of the row with this id (`findById`). */
  function IndexOfId(patients: seq<Patient>, id: string): (r: Option<nat>)
    ensures r.Some? ==> r.value < |patients| && patients[r.value].id == id
    ensures r.None? ==> forall k :: 0 <= k < |patients| ==> patients[k].id != id
  {
    FirstIndex(patients, (p: Patient) => p.id == id)
  }

  /** Missing, or owned by another clinic. */
  predicate HiddenFrom(patients: seq<Patient>, id: string, clinicId: string) {
    IndexOfId(patients, id).None? || patients[IndexOfId(patients, id).value].clinicId != clinicId
  }

  /** `getPatient(id, clinicId)`: the row only when it belongs to the caller's clinic. */
  function GetPatient(patients: seq<Patient>, id: string, clinicId: string): (r: Option<Patient>)
    ensures r.None? <==> HiddenFrom(patients, id, clinicId)
    ensures r.Some? ==> r.value in patients && r.value.id == id && r.value.clinicId == clinicId
  {
    match IndexOfId(patients, id)
    case None => None
    case Some(k) => if patients[k].clinicId != clinicId then None else Some(patients[k])
  }

  /** A patient created under a fresh id is then read back by its own clinic, and by no other. */
  lemma CreatedPatientIsTenantScoped(subs: SubscriptionService.Subscriptions, patients: seq<Patient>, clinicId: string,
                                     data: CreatePatientDto, newId: string, now: int, other: string)
    requires CreatePatient(subs, patients, clinicId, data, newId, now).result.Success?
    requires forall k :: 0 <= k < |patients| ==> patients[k].id != newId
    requires other != clinicId
    ensures var c := CreatePatient(subs, patients, clinicId, data, newId, now);
            GetPatient(c.patients, newId, clinicId) == Some(c.result.value)
    ensures var c := CreatePatient(subs, patients, clinicId, data, newId, now);
            GetPatient(c.patients, newId, other).None?
  {
    var c := CreatePatient(subs, patients, clinicId, data, newId, now);
    assert c.patients[|patients|] == c.result.value;
    assert IndexOfId(c.patients, newId) == Some(|patients|);
  }

  /** `updatePatient(id, clinicId, data)`: the body is applied as given (`apply`) to the caller's own row; any other
      row is refused with nothing written. */
  function UpdatePatient(patients: seq<Patient>, id: string, clinicId: string, apply: Patient -> Patient): (r: Result<seq<Patient>, string>)
    ensures r.Failure? <==> HiddenFrom(patients, id, clinicId)
    ensures r.Failure? ==> r.error == PatientNotFound
    ensures r.Success? ==>
      var k := IndexOfId(patients, id).value;
      && |r.value| == |patients|
      && r.value[k] == apply(patients[k])
      && (forall m :: 0 <= m < |patients| && m != k ==> r.value[m] == patients[m])
  {
    match IndexOfId(patients, id)
    case None => Failure(PatientNotFound)
    case Some(k) => if patients[k].clinicId != clinicId then Failure(PatientNotFound) else Success(patients[k := apply(patients[k])])
  }

  /** A successful update reaches only a row the caller's clinic owned. */
  lemma UpdateStaysInTenant(patients: seq<Patient>, id: string, clinicId: string, apply: Patient -> Patient, m: nat)
    requires UpdatePatient(patients, id, clinicId, apply).Success?
    requires m < |patients| && patients[m].clinicId != clinicId
    ensures UpdatePatient(patients, id, clinicId, apply).value[m] == patients[m]
  {
  }

  /** The listing's search clause: a case-insensitive match on either name or the email, or a case-sensitive match
      on the document number. */
  predicate MatchesSearch(p: Patient, search: string) {
    var needle := ToLower(search);
    || Contains(ToLower(p.firstName), needle)
    || Contains(ToLower(p.lastName), needle)
    || Contains(p.documentNumber, search)
    || (p.email.Some? && Contains(ToLower(p.email.value), needle))
  }

  /** The `where` of `findAll`: the clinic, and the search clause when a non-empty search is given. */
  predicate Listed(p: Patient, clinicId: string, search: Option<string>) {
    p.clinicId == clinicId && (search.None? || search.value == "" || MatchesSearch(p, search.value))
  }

  function ListedFilter(clinicId: string, search: Option<string>): Patient -> bool {
    p => Listed(p, clinicId, search)
  }

  /** `orderBy: { updatedAt: 'desc' }` as an ascending key. */
  function Recency(p: Patient): int {
    -p.updatedAt
  }

  /** All matching rows, most recently updated first. */
  function Listing(patients: seq<Patient>, clinicId: string, search: Option<string>): (r: seq<Patient>)
    ensures SortedBy(r, Recency)
    ensures multiset(r) == multiset(Filter(patients, ListedFilter(clinicId, search)))
    ensures forall i :: 0 <= i < |r| ==> r[i] in patients && Listed(r[i], clinicId, search)
  {
    SortedFilter(patients, ListedFilter(clinicId, search), Recency)
  }

  /** `skip` rows dropped, then at most `take` kept. */
  function Window<T>(s: seq<T>, skip: nat, take: nat): (r: seq<T>)
    ensures |r| <= take
    ensures |r| == if skip >= |s| then 0 else if skip + take <= |s| then take else |s| - skip
    ensures skip + take <= |s| ==> r == s[skip..skip + take]
    ensures skip >= |s| ==> r == []
    ensures forall i :: 0 <= i < |r| ==> skip + i < |s| && r[i] == s[skip + i]
  {
    if skip >= |s| then [] else if skip + take <= |s| then s[skip..skip + take] else s[skip..]
  }

  /** A negative `take` of `-take`: the ORM pages backwards, reading the ordering reversed, skipping and taking
      there, and handing the rows back in forward order. */
  function BackWindow<T>(s: seq<T>, skip: nat, take: nat): (r: seq<T>) {
    Reverse(Window(Reverse(s), skip, take))
  }

  /** Paging backwards keeps the rows that end `skip` rows before the end of the listing, at most `take` of them,
      in their forward order. */
  lemma BackWindowIsTail<T>(s: seq<T>, skip: nat, take: nat)
    ensures var hi := if skip <= |s| then |s| - skip else 0;
            var lo := if skip + take <= |s| then |s| - skip - take else 0;
            BackWindow(s, skip, take) == s[lo..hi]
  {
    var hi := if skip <= |s| then |s| - skip else 0;
    var lo := if skip + take <= |s| then |s| - skip - take else 0;
    var r := BackWindow(s, skip, take);
    assert |Reverse(s)| == |s|;
    assert |r| == hi - lo;
    forall i | 0 <= i < |r|
      ensures r[i] == s[lo + i]
    {
      BackWindowAt(s, skip, take, i);
    }
    assert r == s[lo..hi];
  }

  /** One row of the backward page: position `i` holds the listing's row `lo + i`. */
  lemma BackWindowAt<T>(s: seq<T>, skip: nat, take: nat, i: nat)
    requires i < |BackWindow(s, skip, take)|
    ensures var lo := if skip + take <= |s| then |s| - skip - take else 0;
            BackWindow(s, skip, take)[i] == s[lo + i]
  {
    var n := |s|;
    var lo := if skip + take <= n then n - skip - take else 0;
    var rs := Reverse(s);
    var w := Window(rs, skip, take);
    assert |rs| == n;
    var k := |w| - 1 - i;
    assert BackWindow(s, skip, take)[i] == w[k];
    assert skip + k < n && w[k] == rs[skip + k];
    assert rs[skip + k] == s[n - 1 - (skip + k)];
    assert n - 1 - (skip + k) == lo + i;
  }

  datatype PatientPage = PatientPage(patients: seq<Patient>, total: nat)

  /** `getPatients(clinicId, { page, limit, search })`: skip = (page - 1) * limit and take = limit. The ORM rejects
      a negative skip (the model answers with a message of its own), and reads a negative take as paging backwards. */
  function GetPatients(patients: seq<Patient>, clinicId: string, page: int, limit: int, search: Option<string>): (r: Result<PatientPage, string>)
    ensures r.Failure? <==> (page - 1) * limit < 0
    ensures r.Success? ==>
      var all := Listing(patients, clinicId, search);
      var skip := (page - 1) * limit;
      && r.value.total == |all|
      && (limit >= 0 ==> r.value.patients == Window(all, skip, limit))
      && (limit < 0 ==> r.value.patients == BackWindow(all, skip, -limit))
      && (forall i :: 0 <= i < |r.value.patients| ==> r.value.patients[i] in all && r.value.patients[i].clinicId == clinicId)
  {
    var skip := (page - 1) * limit;
    if skip < 0 then Failure("skip must not be negative")
    else
      var all := Listing(patients, clinicId, search);
      var w := if limit >= 0 then Window(all, skip, limit) else BackWindow(all, skip, -limit);
      BackWindowIsTail(all, skip, if limit >= 0 then 0 else -limit);
      Success(PatientPage(w, |all|))
  }

  /** On the first page a negative limit returns the last rows of the listing: `limit=-5` shows the five least
      recently updated patients. */
  lemma NegativeLimitShowsLastRows(patients: seq<Patient>, clinicId: string, search: Option<string>)
    requires |Listing(patients, clinicId, search)| >= 5
    ensures var all := Listing(patients, clinicId, search);
            var r := GetPatients(patients, clinicId, 1, -5, search);
            r.Success? && r.value.patients == all[|all| - 5..] && r.value.total == |all|
  {
    var all := Listing(patients, clinicId, search);
    var r := GetPatients(patients, clinicId, 1, -5, search);
    assert (1 - 1) * -5 == 0;
    assert r.Success?;
    assert r.value.patients == BackWindow(all, 0, 5);
    LastRowsAreBackWindow(all, 5);
  }

  /** Paging backwards by `take` from the very end gives the listing's last `take` rows. */
  lemma LastRowsAreBackWindow<T>(all: seq<T>, take: nat)
    requires take <= |all|
    ensures BackWindow(all, 0, take) == all[|all| - take..]
  {
    BackWindowIsTail(all, 0, take);
    var lo, hi := |all| - take, |all|;
    assert BackWindow(all, 0, take) == all[lo..hi];
    assert all[lo..hi] == all[lo..];
  }

  /** Pages one to `n` of size `limit`, laid end to end, are the first `n * limit` rows of the listing: no row is
      skipped or shown twice. */
  lemma {:induction false} PagesTile(all: seq<Patient>, limit: nat, n: nat)
    ensures Pages(all, limit, n) == all[..if n * limit <= |all| then n * limit else |all|]
    decreases n
  {
    if n > 0 {
      PagesTile(all, limit, n - 1);
      var a := (n - 1) * limit;
      assert n * limit == a + limit;
      NextPageExtendsPrefix(all, a, limit);
    }
  }

  /** The page after the first `a` rows extends that prefix by the next `limit` rows, or up to the end. */
  lemma NextPageExtendsPrefix(all: seq<Patient>, a: nat, limit: nat)
    ensures all[..if a <= |all| then a else |all|] + Window(all, a, limit) ==
            all[..if a + limit <= |all| then a + limit else |all|]
  {
    var b := a + limit;
    if a >= |all| {
      assert Window(all, a, limit) == [];
      assert all[..|all|] + [] == all[..|all|];
    } else if b <= |all| {
      assert Window(all, a, limit) == all[a..b];
      assert all[..a] + all[a..b] == all[..b];
    } else {
      assert Window(all, a, limit) == all[a..];
      assert all[..a] + all[a..] == all[..|all|];
    }
  }

  /** The concatenation of pages one to `n`. */
  function Pages(all: seq<Patient>, limit: nat, n: nat): seq<Patient>
    decreases n
  {
    if n == 0 then [] else Pages(all, limit, n - 1) + Window(all, (n - 1) * limit, limit)
  }
}

=== FILE: permission_service.dfy ===
/** Role permissions: the catalogue of permission strings and the check of a role's grants against a
    set of required permissions. */
module PermissionService {

  /** `PERMISSIONS`: constant name and permission string, in declaration order. */
  const Catalogue: seq<(string, string)> := [
    ("PATIENT_READ", "patient:read"),
    ("PATIENT_CREATE", "patient:create"),
    ("PATIENT_UPDATE", "patient:update"),
    ("PATIENT_DELETE", "patient:delete"),
    ("APPOINTMENT_READ", "appointment:read"),
    ("APPOINTMENT_CREATE", "appointment:create"),
    ("APPOINTMENT_UPDATE", "appointment:update"),
    ("APPOINTMENT_DELETE", "appointment:delete"),
    ("EMR_READ", "emr:read"),
    ("EMR_CREATE", "emr:create"),
    ("EMR_SIGN", "emr:sign"),
    ("SETTINGS_MANAGE", "settings:manage"),
    ("ROLES_MANAGE", "roles:manage"),
    ("USERS_MANAGE", "users:manage")
  ]

  /** The super-user grant. */
  const Wildcard := "*"

  /** `getAllPermissions()`: the catalogue's values, in order. */
  function AllPermissions(): (r: seq<string>)
    ensures |r| == |Catalogue|
    ensures forall i :: 0 <= i < |r| ==> r[i] == Catalogue[i].1
  {
    seq(|Catalogue|, i requires 0 <= i < |Catalogue| => Catalogue[i].1)
  }

  /** The catalogue has fourteen permissions, all different, and none is the wildcard. */
  lemma CatalogueDistinct()
    ensures |AllPermissions()| == 14
    ensures forall i, j :: 0 <= i < j < |AllPermissions()| ==> AllPermissions()[i] != AllPermissions()[j]
    ensures Wildcard !in AllPermissions()
  {
    var r := AllPermissions();
    assert r == ["patient:read", "patient:create", "patient:update", "patient:delete",
                 "appointment:read", "appointment:create", "appointment:update", "appointment:delete",
                 "emr:read", "emr:create", "emr:sign", "settings:manage", "roles:manage", "users:manage"];
  }

  /** The distinct strings of a list. */
  function Elements(s: seq<string>): set<string> {
    set p | p in s
  }

  /** `validatePermissions(userPermissions, requiredPermissions)` */
  predicate ValidatePermissions(granted: seq<string>, required: seq<string>) {
    Wildcard in granted || forall i :: 0 <= i < |required| ==> required[i] in granted
  }

  /** A grant list holding the wildcard passes every check; without it, a check passes exactly when every required
      permission is granted, so an empty requirement always passes. */
  lemma ValidateMeaning(granted: seq<string>, required: seq<string>)
    ensures Wildcard in granted ==> ValidatePermissions(granted, required)
    ensures Wildcard !in granted ==> (ValidatePermissions(granted, required) <==> Elements(required) <= Elements(granted))
    ensures ValidatePermissions(granted, [])
  {
    if Elements(required) <= Elements(granted) {
      forall i | 0 <= i < |required|
        ensures required[i] in granted
      {
        assert required[i] in Elements(required);
        assert required[i] in Elements(granted);
      }
    }
  }

  /** Granting more never revokes access. */
  lemma MonotoneInGrants(granted: seq<string>, more: seq<string>, required: seq<string>)
    requires forall i :: 0 <= i < |granted| ==> granted[i] in more
    requires ValidatePermissions(granted, required)
    ensures ValidatePermissions(more, required)
  {
  }

  /** Requiring less never revokes access. */
  lemma AntitoneInRequirements(granted: seq<string>, required: seq<string>, fewer: seq<string>)
    requires forall i :: 0 <= i < |fewer| ==> fewer[i] in required
    requires ValidatePermissions(granted, required)
    ensures ValidatePermissions(granted, fewer)
  {
  }
}

=== FILE: plans.dfy ===
/** The static table of subscription plans (`PLANS`): resource ceilings and feature codes per tier. */
module Plans {

  datatype PlanConfig = PlanConfig(maxUsers: int, maxPatients: int, maxStorage: int, features: seq<string>)

  const Free := PlanConfig(1, 50, 500 * 1024 * 1024, ["PATIENTS", "APPOINTMENTS", "BASIC_EMR"])
  const Pro := PlanConfig(5, 2000, 10 * 1024 * 1024 * 1024, ["PATIENTS", "APPOINTMENTS", "ADVANCED_EMR", "PDF_RX", "FINANCE"])
  const Enterprise := PlanConfig(9999, 999999, 1024 * 1024 * 1024 * 1024, ["ALL", "API_ACCESS", "SSO"])

  /** What `PLANS[name] || PLANS.FREE` yields. `PLANS` is a plain object, so a name it inherits from
      `Object.prototype` ("constructor", "toString", ...) yields that truthy member, which has no ceilings and no
      feature list; every other name yields a tier. */
  datatype PlanLookup = Tier(config: PlanConfig) | Inherited

  /** The property names every plain object inherits from `Object.prototype`. */
  const InheritedNames: seq<string> := [
    "constructor", "__proto__", "toString", "toLocaleString", "valueOf", "hasOwnProperty",
    "isPrototypeOf", "propertyIsEnumerable", "__defineGetter__", "__defineSetter__",
    "__lookupGetter__", "__lookupSetter__"]

  /** `PLANS[name] || PLANS.FREE`: the three tier names (case-sensitive), an inherited member, or else FREE. */
  function PlanFor(name: string): (c: PlanLookup)
    ensures c.Inherited? <==> name in InheritedNames
    ensures c == Tier(Free) || c == Tier(Pro) || c == Tier(Enterprise) || c == Inherited
    ensures c == Tier(Pro) <==> name == "PRO"
    ensures c == Tier(Enterprise) <==> name == "ENTERPRISE"
    ensures c.Tier? && name != "PRO" && name != "ENTERPRISE" ==> c == Tier(Free)
  {
    if name == "PRO" then Tier(Pro)
    else if name == "ENTERPRISE" then Tier(Enterprise)
    else if name in InheritedNames then Inherited
    else Tier(Free)
  }

  /** Lookups are exact: a lower-case tier name falls back to FREE, and "constructor" is no tier at all. */
  lemma LookupExamples()
    ensures PlanFor("FREE") == Tier(Free) && PlanFor("pro") == Tier(Free) && PlanFor("") == Tier(Free)
    ensures PlanFor("constructor") == Inherited && PlanFor("__proto__") == Inherited
  {
    assert InheritedNames[0] == "constructor" && InheritedNames[1] == "__proto__";
  }

  /** The tier ceilings in bytes and counts. */
  lemma TierValues()
    ensures Free.maxUsers == 1 && Free.maxPatients == 50 && Free.maxStorage == 524288000
    ensures Pro.maxUsers == 5 && Pro.maxPatients == 2000 && Pro.maxStorage == 10737418240
    ensures Enterprise.maxUsers == 9999 && Enterprise.maxPatients == 999999 && Enterprise.maxStorage == 1099511627776
  {
  }

  /** Every ceiling grows strictly from FREE to PRO to ENTERPRISE. */
  lemma TiersStrictlyIncrease()
    ensures Free.maxUsers < Pro.maxUsers < Enterprise.maxUsers
    ensures Free.maxPatients < Pro.maxPatients < Enterprise.maxPatients
    ensures Free.maxStorage < Pro.maxStorage < Enterprise.maxStorage
  {
  }

  /** The feature lists are not nested: FREE's BASIC_EMR is missing from PRO, and only ENTERPRISE lists the wildcard. */
  lemma FeatureSetsNotNested()
    ensures "BASIC_EMR" in Free.features && "BASIC_EMR" !in Pro.features
    ensures "ALL" in Enterprise.features && "ALL" !in Free.features && "ALL" !in Pro.features
  {
  }
}

=== FILE: properties_panel.dfy ===
/** The form builder's properties panel: for choice fields it shows the options as one comma-separated text and
    turns the edited text back into a list by splitting at commas and trimming each piece. */
module PropertiesPanel {
  import opened Results
  import opened Text

  /** A field under edit in the form builder. */
  datatype BuilderField = BuilderField(id: string, fieldType: string, required: bool, options: Option<seq<string>>)

  /** `options?.join(', ') || ''` */
  function Display(options: Option<seq<string>>): (r: string)
    ensures options.None? || options.value == [] ==> r == ""
    ensures options.Some? && |options.value| == 1 ==> r == options.value[0]
  {
    match options
    case None => ""
    case Some(xs) => Join(xs, ", ")
  }

  /** `text.split(',').map(s => s.trim())` */
  function Parse(text: string): (r: seq<string>)
    ensures |r| == CountChar(text, ',') + 1
    ensures forall i :: 0 <= i < |r| ==> ',' !in r[i] && NoEdgeSpace(r[i])
  {
    SplitCount(text, ',');
    var pieces := Split(text, ',');
    seq(|pieces|, i requires 0 <= i < |pieces| => TrimOf(pieces, i))
  }

  function TrimOf(pieces: seq<string>, i: nat): (r: string)
    requires i < |pieces| && ',' !in pieces[i]
    ensures ',' !in r && NoEdgeSpace(r)
  {
    var t := Trim(pieces[i]);
    assert t == pieces[i][|pieces[i]| - |TrimStart(pieces[i])|..][..|t|];
    t
  }

  /** The options text area is shown for choice fields only; it holds the displayed options. */
  function OptionsEditor(f: BuilderField): (r: Option<string>)
    ensures r.Some? <==> f.fieldType == "select" || f.fieldType == "checkbox"
    ensures r.Some? ==> r.value == Display(f.options)
  {
    if f.fieldType == "select" || f.fieldType == "checkbox" then Some(Display(f.options)) else None
  }

  /** Typing into the options text area replaces the field's options with the parsed list. */
  function EditOptions(f: BuilderField, text: string): (r: BuilderField)
    ensures r.options.Some? && r.options.value == Parse(text)
    ensures r.(options := f.options) == f
  {
    f.(options := Some(Parse(text)))
  }

  /** The list with a space put in front of every item but the first. */
  function Padded(xs: seq<string>): (r: seq<string>)
    ensures |r| == |xs|
    ensures |xs| > 0 ==> r[0] == xs[0]
    ensures forall i :: 0 < i < |xs| ==> r[i] == " " + xs[i]
  {
    if |xs| == 0 then [] else [xs[0]] + seq(|xs| - 1, i requires 0 <= i < |xs| - 1 => " " + xs[i + 1])
  }

  /** Joining with ", " is joining the padded items with ",". */
  lemma {:induction false} JoinCommaSpace(xs: seq<string>)
    ensures Join(xs, ", ") == Join(Padded(xs), ",")
    decreases |xs|
  {
    if |xs| >= 2 {
      var tail := xs[1..];
      JoinCommaSpace(tail);
      var p, q := Padded(xs), Padded(tail);
      assert p[1..] == [" " + tail[0]] + Padded(tail)[1..];
      JoinPadFirst(tail);
      calc {
        Join(xs, ", ");
        xs[0] + ", " + Join(tail, ", ");
        xs[0] + ", " + Join(q, ",");
        { assert ", " + Join(q, ",") == "," + (" " + Join(q, ",")); }
        xs[0] + "," + (" " + Join(q, ","));
        { assert " " + Join(q, ",") == Join(p[1..], ","); }
        p[0] + "," + Join(p[1..], ",");
        Join(p, ",");
      }
    }
  }

  /** Padding the first item of a list puts one space in front of its padded join. */
  lemma JoinPadFirst(xs: seq<string>)
    requires |xs| >= 1
    ensures " " + Join(Padded(xs), ",") == Join([" " + xs[0]] + Padded(xs)[1..], ",")
  {
    var p := Padded(xs);
    var p2 := [" " + xs[0]] + p[1..];
    if |xs| >= 2 {
      assert p2[1..] == p[1..];
      assert " " + (p[0] + "," + Join(p[1..], ",")) == p2[0] + "," + Join(p2[1..], ",");
    }
  }

  /** Options without commas and without edge whitespace survive being shown and edited back unchanged. */
  lemma DisplayParseRoundTrip(xs: seq<string>)
    requires |xs| >= 1
    requires forall i :: 0 <= i < |xs| ==> ',' !in xs[i] && NoEdgeSpace(xs[i])
    ensures Parse(Display(Some(xs))) == xs
  {
    var p := Padded(xs);
    JoinCommaSpace(xs);
    forall i | 0 <= i < |p|
      ensures ',' !in p[i]
    {
      if i > 0 {
        assert p[i] == " " + xs[i];
      }
    }
    SplitJoin(p, ',');
    var r := Parse(Display(Some(xs)));
    assert Split(Display(Some(xs)), ',') == p;
    forall i | 0 <= i < |xs|
      ensures r[i] == xs[i]
    {
      assert r[i] == Trim(p[i]);
      if i > 0 {
        TrimDropsLeadingSpace(xs[i]);
      }
      TrimKeepsClean(xs[i]);
    }
  }

  /** Editing settles after one pass: showing a parsed list and parsing it again gives the same list. */
  lemma ParseIsStable(text: string)
    ensures Parse(Display(Some(Parse(text)))) == Parse(text)
  {
    DisplayParseRoundTrip(Parse(text));
  }

  /** Clearing the text area leaves one empty option rather than none. */
  lemma EmptyTextGivesOneEmptyOption()
    ensures Display(Some([])) == ""
    ensures Parse("") == [""]
  {
  }
}

=== FILE: results.dfy ===
/** Failure-carrying datatypes used by every service model.
    A thrown JavaScript `Error` becomes `Failure(message)`; a nullable lookup becomes an `Option`. */
module Results {

  /** A value that may be absent (`null` / `undefined` in the source). */
  datatype Option<+T> = None | Some(value: T) {

    /** The value, or `default` when absent (the source's `x ?? d` / `x || d` on non-falsy values). */
    function GetOr(default: T): T {
      match this
      case Some(v) => v
      case None => default
    }
  }

  /** The outcome of an operation that either returns a value or throws an error. */
  datatype Result<+T, +E> = Success(value: T) | Failure(error: E) {

    predicate IsFailure() {
      Failure?
    }

    function PropagateFailure<U>(): Result<U, E>
      requires Failure?
    {
      Failure(error)
    }

    function Extract(): T
      requires Success?
    {
      value
    }
  }
}

=== FILE: sequences.dfy ===
/** Order-preserving filters and an ordering by an integer key: the in-memory meaning of the
    ORM's `findMany({ where, orderBy })` queries. */
module Sequences {
  import opened Results

  /** Non-decreasing by `key` (`orderBy: 'asc'`). */
  predicate SortedBy<T>(s: seq<T>, key: T -> int) {
    forall i, j :: 0 <= i < j < |s| ==> key(s[i]) <= key(s[j])
  }

  /** The elements of `s` that satisfy `keep`, in their original order. */
  function Filter<T>(s: seq<T>, keep: T -> bool): (r: seq<T>)
    ensures |r| <= |s|
    ensures forall i :: 0 <= i < |r| ==> r[i] in s && keep(r[i])
    ensures forall i :: 0 <= i < |s| && keep(s[i]) ==> s[i] in r
    decreases |s|
  {
    if |s| == 0 then []
    else (if keep(s[0]) then [s[0]] else []) + Filter(s[1..], keep)
  }

  /** Position of the first element satisfying `p` (`findUnique` / `findFirst` over a table). */
  function FirstIndex<T>(s: seq<T>, p: T -> bool): (r: Option<nat>)
    ensures r.Some? ==> r.value < |s| && p(s[r.value])
    ensures r.Some? ==> forall k :: 0 <= k < r.value ==> !p(s[k])
    ensures r.None? ==> forall k :: 0 <= k < |s| ==> !p(s[k])
    decreases |s|
  {
    if |s| == 0 then None
    else if p(s[0]) then Some(0)
    else
      match FirstIndex(s[1..], p)
      case None => None
      case Some(k) => Some(k + 1)
  }

  /** The elements in the opposite order (`orderBy` with the direction flipped). */
  function Reverse<T>(s: seq<T>): (r: seq<T>)
    ensures |r| == |s|
    ensures forall i :: 0 <= i < |s| ==> r[i] == s[|s| - 1 - i]
    decreases |s|
  {
    if |s| == 0 then [] else Reverse(s[1..]) + [s[0]]
  }

  /** Filtering distributes over concatenation. */
  lemma {:induction false} FilterAppend<T>(a: seq<T>, b: seq<T>, keep: T -> bool)
    ensures Filter(a + b, keep) == Filter(a, keep) + Filter(b, keep)
    decreases |a|
  {
    if |a| > 0 {
      FilterAppend(a[1..], b, keep);
      var head := if keep(a[0]) then [a[0]] else [];
      assert (a + b)[0] == a[0];
      assert (a + b)[1..] == a[1..] + b;
      assert Filter(a + b, keep) == head + Filter(a[1..] + b, keep);
      AppendAssoc(head, Filter(a[1..], keep), Filter(b, keep));
    } else {
      assert a + b == b;
    }
  }

  /** Concatenation is associative. */
  lemma AppendAssoc<T>(p: seq<T>, q: seq<T>, r: seq<T>)
    ensures p + q + r == p + (q + r)
  {
  }

  /** Filtering by a stronger condition keeps a sub-multiset. */
  lemma {:induction false} FilterStronger<T>(s: seq<T>, strong: T -> bool, weak: T -> bool)
    requires forall i :: 0 <= i < |s| && strong(s[i]) ==> weak(s[i])
    ensures multiset(Filter(s, strong)) <= multiset(Filter(s, weak))
    decreases |s|
  {
    if |s| > 0 {
      FilterStronger(s[1..], strong, weak);
    }
  }

  /** Places `x` into a sorted sequence before the first element with a larger or equal key. */
  function InsertBy<T>(x: T, s: seq<T>, key: T -> int): (r: seq<T>)
    requires SortedBy(s, key)
    ensures SortedBy(r, key)
    ensures multiset(r) == multiset(s) + multiset{x}
    decreases |s|
  {
    if |s| == 0 then [x]
    else if key(x) <= key(s[0]) then [x] + s
    else
      var tail := InsertBy(x, s[1..], key);
      assert s == [s[0]] + s[1..];
      HeadBelowInserted(x, s, key, tail);
      ConsSorted(s[0], tail, key);
      [s[0]] + tail
  }

  /** The head of a sorted sequence is at most every element of the tail with a larger `x` inserted. */
  lemma HeadBelowInserted<T>(x: T, s: seq<T>, key: T -> int, tail: seq<T>)
    requires SortedBy(s, key) && |s| > 0 && key(s[0]) < key(x)
    requires multiset(tail) == multiset(s[1..]) + multiset{x}
    ensures forall i :: 0 <= i < |tail| ==> key(s[0]) <= key(tail[i])
  {
    forall i | 0 <= i < |tail|
      ensures key(s[0]) <= key(tail[i])
    {
      assert tail[i] in multiset(tail);
      if tail[i] != x {
        assert tail[i] in multiset(s[1..]);
        var j :| 0 <= j < |s[1..]| && s[1..][j] == tail[i];
        assert s[j + 1] == tail[i];
      }
    }
  }

  /** A sorted tail behind a head no larger than any of its elements is sorted. */
  lemma ConsSorted<T>(h: T, t: seq<T>, key: T -> int)
    requires SortedBy(t, key)
    requires forall i :: 0 <= i < |t| ==> key(h) <= key(t[i])
    ensures SortedBy([h] + t, key)
  {
    var r := [h] + t;
    forall i, j | 0 <= i < j < |r|
      ensures key(r[i]) <= key(r[j])
    {
      assert r[j] == t[j - 1];
      if i > 0 {
        assert r[i] == t[i - 1];
      }
    }
  }

  /** A permutation of `s` ordered by `key` (insertion sort; equal keys keep their relative order). */
  function SortBy<T>(s: seq<T>, key: T -> int): (r: seq<T>)
    ensures SortedBy(r, key)
    ensures multiset(r) == multiset(s)
    decreases |s|
  {
    if |s| == 0 then []
    else
      assert s == [s[0]] + s[1..];
      InsertBy(s[0], SortBy(s[1..], key), key)
  }

  /** `findMany({ where: keep, orderBy: key })`: exactly the elements satisfying `keep`, each as often as in `s`,
      ordered by `key`. */
  function SortedFilter<T(==)>(s: seq<T>, keep: T -> bool, key: T -> int): (r: seq<T>)
    ensures SortedBy(r, key)
    ensures multiset(r) == multiset(Filter(s, keep))
    ensures forall i :: 0 <= i < |r| ==> r[i] in s && keep(r[i])
    ensures forall i :: 0 <= i < |s| && keep(s[i]) ==> s[i] in r
  {
    var f := Filter(s, keep);
    var r := SortBy(f, key);
    assert forall i :: 0 <= i < |r| ==> r[i] in multiset(f);
    assert forall i :: 0 <= i < |s| && keep(s[i]) ==> s[i] in multiset(r);
    r
  }
}

=== FILE: subscription_service.dfy ===
/** Plan enforcement: the quota gate run before creating users or patients or storing files, the feature
    flags, and the usage summary. The count queries become a `Usage` value supplied by the caller. */
module SubscriptionService {
  import opened Results
  import opened Text
  import Plans

  /** One subscription row; `storageUsed` may be null in the table. */
  datatype Subscription = Subscription(clinicId: string, plan: string, status: string, storageUsed: Option<int>)

  /** Subscriptions keyed by clinic (the table's unique `clinicId`). */
  type Subscriptions = map<string, Subscription>

  datatype Resource = Users | Patients | Storage

  /** The results of `user.count` and `patient.count` for the clinic. */
  datatype Usage = Usage(users: nat, patients: nat)

  /** What `checkLimit` leaves behind: the (possibly self-healed) table and the verdict. */
  datatype LimitCheck = LimitCheck(subscriptions: Subscriptions, outcome: Result<bool, string>)

  const Suspended := "Subscription " + "is suspended."  // in pieces, for proofs about its letters
  /** The TypeError thrown by `planConfig.features.includes(...)` when the plan has no feature list. */
  const FeaturesUndefined := "Cannot read " + "properties of " + "undefined (reading " + "'includes')"  // in pieces, for proofs about its letters

  function ResourceName(r: Resource): string {
    match r
    case Users => "users"
    case Patients => "patients"
    case Storage => "storage"
  }

  /** The row the self-healing step inserts for a clinic without one. */
  function FreeSubscription(clinicId: string): Subscription {
    Subscription(clinicId, "FREE", "ACTIVE", None)
  }

  /** The subscription table after the self-healing step of `checkLimit`. */
  function Healed(subs: Subscriptions, clinicId: string): (h: Subscriptions)
    ensures clinicId in h
    ensures clinicId in subs ==> h == subs
    ensures clinicId !in subs ==> h == subs[clinicId := FreeSubscription(clinicId)]
  {
    if clinicId in subs then subs else subs[clinicId := FreeSubscription(clinicId)]
  }

  /** Bytes already stored; JavaScript's `null + n` and `null || 0` both read a null as 0. */
  function StoredBytes(sub: Subscription): int {
    sub.storageUsed.GetOr(0)
  }

  /** The plan's ceiling for the resource; `None` is the `undefined` of an inherited member. */
  function LimitOf(plan: Plans.PlanLookup, resource: Resource): Option<int> {
    match plan
    case Inherited => None
    case Tier(c) =>
      match resource
      case Users => Some(c.maxUsers)
      case Patients => Some(c.maxPatients)
      case Storage => Some(c.maxStorage)
  }

  /** `!(used >= limit)`: a comparison with `undefined` is false, so a missing ceiling never refuses. */
  predicate Below(used: int, limit: Option<int>) {
    limit.None? || used < limit.value
  }

  /** A count that has not passed the ceiling, if there is one. */
  predicate WithinCeiling(n: int, limit: Option<int>) {
    limit.None? || n <= limit.value
  }

  /** The amount compared against the ceiling: the live count, or stored bytes plus the requested size. */
  function UsedAmount(sub: Subscription, resource: Resource, requested: int, usage: Usage): int {
    match resource
    case Users => usage.users
    case Patients => usage.patients
    case Storage => StoredBytes(sub) + requested
  }

  /** The rejection message, e.g. "Upgrade required: patients limit reached (50/50)." */
  function UpgradeMessage(resource: Resource, used: int, limit: int): (m: string)
    ensures StartsWith(m, "Upgrade required")
  {
    "Upgrade required: " + ResourceName(resource) + " limit reached (" + IntToString(used) + "/" + IntToString(limit) + ")."
  }

  /** `checkLimit(clinicId, resource, currentCountOrSize)` */
  function CheckLimit(subs: Subscriptions, clinicId: string, resource: Resource, requested: int, usage: Usage): (r: LimitCheck)
    ensures r.subscriptions == Healed(subs, clinicId)
    ensures r.outcome.Success? ==> r.outcome.value
    ensures var sub := r.subscriptions[clinicId];
            r.outcome.Success? <==>
              sub.status == "ACTIVE" && Below(UsedAmount(sub, resource, requested, usage), LimitOf(Plans.PlanFor(sub.plan), resource))
    ensures r.subscriptions[clinicId].status != "ACTIVE" ==> r.outcome == Failure(Suspended)
    ensures r.outcome.Failure? && r.subscriptions[clinicId].status == "ACTIVE" ==>
              StartsWith(r.outcome.error, "Upgrade required")
    ensures var sub := r.subscriptions[clinicId];
            r.outcome.Failure? && sub.status == "ACTIVE" ==>
              var limit := LimitOf(Plans.PlanFor(sub.plan), resource);
              limit.Some? && r.outcome.error == UpgradeMessage(resource, UsedAmount(sub, resource, requested, usage), limit.value)
  {
    var healed := Healed(subs, clinicId);
    var sub := healed[clinicId];
    if sub.status != "ACTIVE" then
      LimitCheck(healed, Failure(Suspended))
    else
      var limit := LimitOf(Plans.PlanFor(sub.plan), resource);
      var used := UsedAmount(sub, resource, requested, usage);
      if limit.Some? && used >= limit.value then
        LimitCheck(healed, Failure(UpgradeMessage(resource, used, limit.value)))
      else
        LimitCheck(healed, Success(true))
  }

  /** The plan a clinic is held to: its row's plan, or FREE when it has no row yet (which self-healing then creates). */
  function EffectivePlan(subs: Subscriptions, clinicId: string): Plans.PlanLookup {
    if clinicId in subs then Plans.PlanFor(subs[clinicId].plan) else Plans.Tier(Plans.Free)
  }

  /** A clinic without a subscription is gated exactly as an active FREE clinic with nothing stored. */
  lemma MissingSubscriptionActsAsFree(subs: Subscriptions, clinicId: string, resource: Resource, requested: int, usage: Usage)
    requires clinicId !in subs
    ensures CheckLimit(subs, clinicId, resource, requested, usage).outcome.Success? <==>
            (match resource
             case Users => usage.users < Plans.Free.maxUsers
             case Patients => usage.patients < Plans.Free.maxPatients
             case Storage => requested < Plans.Free.maxStorage)
  {
  }

  /** A passing check for a counted resource leaves room for exactly the one creation it guards. */
  lemma PassingCheckLeavesRoom(subs: Subscriptions, clinicId: string, resource: Resource, requested: int, usage: Usage)
    requires resource != Storage
    requires CheckLimit(subs, clinicId, resource, requested, usage).outcome.Success?
    ensures WithinCeiling((if resource == Users then usage.users else usage.patients) + 1, LimitOf(EffectivePlan(subs, clinicId), resource))
  {
  }

  /** Storage is accepted only when what is stored plus the requested size stays strictly below the ceiling. */
  lemma StorageCountsTheRequest(subs: Subscriptions, clinicId: string, requested: int, usage: Usage)
    requires CheckLimit(subs, clinicId, Storage, requested, usage).outcome.Success?
    ensures clinicId in subs ==> Below(StoredBytes(subs[clinicId]) + requested, LimitOf(EffectivePlan(subs, clinicId), Storage))
    ensures clinicId !in subs ==> requested < Plans.Free.maxStorage
  {
  }

  /** A plan name inherited from `Object.prototype` lifts every ceiling: an active subscription on it passes every
      check, whatever the usage. */
  lemma InheritedPlanHasNoCeiling(subs: Subscriptions, clinicId: string, resource: Resource, requested: int, usage: Usage)
    requires clinicId in subs && subs[clinicId].status == "ACTIVE"
    requires subs[clinicId].plan in Plans.InheritedNames
    ensures CheckLimit(subs, clinicId, resource, requested, usage).outcome.Success?
  {
  }

  /** For instance, a clinic whose plan reads "constructor" is let through at a million patients. */
  lemma ConstructorPlanAdmitsAnyCount(clinicId: string)
    ensures var subs := map[clinicId := Subscription(clinicId, "constructor", "ACTIVE", None)];
            CheckLimit(subs, clinicId, Patients, 0, Usage(0, 1000000)).outcome == Success(true)
  {
    Plans.LookupExamples();
  }

  /** Less usage never turns an accepted check into a rejected one. */
  lemma GateMonotoneInUsage(subs: Subscriptions, clinicId: string, resource: Resource, requested: int, usage: Usage,
                            requested': int, usage': Usage)
    requires usage'.users <= usage.users && usage'.patients <= usage.patients && requested' <= requested
    requires CheckLimit(subs, clinicId, resource, requested, usage).outcome.Success?
    ensures CheckLimit(subs, clinicId, resource, requested', usage').outcome.Success?
  {
  }

  /** Applies a run of gated creations: each creation happens only when the check with the current count passes. */
  function GatedCount(subs: Subscriptions, clinicId: string, resource: Resource, count: nat, attempts: nat): (n: nat)
    requires resource != Storage
    decreases attempts
  {
    if attempts == 0 then count
    else
      var usage := if resource == Users then Usage(count, 0) else Usage(0, count);
      var check := CheckLimit(subs, clinicId, resource, 0, usage);
      GatedCount(check.subscriptions, clinicId, resource,
                 if check.outcome.Success? then count + 1 else count, attempts - 1)
  }

  /** When every creation is preceded by a passing check, the count never passes the plan ceiling
      (or stays where it started when it already was above). */
  lemma {:induction false} GatedCountWithinPlan(subs: Subscriptions, clinicId: string, resource: Resource, count: nat, attempts: nat)
    requires resource != Storage
    ensures var limit := LimitOf(EffectivePlan(subs, clinicId), resource);
            limit.Some? ==> GatedCount(subs, clinicId, resource, count, attempts) <= if count <= limit.value then limit.value else count
    decreases attempts
  {
    if attempts > 0 {
      var usage := if resource == Users then Usage(count, 0) else Usage(0, count);
      var check := CheckLimit(subs, clinicId, resource, 0, usage);
      assert EffectivePlan(check.subscriptions, clinicId) == EffectivePlan(subs, clinicId);
      GatedCountWithinPlan(check.subscriptions, clinicId, resource,
                           if check.outcome.Success? then count + 1 else count, attempts - 1);
    }
  }

  /** On an active subscription with an inherited plan name every gated creation goes through. */
  lemma {:induction false} InheritedPlanCountsEveryAttempt(subs: Subscriptions, clinicId: string, resource: Resource,
                                                            count: nat, attempts: nat)
    requires resource != Storage
    requires clinicId in subs && subs[clinicId].status == "ACTIVE"
    requires subs[clinicId].plan in Plans.InheritedNames
    ensures GatedCount(subs, clinicId, resource, count, attempts) == count + attempts
    decreases attempts
  {
    if attempts > 0 {
      var usage := if resource == Users then Usage(count, 0) else Usage(0, count);
      var check := CheckLimit(subs, clinicId, resource, 0, usage);
      InheritedPlanHasNoCeiling(subs, clinicId, resource, 0, usage);
      InheritedPlanCountsEveryAttempt(check.subscriptions, clinicId, resource, count + 1, attempts - 1);
    }
  }

  /** `hasFeature(clinicId, code)`: false without a row (no self-healing here); true for every code on a plan
      listing 'ALL'; otherwise membership in the plan's list. An inherited plan has no list, and reading it throws. */
  function HasFeature(subs: Subscriptions, clinicId: string, code: string): (r: Result<bool, string>)
    ensures clinicId !in subs ==> r == Success(false)
    ensures r.Failure? <==> clinicId in subs && subs[clinicId].plan in Plans.InheritedNames
    ensures r.Failure? ==> r.error == FeaturesUndefined
    ensures r.Success? && clinicId in subs ==>
              var features := Plans.PlanFor(subs[clinicId].plan).config.features;
              (r.value <==> "ALL" in features || code in features)
  {
    if clinicId !in subs then Success(false)
    else
      match Plans.PlanFor(subs[clinicId].plan)
      case Inherited => Failure(FeaturesUndefined)
      case Tier(plan) => Success(if "ALL" in plan.features then true else code in plan.features)
  }

  /** Feature lookup only asks for a row, while the quota gate inserts one: after a check, a clinic that had no row
      gains the FREE features. */
  lemma SelfHealingGrantsFreeFeatures(subs: Subscriptions, clinicId: string, resource: Resource, requested: int, usage: Usage)
    requires clinicId !in subs
    ensures HasFeature(subs, clinicId, "PATIENTS") == Success(false)
    ensures HasFeature(CheckLimit(subs, clinicId, resource, requested, usage).subscriptions, clinicId, "PATIENTS") == Success(true)
    ensures HasFeature(CheckLimit(subs, clinicId, resource, requested, usage).subscriptions, clinicId, "FINANCE") == Success(false)
  {
    var h := CheckLimit(subs, clinicId, resource, requested, usage).subscriptions;
    assert h[clinicId] == FreeSubscription(clinicId);
    Plans.LookupExamples();
    assert Plans.Free.features[0] == "PATIENTS";
    assert "FINANCE" !in Plans.Free.features && "ALL" !in Plans.Free.features;
  }

  /** ENTERPRISE enables every code; FREE has no FINANCE. */
  lemma PlanFeatureExamples(subs: Subscriptions, clinicId: string, code: string)
    requires clinicId in subs
    ensures subs[clinicId].plan == "ENTERPRISE" ==> HasFeature(subs, clinicId, code) == Success(true)
    ensures subs[clinicId].plan == "FREE" ==> HasFeature(subs, clinicId, "FINANCE") == Success(false)
    ensures subs[clinicId].plan == "toString" ==> HasFeature(subs, clinicId, code).Failure?
  {
  }

  /** One usage line; a `None` maximum is the `undefined` that JSON then omits. */
  datatype Meter = Meter(used: int, max: Option<int>)

  datatype UsageStats = UsageStats(plan: string, status: string, patients: Meter, users: Meter, storage: Meter)

  /** `getUsageStats(clinicId)`: null without a row (no self-healing); otherwise the live counts against the
      plan's ceilings, with a null storage reading reported as 0. */
  function GetUsageStats(subs: Subscriptions, clinicId: string, usage: Usage): (r: Option<UsageStats>)
    ensures r.None? <==> clinicId !in subs
    ensures r.Some? ==>
      var sub := subs[clinicId];
      var plan := Plans.PlanFor(sub.plan);
      && r.value.plan == sub.plan && r.value.status == sub.status
      && r.value.patients == Meter(usage.patients, LimitOf(plan, Patients))
      && r.value.users == Meter(usage.users, LimitOf(plan, Users))
      && r.value.storage.max == LimitOf(plan, Storage)
      && (plan.Inherited? <==> r.value.patients.max.None?)
      && (sub.storageUsed.None? ==> r.value.storage.used == 0)
      && (sub.storageUsed.Some? ==> r.value.storage.used == sub.storageUsed.value)
  {
    if clinicId !in subs then None
    else
      var sub := subs[clinicId];
      var plan := Plans.PlanFor(sub.plan);
      Some(UsageStats(sub.plan, sub.status,
                      Meter(usage.patients, LimitOf(plan, Patients)),
                      Meter(usage.users, LimitOf(plan, Users)),
                      Meter(StoredBytes(sub), LimitOf(plan, Storage))))
  }

  /** The summary's meters agree with the gate: a counted resource passes exactly when its meter is below its ceiling. */
  lemma StatsAgreeWithGate(subs: Subscriptions, clinicId: string, usage: Usage)
    requires clinicId in subs && subs[clinicId].status == "ACTIVE"
    ensures var stats := GetUsageStats(subs, clinicId, usage).value;
            && (CheckLimit(subs, clinicId, Patients, 0, usage).outcome.Success? <==> Below(stats.patients.used, stats.patients.max))
            && (CheckLimit(subs, clinicId, Users, 0, usage).outcome.Success? <==> Below(stats.users.used, stats.users.max))
            && (CheckLimit(subs, clinicId, Storage, 0, usage).outcome.Success? <==> Below(stats.storage.used, stats.storage.max))
  {
  }
}

=== FILE: text.dfy ===
/** The JavaScript string operations the application relies on, over `seq<char>`.
    Whitespace is the ASCII subset of what `\s` and `String.prototype.trim` accept. */
module Text {

  /** `s.startsWith(p)` */
  predicate StartsWith(s: string, p: string) {
    |p| <= |s| && s[..|p|] == p
  }

  /** `s.includes(sub)`: `sub` occurs at some position of `s`. */
  predicate Contains(s: string, sub: string)
    decreases |s|
  {
    StartsWith(s, sub) || (|s| > 0 && Contains(s[1..], sub))
  }

  lemma StartsWithIsContains(s: string, p: string)
    requires StartsWith(s, p)
    ensures Contains(s, p)
  {
  }

  /** `c` occurs nowhere in `s`. */
  predicate Lacks(s: string, c: char) {
    forall i :: 0 <= i < |s| ==> s[i] != c
  }

  /** `x` is never immediately followed by `y` in `s`. */
  predicate LacksPair(s: string, x: char, y: char) {
    forall i :: 0 <= i < |s| - 1 ==> !(s[i] == x && s[i + 1] == y)
  }

  lemma LacksAppend(a: string, b: string, c: char)
    requires Lacks(a, c) && Lacks(b, c)
    ensures Lacks(a + b, c)
  {
    forall i | 0 <= i < |a + b|
      ensures (a + b)[i] != c
    {
      if i >= |a| {
        assert (a + b)[i] == b[i - |a|];
      }
    }
  }

  lemma LacksPairAppend(a: string, b: string, x: char, y: char)
    requires LacksPair(a, x, y) && LacksPair(b, x, y)
    requires |a| > 0 && |b| > 0 ==> !(a[|a| - 1] == x && b[0] == y)
    ensures LacksPair(a + b, x, y)
  {
    forall i | 0 <= i < |a + b| - 1
      ensures !((a + b)[i] == x && (a + b)[i + 1] == y)
    {
      if i >= |a| {
        assert (a + b)[i] == b[i - |a|] && (a + b)[i + 1] == b[i + 1 - |a|];
      } else if i + 1 < |a| {
        assert (a + b)[i] == a[i] && (a + b)[i + 1] == a[i + 1];
      } else {
        assert (a + b)[i] == a[|a| - 1] && (a + b)[i + 1] == b[0];
      }
    }
  }

  /** A string lacking one of the characters of `sub` does not contain `sub`. */
  lemma {:induction false} MissingCharNotContained(s: string, sub: string, j: nat)
    requires j < |sub| && Lacks(s, sub[j])
    ensures !Contains(s, sub)
    decreases |s|
  {
    if |s| > 0 {
      MissingCharNotContained(s[1..], sub, j);
    }
    if |sub| <= |s| {
      assert s[..|sub|][j] != sub[j];
    }
  }

  /** A string in which two adjacent characters of `sub` never appear together does not contain `sub`. */
  lemma {:induction false} MissingPairNotContained(s: string, sub: string, j: nat)
    requires j + 1 < |sub| && LacksPair(s, sub[j], sub[j + 1])
    ensures !Contains(s, sub)
    decreases |s|
  {
    if |s| > 0 {
      MissingPairNotContained(s[1..], sub, j);
    }
    if |sub| <= |s| {
      assert s[..|sub|][j] != sub[j] || s[..|sub|][j + 1] != sub[j + 1];
    }
  }

  /** `sub` occurs in any string that has it after some prefix. */
  lemma {:induction false} ContainsInside(a: string, sub: string, c: string)
    ensures Contains(a + sub + c, sub)
    decreases |a|
  {
    if |a| == 0 {
      assert a + sub + c == sub + c;
      assert (sub + c)[..|sub|] == sub;
    } else {
      ContainsInside(a[1..], sub, c);
      assert (a + sub + c)[1..] == a[1..] + sub + c;
    }
  }

  /** Text containing `sub` still contains it after anything is appended. */
  lemma {:induction false} ContainsExtend(s: string, sub: string, t: string)
    requires Contains(s, sub)
    ensures Contains(s + t, sub)
    decreases |s|
  {
    if StartsWith(s, sub) {
      assert (s + t)[..|sub|] == s[..|sub|];
    } else {
      ContainsExtend(s[1..], sub, t);
      assert (s + t)[1..] == s[1..] + t;
    }
  }

  /** ASCII whitespace: space, tab, line feed, vertical tab, form feed, carriage return. */
  predicate IsSpace(c: char) {
    c == ' ' || c == '\t' || c == '\n' || c == '\r' || c as int == 11 || c as int == 12
  }

  predicate HasSpace(s: string) {
    exists i :: 0 <= i < |s| && IsSpace(s[i])
  }

  /** Neither the first nor the last character is whitespace (what `trim` guarantees). */
  predicate NoEdgeSpace(s: string) {
    |s| == 0 || (!IsSpace(s[0]) && !IsSpace(s[|s| - 1]))
  }

  /** ASCII `toLowerCase` of one character. */
  function LowerChar(c: char): char {
    if 'A' <= c <= 'Z' then (c as int + 32) as char else c
  }

  predicate IsUpper(c: char) {
    'A' <= c <= 'Z'
  }

  /** `s.toLowerCase()` restricted to ASCII letters. */
  function ToLower(s: string): (r: string)
    ensures |r| == |s|
    ensures forall i :: 0 <= i < |s| ==> r[i] == LowerChar(s[i])
    ensures forall i :: 0 <= i < |r| ==> !IsUpper(r[i])
  {
    if |s| == 0 then "" else [LowerChar(s[0])] + ToLower(s[1..])
  }

  /** The number of whitespace characters `s` starts with. */
  function LeadingSpaces(s: string): (n: nat)
    ensures n <= |s|
    ensures forall k :: 0 <= k < n ==> IsSpace(s[k])
    ensures n < |s| ==> !IsSpace(s[n])
    decreases |s|
  {
    if |s| > 0 && IsSpace(s[0]) then 1 + LeadingSpaces(s[1..]) else 0
  }

  /** The number of whitespace characters `s` ends with. */
  function TrailingSpaces(s: string): (n: nat)
    ensures n <= |s|
    ensures forall k :: |s| - n <= k < |s| ==> IsSpace(s[k])
    ensures n < |s| ==> !IsSpace(s[|s| - n - 1])
    decreases |s|
  {
    if |s| > 0 && IsSpace(s[|s| - 1]) then 1 + TrailingSpaces(s[..|s| - 1]) else 0
  }

  /** Leading whitespace removed: what is dropped is whitespace, what is kept starts with a non-space. */
  function TrimStart(s: string): (r: string)
    ensures |r| <= |s| && r == s[|s| - |r|..]
    ensures forall k :: 0 <= k < |s| - |r| ==> IsSpace(s[k])
    ensures |r| > 0 ==> !IsSpace(r[0])
  {
    s[LeadingSpaces(s)..]
  }

  /** Trailing whitespace removed: what is dropped is whitespace, what is kept ends with a non-space. */
  function TrimEnd(s: string): (r: string)
    ensures |r| <= |s| && r == s[..|r|]
    ensures forall k :: |r| <= k < |s| ==> IsSpace(s[k])
    ensures |r| > 0 ==> !IsSpace(r[|r| - 1])
  {
    s[..|s| - TrailingSpaces(s)]
  }

  /** `s.trim()` */
  function Trim(s: string): (r: string)
    ensures NoEdgeSpace(r)
    ensures |r| <= |s|
  {
    TrimEnd(TrimStart(s))
  }

  /** What `trim` keeps: one contiguous slice of the input, with only whitespace cut before and after it. */
  lemma TrimIsInnerSlice(s: string)
    ensures var r := Trim(s); var a := |s| - |TrimStart(s)|;
            && a + |r| <= |s| && r == s[a..a + |r|]
            && (forall k :: 0 <= k < a ==> IsSpace(s[k]))
            && (forall k :: a + |r| <= k < |s| ==> IsSpace(s[k]))
  {
    assert Trim(s) == TrimEnd(TrimStart(s));
    InnerSlice(s, TrimStart(s), Trim(s));
  }

  /** A front part `r` of a suffix `t` of `s` is a slice of `s`; whitespace cut around `r` in `t`, or before `t` in
      `s`, is whitespace of `s`. */
  lemma InnerSlice(s: string, t: string, r: string)
    requires |t| <= |s| && t == s[|s| - |t|..]
    requires forall k :: 0 <= k < |s| - |t| ==> IsSpace(s[k])
    requires |r| <= |t| && r == t[..|r|]
    requires forall k :: |r| <= k < |t| ==> IsSpace(t[k])
    ensures var a := |s| - |t|;
            && a + |r| <= |s| && r == s[a..a + |r|]
            && (forall k :: 0 <= k < a ==> IsSpace(s[k]))
            && (forall k :: a + |r| <= k < |s| ==> IsSpace(s[k]))
  {
    var a := |s| - |t|;
    forall k | a + |r| <= k < |s|
      ensures IsSpace(s[k])
    {
      assert s[k] == t[k - a];
    }
  }

  /** Trimming leaves a string without edge whitespace unchanged. */
  lemma TrimKeepsClean(s: string)
    requires NoEdgeSpace(s)
    ensures Trim(s) == s
  {
  }

  /** Trimming ignores one extra leading space. */
  lemma TrimDropsLeadingSpace(s: string)
    ensures Trim(" " + s) == Trim(s)
  {
    assert (" " + s)[1..] == s;
  }

  /** Number of occurrences of `c` in `s`. */
  function CountChar(s: string, c: char): nat
    decreases |s|
  {
    if |s| == 0 then 0 else (if s[0] == c then 1 else 0) + CountChar(s[1..], c)
  }

  /** `s.split(sep)` for a one-character separator: the maximal separator-free pieces, always at least one. */
  function Split(s: string, sep: char): (r: seq<string>)
    ensures |r| >= 1
    ensures forall i :: 0 <= i < |r| ==> sep !in r[i]
    decreases |s|
  {
    if |s| == 0 then [""]
    else
      var rest := Split(s[1..], sep);
      if s[0] == sep then [""] + rest
      else [[s[0]] + rest[0]] + rest[1..]
  }

  /** `xs.join(d)` */
  function Join(xs: seq<string>, d: string): string
    decreases |xs|
  {
    if |xs| == 0 then ""
    else if |xs| == 1 then xs[0]
    else xs[0] + d + Join(xs[1..], d)
  }

  /** Splitting yields one more piece than there are separators. */
  lemma {:induction false} SplitCount(s: string, sep: char)
    ensures |Split(s, sep)| == CountChar(s, sep) + 1
    decreases |s|
  {
    if |s| > 0 {
      SplitCount(s[1..], sep);
    }
  }

  /** Joining the pieces back with the separator restores the string. */
  lemma {:induction false} JoinSplit(s: string, sep: char)
    ensures Join(Split(s, sep), [sep]) == s
    decreases |s|
  {
    if |s| > 0 {
      var rest := Split(s[1..], sep);
      JoinSplit(s[1..], sep);
      if s[0] == sep {
        assert s == [sep] + s[1..];
      } else {
        if |rest| == 1 {
          assert s == [s[0]] + s[1..];
        } else {
          assert Join(rest, [sep]) == rest[0] + [sep] + Join(rest[1..], [sep]);
          assert s == [s[0]] + s[1..];
        }
      }
    }
  }

  /** A separator-free prefix followed by the separator becomes the first piece. */
  lemma {:induction false} SplitAfterPiece(a: string, sep: char, t: string)
    requires sep !in a
    ensures Split(a + [sep] + t, sep) == [a] + Split(t, sep)
    decreases |a|
  {
    if |a| == 0 {
      assert a + [sep] + t == [sep] + t;
      assert ([sep] + t)[1..] == t;
    } else {
      SplitAfterPiece(a[1..], sep, t);
      assert (a + [sep] + t)[1..] == a[1..] + [sep] + t;
      assert [a[0]] + a[1..] == a;
    }
  }

  /** A separator-free string is one piece. */
  lemma {:induction false} SplitWhole(a: string, sep: char)
    requires sep !in a
    ensures Split(a, sep) == [a]
    decreases |a|
  {
    if |a| > 0 {
      SplitWhole(a[1..], sep);
      assert [a[0]] + a[1..] == a;
    }
  }

  /** Splitting a join of separator-free pieces gives the pieces back. */
  lemma {:induction false} SplitJoin(xs: seq<string>, sep: char)
    requires |xs| >= 1
    requires forall i :: 0 <= i < |xs| ==> sep !in xs[i]
    ensures Split(Join(xs, [sep]), sep) == xs
    decreases |xs|
  {
    if |xs| == 1 {
      SplitWhole(xs[0], sep);
    } else {
      SplitJoin(xs[1..], sep);
      SplitAfterPiece(xs[0], sep, Join(xs[1..], [sep]));
      assert [xs[0]] + xs[1..] == xs;
    }
  }

  /** The decimal digit `d`. */
  function DigitChar(d: nat): char
    requires d < 10
  {
    "0123456789"[d]
  }

  /** Decimal rendering of a natural number, as JavaScript template literals print it. */
  function NatToString(n: nat): string
    decreases n
  {
    if n < 10 then [DigitChar(n)] else NatToString(n / 10) + [DigitChar(n % 10)]
  }

  /** Decimal rendering of an integer with a leading '-' when negative. */
  function IntToString(i: int): string {
    if i < 0 then "-" + NatToString(-i) else NatToString(i)
  }
}

=== FILE: token_service.dfy ===
/** The claims carried by an access token. Signing and verification are cryptographic and are
    passed to the models that use them as functions (`sign`, `verify`). */
module TokenService {
  import opened Results

  datatype TokenPayload = TokenPayload(userId: string, clinicId: string, roleId: string, role: string, email: string)

  /** A verifier that accepts every token `sign` produced and returns its claims unchanged. */
  ghost predicate VerifiesSigned(sign: TokenPayload -> string, verify: string -> Option<TokenPayload>) {
    forall p :: verify(sign(p)) == Some(p)
  }
}
